=== FILE: README.md ===
# DCF engine: spreadsheet wrapper and year logic

This project is a Dafny model of two parts of the DCF engine.

The first part is the spreadsheet wrapper in `excel_code.py`. It covers:

- the address codec: column letters to indices and back, splitting `"AB12"` into column and row, and letter ranges;
- the `Cell` value object: equality by address, column-major ordering, column shifts and the arithmetic operators;
- a workbook store that abstracts the spreadsheet library: sheets with sparse cells and extents, defined names, the active sheet, sheet creation, renaming, removal, merging and range iteration;
- the three session kinds — read, modify and write — as one state machine over a disk (a map from path to saved workbook), covering opening, entering, saving and exiting;
- the `[]` read, write and delete protocol over sheet titles, defined names, ranges and single positions, plus the in-place operators;
- the sheet-level edits: `new_sheet`, `rename_sheet`, `remove_sheet`, `clear_sheet`, `clear_workbook`, `_merge_workbooks`, `+` and `+=`.

The second part is the year logic of `dcf_initialiser.py`:

- `check_years` and its bounds;
- the window of past years;
- the one-year fallback when the latest statements are missing;
- the seeded forecast years;
- the year window of the competitor query.

Effects are parameters:

- The disk is part of the session value.
- The formula evaluator is an oracle from a saved workbook and a reference to a value.
- The calendar year is a parameter.
- The financial-data providers are oracles that only say whether they delivered.
- The interactive "create the file?" prompt is a boolean `confirm`.

Errors the Python code raises are values of one `Error` datatype, for example `KeyError(title)`, `AttributeError`, `TypeError` and `ValueError(reason)`. Every operation returns either a result or the error the source raises on that path. Operations on a session return the new session as well, since a failing call can still have changed the workbook or the disk.

All source paths below are in `DCF_Engine/`. The copies under `code/` are identical, line for line.

## Model

| member | source | states |
|---|---|---|
| Text.DecimalOfNatText | DCF_Engine/Excel_Engine_Old/excel_code.py:147-149 | The row text of a position, as `str(row)` prints it, parses back to the same row number |
| Text.NatTextOfDecimal | DCF_Engine/Excel_Engine_Old/excel_code.py:293-308 | Canonical digit text is exactly what `str` prints for its value, so parsing then printing a row gives the text back |
| Text.JoinSplit | DCF_Engine/Excel_Engine_Old/excel_code.py:450-451 | `str.split(':')` loses nothing: joining the parts with the separator gives back the range text |
| Text.SplitOnce | DCF_Engine/Excel_Engine_Old/excel_code.py:450-451 | A range text `start:end` with colon-free corners splits into exactly the two corners |
| Text.DigitsAppend | DCF_Engine/Excel_Engine_Old/excel_code.py:304-306 | Filtering a text's digits and non-digits distributes over concatenation |
| Columns.NumToColOfColToNum | DCF_Engine/Excel_Engine_Old/excel_code.py:206-218 | `num_to_col` inverts `col_to_num` on every upper-case letter string |
| Columns.ColToNumOfNumToCol | DCF_Engine/Excel_Engine_Old/excel_code.py:206-218 | `col_to_num` inverts `num_to_col` on every non-negative index, so the bijective base-26 codec is a bijection |
| Columns.ColToNumInjective | DCF_Engine/Excel_Engine_Old/excel_code.py:207-211 | Two letter strings have the same column index exactly when they are equal |
| Columns.AtMostThreeLetters | DCF_Engine/Excel_Engine_Old/excel_code.py:311-326 | A column name lies inside the library's index range 1 .. 18278 exactly when it has at most three letters |
| Columns.ShorterColumnFirst | DCF_Engine/Excel_Engine_Old/excel_code.py:155-168 | A column with fewer letters has a smaller index ("Z" comes before "AA") |
| Columns.SameWidthOrder | DCF_Engine/Excel_Engine_Old/excel_code.py:155-168 | For names of equal length, Python's string `<` agrees with index order |
| Columns.ColumnOrderIsIndexOrder | DCF_Engine/Excel_Engine_Old/excel_code.py:155-168 | The length-then-lexicographic test that `__lt__` applies to columns is exactly "smaller column index" |
| Columns.ColumnNumber | DCF_Engine/Excel_Engine_Old/excel_code.py:207-211 | The loop computes the index of a column name, and that index decodes back to the name |
| Columns.ColumnLetters | DCF_Engine/Excel_Engine_Old/excel_code.py:213-218 | The loop computes the name of a positive index, an upper-case name that encodes back to the index |
| Columns.ShiftColumn | DCF_Engine/Excel_Engine_Old/excel_code.py:206-224 | A shift succeeds exactly when the shifted index is at least 1; it then gives the column whose index is the old one plus the shift, and otherwise a ValueError |
| Columns.ShiftColumnBack | DCF_Engine/Excel_Engine_Old/excel_code.py:206-224 | Shifting by k and then by -k gives back the column |
| Columns.ColumnStrToInt | DCF_Engine/Excel_Engine_Old/excel_code.py:311-317 | Succeeds exactly on one to three ASCII letters in any case; the index then names the upper-cased text; anything else is a ValueError |
| Columns.ColumnIntToStr | DCF_Engine/Excel_Engine_Old/excel_code.py:320-326 | Succeeds exactly on 1 .. 18278, giving a name of at most three letters that encodes back to the index |
| Columns.LibraryCodecRoundTrip | DCF_Engine/Excel_Engine_Old/excel_code.py:311-326 | The two library lookups invert each other and agree with the source's own `num_to_col` |
| Columns.CharRange | DCF_Engine/Excel_Engine_Old/excel_code.py:342-347 | `char_range` needs one-character bounds; it yields every character from the first to the last in code-point order, and nothing when the first lies after the last |
| Addresses.SplitCell | DCF_Engine/Excel_Engine_Old/excel_code.py:293-308 | Splitting fails with a ValueError exactly when the text has no digit; otherwise the column part is digit-free and the row is a non-negative number |
| Addresses.SplitOfPosition | DCF_Engine/Excel_Engine_Old/excel_code.py:293-308 | Splitting the position `col + str(row)` gives back the column and the row |
| Addresses.SplitCanonical | DCF_Engine/Excel_Engine_Old/excel_code.py:293-308 | A canonical address is rebuilt from its split parts, so split and position are inverse |
| Addresses.SplitCellInt | DCF_Engine/Excel_Engine_Old/excel_code.py:329-339 | Succeeds exactly when the text splits and its column part is a library column; the index then names the upper-cased column and the row is the split row |
| Addresses.SplitCellIntOfPosition | DCF_Engine/Excel_Engine_Old/excel_code.py:329-339 | The position of a column of at most three letters gives back that column's index and the row |
| Addresses.CellCoordinate | DCF_Engine/Excel_Engine_Old/excel_code.py:606-633 | A key `ws[key]` reads as one cell only when it has no ':', and the cell then lies in rows 1 .. 1048576 and columns 1 .. 18278 |
| Addresses.KeyHalfSpells | DCF_Engine/Excel_Engine_Old/excel_code.py:627-633 | What the coordinate pattern reads from a key (optional '$', letters, optional '$', digits) spells the key back, so the pattern loses nothing |
| Addresses.KeyHalfOfSpell | DCF_Engine/Excel_Engine_Old/excel_code.py:627-633 | Every key of the pattern's shape (at most three letters, a '$' before the digits only after a leading one when there are no letters) is read back as exactly its parts |
| Addresses.CoordinateSpelled | DCF_Engine/Excel_Engine_Old/excel_code.py:627-633 | A key read as a cell is such a spelling: its letters, in either case, name the cell's column and its digits give the cell's row |
| Addresses.CellOfLetters | DCF_Engine/Excel_Engine_Old/excel_code.py:627-633 | A key with one to three letters of either case and a row in 1 .. 1048576 reads as the cell of the upper-cased letters and that row, whatever its anchors |
| Addresses.AnchorsIgnored | DCF_Engine/Excel_Engine_Old/excel_code.py:606-633 | Dropping the '$' anchors from a key never changes what it reads as, cell or error |
| Addresses.SideErrors | DCF_Engine/Excel_Engine_Old/excel_code.py:627-633 | A bare column, and a bare row in range, give a tuple of cells, so `.value` is AttributeError; no column and row 0 is IndexError; a row past 1048576, or a cell in row 0, is ValueError |
| Addresses.PositionsAgree | DCF_Engine/Excel_Engine_Old/excel_code.py:570-633 | For a valid column and row, the source's split, its library lookup and the library's reading of the position agree on one coordinate |
| Addresses.AnchoredPositionsAgree | DCF_Engine/Excel_Engine_Old/excel_code.py:561-563 | A position with '$' before its column, its row or both, as Excel stores the targets of defined names, names the same cell as the bare position |
| Addresses.DefinedNameTarget | DCF_Engine/Excel_Engine_Old/excel_code.py:606-610 | The defined-name target "$C$3" reads as the cell in column 3, row 3 |
| Cells.EqualityIsAddressOnly | DCF_Engine/Excel_Engine_Old/excel_code.py:137-149 | Cells are equal exactly when column, row and sheet agree; value and formula do not take part |
| Cells.LtIsColumnMajor | DCF_Engine/Excel_Engine_Old/excel_code.py:155-168 | On one sheet, `<` orders cells by column index and then by row |
| Cells.GtIsConverse | DCF_Engine/Excel_Engine_Old/excel_code.py:175-187 | `a > b` is `b < a` |
| Cells.LtIsStrictTotalOrder | DCF_Engine/Excel_Engine_Old/excel_code.py:155-168 | On one sheet `<` is irreflexive, transitive and asymmetric, and it relates every two cells that are not equal |
| Cells.ComparisonErrors | DCF_Engine/Excel_Engine_Old/excel_code.py:155-191 | Comparing with a non-cell, or with a cell of another sheet, is a ValueError for all four operators; `<=` and `>=` are equality or the strict test |
| Cells.ShiftRight | DCF_Engine/Excel_Engine_Old/excel_code.py:194-224 | `>> k` moves only the column, k places right, and fails exactly when the index would drop below 1 |
| Cells.ShiftLeft | DCF_Engine/Excel_Engine_Old/excel_code.py:194-224 | `<< k` moves only the column, k places left, and fails exactly when the index would drop below 1 |
| Cells.ShiftRoundTrip | DCF_Engine/Excel_Engine_Old/excel_code.py:194-224 | Shifting right by k and then left by k gives back the cell |
| Cells.ModInt | DCF_Engine/Excel_Engine_Old/excel_code.py:62-70 | Python's `%` on ints: the floor-division identity holds and the remainder takes the divisor's sign |
| Cells.Repeat | DCF_Engine/Excel_Engine_Old/excel_code.py:62-70 | String repetition by a count gives count times the text's length characters, the character at i being the text's character at i modulo its length, and nothing for a count of zero or less |
| Cells.Rewrap | DCF_Engine/Excel_Engine_Old/excel_code.py:62-70 | A ValueError from an operator becomes the wrapper's ValueError naming the operator; other outcomes pass through |
| Cells.InPlace | DCF_Engine/Excel_Engine_Old/excel_code.py:75-84 | An in-place operator succeeds exactly when the binary one does; it then replaces only the value, so the cell stays equal to the original and keeps its formula |
| Cells.CellOperandIsItsValue | DCF_Engine/Excel_Engine_Old/excel_code.py:62-70 | A Cell operand acts as its value |
| Cells.NoValueErrorFromOperators | DCF_Engine/Excel_Engine_Old/excel_code.py:62-70 | A binary operator is the arithmetic of the cell value and the operand value |
| Cells.InPlaceExamples | DCF_Engine/Excel_Engine_Old/tests/test_excel_code.py:26-42 | A cell holding 3 becomes 6, 9 and 0 under `+= 3`, `*= 3` and `-= 3`; `/= 3` gives the float 1.0, which is outside the model (`Unmodelled`), and `/= 0` is ZeroDivisionError |
| Store.ReadOnlyLabelIsNotSheetLabel | DCF_Engine/Excel_Engine_Old/excel_code.py:507-541 | A read session's Cell label, the text of a worksheet loaded read-only, never equals the `<Worksheet "title">` label of any title |
| Store.Find | DCF_Engine/Excel_Engine_Old/excel_code.py:244-249 | A title is found exactly when it is among the sheet titles, and then at a sheet with that title; otherwise the lookup raises KeyError(title) |
| Store.FindOwnTitle | DCF_Engine/Excel_Engine_Old/excel_code.py:244-249 | With distinct titles, a sheet's own title finds that sheet |
| Store.Locate | DCF_Engine/Excel_Engine_Old/excel_code.py:570-580 | Indexing a sheet by a position succeeds exactly when the position parses, and leaves every cell value, title, name and the active sheet as they were |
| Store.WriteAt | DCF_Engine/Excel_Engine_Old/excel_code.py:627-633 | A write at a parsed position changes that one cell of that one sheet and nothing else; a bad position gives the parser's error |
| Store.CreateSheet | DCF_Engine/Excel_Engine_Old/excel_code.py:734-738 | A fresh title appends one empty sheet with that title and leaves the other sheets, the names and the active index alone |
| Store.UnicodeClashUnmodelled | DCF_Engine/Excel_Engine_Old/excel_code.py:734-738 | A new title that clashes with an existing one only under Unicode case folding ("über" beside "Über") is not taken as given: the creation gives `Unmodelled` rather than a sheet the library would have titled differently |
| Store.RemoveAt | DCF_Engine/Excel_Engine_Old/excel_code.py:810-811 | Removing a sheet drops exactly that sheet and keeps the rest in order |
| Store.RenameAt | DCF_Engine/Excel_Engine_Old/excel_code.py:741-745 | Renaming changes exactly the one title and keeps the sheet's cells |
| Store.RemoveAll | DCF_Engine/Excel_Engine_Old/excel_code.py:794-807 | Removing a list of titles fails only with KeyError for a title of the list; names and the active index are kept |
| Store.RemoveEverySheet | DCF_Engine/Excel_Engine_Old/excel_code.py:794-807 | Removing every sheet by its own title succeeds and leaves no sheet |
| Store.ClearWorkbook | DCF_Engine/Excel_Engine_Old/excel_code.py:794-807 | With no list (or an empty one) the workbook ends with the single empty sheet "Sheet1"; a non-empty list always fails, with UnboundLocalError or a KeyError for one of its titles |
| Store.MergeSheets | DCF_Engine/Excel_Engine_Old/excel_code.py:713-718 | The merged sheet keeps the first sheet's rows and appends the second sheet's rows below its last row, so its height is the sum of the two |
| Store.CopySheet | DCF_Engine/Excel_Engine_Old/excel_code.py:351-369 | The copy holds the same value at every cell and has the same extents under the new title |
| Store.MergeIntoSpec | DCF_Engine/Excel_Engine_Old/excel_code.py:697-718 | After a successful merge, each sheet with a matching title has the other sheet's rows appended, each new title is a copy at the end, and all other sheets are unchanged |
| Store.GridShape | DCF_Engine/Excel_Engine_Old/excel_code.py:457-459 | The column-then-row loop visits each (column, row) pair exactly once, at slot column × rows + row |
| Store.ProduceOutputs | DCF_Engine/Excel_Engine_Old/excel_code.py:457-470 | Each yielded item is what the flags ask for at its position: the library cell, the value, a Cell of the value, or the position text |
| Store.ProducePositions | DCF_Engine/Excel_Engine_Old/excel_code.py:457-470 | With only `pos_only`, the range yields the position texts and leaves the workbook untouched |
| Store.ProduceNothing | DCF_Engine/Excel_Engine_Old/excel_code.py:457-470 | With no flag set, a non-empty range raises "Nothing is specified to be returned" at its first item |
| Store.RangeBounds | DCF_Engine/Excel_Engine_Old/excel_code.py:448-455 | A range text must split into two parseable corners; without one, the sheet's extents with "A1" as the origin, which fails past column Z |
| Store.RangeSheet | DCF_Engine/Excel_Engine_Old/excel_code.py:446-447 | An empty sheet name picks the active sheet; any other name must be a title |
| Store.Range | DCF_Engine/Excel_Engine_Old/excel_code.py:433-470 | Iterating a range never changes a cell value, a title, a name or the active sheet |
| Store.RangeItems | DCF_Engine/Excel_Engine_Old/excel_code.py:433-470 | A successful range yields one item per (column, row) of its rectangle, columns on the outside, the item at column c and row r being what the flags ask for at that position |
| Sessions.OpenExcel | DCF_Engine/Excel_Engine_Old/excel_code.py:893-924 | `open_excel` accepts exactly the modes "r", "m" and "w" and gives an unopened session of that kind on the same disk; any other mode is a ValueError |
| Sessions.Enter | DCF_Engine/Excel_Engine_Old/excel_code.py:372-375 | Entering loads the saved workbook at the path; without a path it starts a new workbook, except in read mode (TypeError); a missing file is FileNotFound except in write mode, which creates it only on confirmation |
| Sessions.Save | DCF_Engine/Excel_Engine_Old/excel_code.py:828-847 | Only a write session holding a workbook saves, to the given path or else its own; the disk changes at that one path; without any path the error is ValueError |
| Sessions.SaveThenEnter | DCF_Engine/Excel_Engine_Old/excel_code.py:828-847 | Reopening a saved path in any mode gives back the workbook that was saved |
| Sessions.Close | DCF_Engine/Excel_Engine_Old/excel_code.py:378-382 | Exiting drops the held workbook, and fails with AttributeError when none is held |
| Sessions.Exit | DCF_Engine/Excel_Engine_Old/excel_code.py:864-869 | Exit keeps the mode and path and leaves no workbook held |
| Sessions.ExitSavesOnlyWhenClean | DCF_Engine/Excel_Engine_Old/excel_code.py:864-869 | A write session saves on exit exactly when the block ended without an exception; other sessions never touch the disk |
| Sessions.Compile | DCF_Engine/Excel_Engine_Old/excel_code.py:815-818 | The formula engine reads the saved file: a modify session compiles what is on disk, and a write session first saves its workbook |
| Sessions.EvaluatorSeesCurrentBook | DCF_Engine/Excel_Engine_Old/excel_code.py:587-591 | In a write session, `evaluate_formula` evaluates against the workbook being edited, qualified by the active title, and saves it as a side effect |
| Sessions.EvaluateFormula | DCF_Engine/Excel_Engine_Old/excel_code.py:587-591 | A read session has no `evaluate_formula` (AttributeError); otherwise the cell or text is evaluated as a reference on the active sheet |
| Sessions.NameValue | DCF_Engine/Excel_Engine_Old/excel_code.py:561-563 | Reading a defined name gives the value at its first destination, or nothing when it has none |
| Sessions.PositionItem | DCF_Engine/Excel_Engine_Old/excel_code.py:487-580 | Reading a position gives a Cell of the active sheet's value at that column and row, labelled `<Worksheet "title">` in a modify or write session and with the read-only worksheet's object text in a read session, whose workbook is loaded read-only; the disk changes only if the value looks like a formula |
| Sessions.GetText | DCF_Engine/Excel_Engine_Old/excel_code.py:550-580 | A text index is tried as a sheet title first, then as a defined name, then as a position |
| Sessions.CellValueRead | DCF_Engine/Excel_Engine_Old/excel_code.py:500-501 | In a read session, indexing by a Cell gives the value of the Cell found at its position |
| Sessions.CellValueModify | DCF_Engine/Excel_Engine_Old/excel_code.py:565-569 | In a modify or write session, indexing by a Cell needs a text value at its position (the `in` test); a value that is not a formula comes back as it is |
| Sessions.GetItem | DCF_Engine/Excel_Engine_Old/excel_code.py:487-580 | Without a workbook every read is AttributeError; an integer index is a TypeError; reading never changes the workbook's content |
| Sessions.Contains | DCF_Engine/Excel_Engine_Old/excel_code.py:510-520 | `in` is title membership for text; for a Cell it compares the value at its position on its sheet; anything else is not contained |
| Sessions.ReadCellIsNeverContained | DCF_Engine/Excel_Engine_Old/excel_code.py:510-520 | A Cell read from a modify or write session carries the sheet's printed label rather than its title, so `in` on it ends in a ValueError |
| Sessions.Name | DCF_Engine/Excel_Engine_Old/excel_code.py:523-532 | Naming a range binds the name to one destination on the given sheet, or on the active sheet when none is given; an unknown sheet is KeyError |
| Sessions.Length | DCF_Engine/Excel_Engine_Old/excel_code.py:385-389 | `len` is the number of sheets |
| SheetEdits.LengthFollowsSheetEdits | DCF_Engine/Excel_Engine_Old/excel_code.py:385-389 | `len` goes up by one after a successful `new_sheet`, down by one after a successful `remove_sheet`, and is unchanged when either fails |
| Sessions.Copy | DCF_Engine/Excel_Engine_Old/excel_code.py:421-422 | A copy is a modify session on the same path, holding what is saved there, or a new workbook when there is no path |
| Edits.WriteActive | DCF_Engine/Excel_Engine_Old/excel_code.py:627-633 | Writing a position sets that cell of the active sheet and nothing else; no active sheet is a TypeError |
| Edits.WriteDestsSpec | DCF_Engine/Excel_Engine_Old/excel_code.py:606-610 | Writing a defined name sets exactly the cells its destinations name, and leaves all other cells alone |
| Edits.SingleNameWrite | DCF_Engine/Excel_Engine_Old/excel_code.py:606-610 | Assigning to a defined name with one destination on an existing sheet writes exactly the cell its reference names, and leaves every other cell and sheet as it was |
| Edits.AnchoredNameWrite | DCF_Engine/Excel_Engine_Old/excel_code.py:606-610 | Assigning to a defined name whose destination is stored as "$C$3" writes cell C3 of its sheet and no other cell of it |
| Edits.RangeCells | DCF_Engine/Excel_Engine_Old/excel_code.py:612-622 | A range text splits into two corners, and its positions are exactly the letter-by-row rectangle between them; a text without exactly one colon fails to unpack |
| Edits.SetText | DCF_Engine/Excel_Engine_Old/excel_code.py:595-633 | Assigning to a sheet title is a TypeError; assigning to a range with bad corners fails without writing |
| Edits.DelText | DCF_Engine/Excel_Engine_Old/excel_code.py:636-660 | Deleting a sheet title fails with ValueError and never changes titles, names or the active sheet |
| Edits.RectangleWrite | DCF_Engine/Excel_Engine_Old/excel_code.py:612-622 | Writing over a rectangle's grid sets every cell inside it, keeps every cell outside it, and leaves the other sheets alone |
| Edits.SetItem | DCF_Engine/Excel_Engine_Old/excel_code.py:595-633 | Item assignment is a TypeError in read mode, for a non-text index and for a sheet title; without a workbook it is AttributeError |
| Edits.DelItem | DCF_Engine/Excel_Engine_Old/excel_code.py:636-660 | Item deletion is a TypeError in read mode and for a non-text index; deleting a sheet title is a ValueError |
| Edits.SetPosition | DCF_Engine/Excel_Engine_Old/excel_code.py:627-633 | Assigning to a valid position writes exactly that cell of the active sheet |
| Edits.ReadAfterWrite | DCF_Engine/Excel_Engine_Old/excel_code.py:570-633 | Reading a position after assigning a non-formula value to it gives a Cell holding that value |
| Edits.DeletePosition | DCF_Engine/Excel_Engine_Old/excel_code.py:636-660 | Deleting a position sets exactly that cell to 0 |
| Edits.SetRangeFillsRectangle | DCF_Engine/Excel_Engine_Old/excel_code.py:612-622 | Assigning to a range sets every cell of the rectangle to the value and changes no other cell or sheet |
| Edits.DeleteRangeZeroesRectangle | DCF_Engine/Excel_Engine_Old/excel_code.py:636-660 | Deleting a range sets every cell of the rectangle to 0 and changes nothing else |
| Edits.NamedWriteThenRead | DCF_Engine/Excel_Engine_Old/excel_code.py:523-610 | After naming a cell (`name`) and assigning through the name (`__setitem__`), the cell holds the value and reading the name (`__getitem__`) gives it back, as tests/test_excel_code.py:45-49 uses names |
| Edits.AugAssign | DCF_Engine/Excel_Engine_Old/excel_code.py:75-84 | `doc[i] op= v` keeps the mode and path, and without a workbook is AttributeError |
| Edits.AugAssignPosition | DCF_Engine/Excel_Engine_Old/excel_code.py:75-84 | `doc[pos] op= v` succeeds exactly when the operator does, and then writes the result back to that cell only |
| Edits.SetThenAugAssign | DCF_Engine/Excel_Engine_Old/tests/test_excel_code.py:26-42 | Setting x and then applying `op= y` leaves a cell that reads back as `x op y` |
| Edits.CellMathExamples | DCF_Engine/Excel_Engine_Old/tests/test_excel_code.py:26-42 | Setting "A2" to 3 and applying `+= 3`, `*= 3` or `-= 3` reads back 6, 9 or 0; the test's `/= 3` gives a float and is outside the model |
| Edits.ReadBack | DCF_Engine/Excel_Engine_Old/excel_code.py:570-580 | Reading a position of the active sheet gives a Cell with the stored value, the column, the row and the sheet label |
| SheetEdits.NewSheet | DCF_Engine/Excel_Engine_Old/excel_code.py:734-738 | `new_sheet` succeeds exactly for a modify or write session holding a workbook and a fresh title; it appends one empty sheet and keeps the rest |
| SheetEdits.RenameSheet | DCF_Engine/Excel_Engine_Old/excel_code.py:741-745 | `rename_sheet` needs an existing title and changes only that title, keeping the sheet's cells; an unknown title is KeyError |
| SheetEdits.RemoveSheet | DCF_Engine/Excel_Engine_Old/excel_code.py:810-811 | `remove_sheet` succeeds exactly on an existing title and removes exactly that sheet; an unknown title is KeyError |
| SheetEdits.RemovedTitleGone | DCF_Engine/Excel_Engine_Old/excel_code.py:810-811 | After a removal the title is gone and there is one sheet fewer |
| SheetEdits.SetOnSheet | DCF_Engine/Excel_Engine_Old/excel_code.py:784-791 | `doc[sheet][pos] = v` on a title writes that cell in modify and write mode and is a TypeError in read mode; on anything else the write fails |
| SheetEdits.SheetLifecycle | DCF_Engine/Excel_Engine_Old/tests/test_excel_code.py:51-67 | Creating a sheet, writing any in-bounds position of it (the test writes "A2"), renaming it and removing it all succeed; the value lands in the new last sheet at that column and row, the rename replaces the title, and the titles end as they began |
| SheetEdits.RangeListsGrid | DCF_Engine/Excel_Engine_Old/tests/test_excel_code.py:69-75 | With only `pos_only`, `range` yields exactly the positions of its letter-by-row grid |
| SheetEdits.ClearSheet | DCF_Engine/Excel_Engine_Old/excel_code.py:784-791 | `clear_sheet` empties the cells of the range on a titled sheet without touching the disk; any other sheet name ends in an error |
| SheetEdits.ClearWholeSheet | DCF_Engine/Excel_Engine_Old/excel_code.py:784-791 | Clearing a sheet with no range given empties every cell of that sheet and leaves the other sheets alone |
| SheetEdits.ClearBook | DCF_Engine/Excel_Engine_Old/excel_code.py:794-808 | `clear_workbook` leaves one empty "Sheet1" and keeps the names; only a write session with a path may save, and it saves exactly when asked; a non-empty list always fails; without a workbook the call is AttributeError |
| SheetEdits.ClearRangeEmptiesRectangle | DCF_Engine/Excel_Engine_Old/excel_code.py:784-791 | Clearing a range on a titled sheet empties exactly the cells of its rectangle, keeps every other cell of that sheet and leaves the other sheets and the titles alone |
| SheetEdits.IAdd | DCF_Engine/Excel_Engine_Old/excel_code.py:680-694 | `+=` never succeeds and never changes the session: the error depends on what is added |
| SheetEdits.Add | DCF_Engine/Excel_Engine_Old/excel_code.py:663-677 | `+` works on a copy, leaves the session as it was, and fails as `+=` on that copy fails |
| SheetEdits.MergeFromPath | DCF_Engine/Excel_Engine_Old/excel_code.py:697-710 | Merging from a path opens it as a write session on the same disk, creating the file only on confirmation, and keeps the mode and path of the session |
| SheetEdits.MergeFromPathSpec | DCF_Engine/Excel_Engine_Old/excel_code.py:697-718 | A successful merge from a path appends the file's sheets into the held workbook as the sheet-by-sheet merge describes |
| Years.CheckYears | DCF_Engine/dcf_initialiser.py:218-250 | Each count is brought into its bounds on its own (history 3 .. 10, forecast 1 .. 10), unchanged when already inside, and otherwise to the nearest bound |
| Years.CheckYearsIdempotent | DCF_Engine/dcf_initialiser.py:218-250 | Checking checked counts changes nothing |
| Years.ListYears | DCF_Engine/dcf_initialiser.py:138-147 | The window has n years, starts at the current year and counts down by one |
| Years.ListYearsIsYearsDown | DCF_Engine/dcf_initialiser.py:138-147 | The comprehension equals the recursive definition "the current year, then the window of the year before" |
| Years.ListYearsStrictlyDecreasing | DCF_Engine/dcf_initialiser.py:138-147 | The window is strictly decreasing |
| Years.FallbackWindow | DCF_Engine/dcf_initialiser.py:193-196 | Dropping the first of n + 1 years gives the window of n years ending the year before |
| Years.LatestStatements | DCF_Engine/dcf_initialiser.py:164-216 | The current window is used when it is delivered; otherwise the global becomes the window of the year before, which is found with latest year current - 1 when delivered, and the result is Missing when neither is; a found window was delivered, has n years, its latest year is its first, and it is the global; n of 0 or less is IndexError |
| Years.WarnedWindowKeptAsWritten | DCF_Engine/dcf_initialiser.py:178-190 | As written, a current window whose providers only warn is kept: its statements are returned as found although the providers warned |
| Years.FoundWindowHadNoWarning | DCF_Engine/dcf_initialiser.py:176-190 | When warnings count as failures, as the code's comment intends, a found window had neither an exception nor a warning, and a warned current window is never the one found |
| Years.CheckedHistoryNeverEmpty | DCF_Engine/dcf_initialiser.py:261-263 | After `check_years` the statements step cannot fail, its window has at least three years, and a found latest year is this year or last year |
| Years.SeedYears | DCF_Engine/dcf_initialiser.py:149-162 | The seeded row runs from the start year to start + n, ascending by one |
| Years.SeedYearsReversesWindow | DCF_Engine/dcf_initialiser.py:138-162 | The seeded row is the window of n + 1 years ending at start + n, read oldest first |
| Years.SelectCompetitors | DCF_Engine/dcf_initialiser.py:39-74 | The global competitor list is used when set, and otherwise replaced by the lookup; with no competitors or with cached multiples nothing is queried; a query uses the latest historic year and the two before |
| Years.CompetitorWindowFollowsStatements | DCF_Engine/dcf_initialiser.py:55-71 | After `check_years` and found statements, the competitor step cannot fail, and its window is the three years ending at the statements' latest year |

## Findings

| source | as written | input that shows it | evidently intended | confidence | as-written member | corrected member |
|---|---|---|---|---|---|---|
| DCF_Engine/dcf_initialiser.py:178-190 | `warnings.catch_warnings()` without `record=True` binds `w` to None, so `if w:` never holds and a warning never sends the lookup to the previous window | the providers warn, but do not raise, for the current window | a warning from the providers counts as missing statements and the previous window is tried | not executed | Years.WarnedWindowKeptAsWritten | Years.FoundWindowHadNoWarning |

## Left out

- File input/output and the spreadsheet library's internals: the disk is a map from path to workbook, and the library's cells, extents and coordinate parser are abstracted as described above.
- Formula evaluation (pycel): an oracle over the saved workbook; only when the engine is compiled and what it sees are modelled.
- Styles, number formats, hyperlinks and comments copied by `_copy_sheet_contents`: only values are modelled.
- `vba`, `open_excel` (the method that launches Excel) and `safety_save`: they only call the operating system.
- The console prompt that asks whether to create a missing file: replaced by the `confirm` parameter.
- `__str__`, `__repr__`, `iter_rows`, `save(df)`, `set_cells_pandas` and the other pandas helpers: they produce or consume DataFrames, which are outside the model.
- Float results of the cell operators: true division of two ints by a non-zero divisor, negative powers and string `%` formatting give an `Unmodelled` error; division by zero is ZeroDivisionError and a text operand is TypeError, as in Python.
- Floats and booleans as cell values: a cell holds an integer, a text or nothing.
- Upper-casing is ASCII only: non-ASCII column letters are not case-folded.
- Non-ASCII digits: Python's `int()` in `split_cell` (excel_code.py:301-306) and the library's `\d` accept digits of other scripts; the model reads ASCII digits only.
- Paths are compared as given: `os.path.abspath` (excel_code.py:228) makes "a.xlsx" and "./a.xlsx" one file, which the disk map does not.
- The library's reading of keys that are not one cell goes no further than the error `.value` raises: building the tuple for a column, row or range key creates the cells it covers, and a range past row 1048576 raises ValueError while the tuple is built; neither effect is modelled.
- Read-only worksheets do not check the row bound of a key; the model applies the bound in every mode.
- The coordinate pattern's `$` in Python also matches before a final newline, so the library accepts "A1\n"; the model rejects any trailing character.
- New and renamed sheets with a title the library does not take as given: it picks another title for a new sheet whose title is taken, and `create_sheet("")` names the sheet "Sheet"; it raises ValueError for a title with one of the characters `[]:*?/\` and for an empty rename. All of these give `Unmodelled` in the model.
- Store.CreateSheet, Store.RenameAt, SheetEdits.NewSheet and SheetEdits.RenameSheet: the library finds clashing titles with Unicode `str.lower()`; the model compares ASCII letters only, so a new title or an existing one with a non-ASCII character gives `Unmodelled` even when the library would accept it or pick another title.
- Named-range destinations on a sheet that does not exist: the source always ends in an error, which is modelled as `Unresolved` without tracking partial writes.
- Sessions.PositionItem: in a read session the label is Python's default text for a read-only worksheet object, which ends with the object's memory address; the model keeps the text before the address, since the address is not determined by the program.
- Columns.CharRange: a range whose code points include the surrogates U+D800..U+DFFF gives `Unmodelled`, since a Dafny `char` cannot hold them while Python's `chr` can.
- Years.LatestStatements and Years.SelectCompetitors: on the IndexError paths the source first sets the global (`historic_years = []` at dcf_initialiser.py:194, `competitors = competitors_found` at dcf_initialiser.py:66) and then raises; the model's error result does not carry that global. Neither path is reachable once `check_years` has accepted the count.
- Cells.ShiftRight, Cells.ShiftLeft, Cells.InPlace: the source's `>>`, `<<` and in-place operators change the Cell they are applied to and return that same object, so `d = c >> 1` also moves `c` and every other reference to it; the model returns the changed Cell as a new value and leaves the operand as it was.
- Warnings are not modelled: the UserWarning of `check_years` when it clamps a count (dcf_initialiser.py:233-248), the one after a successful fallback to the previous year's statements (dcf_initialiser.py:207-210) and the one when no competitors are found (dcf_initialiser.py:63) only print to the console.
- A modify-mode read by Cell index looks the position up to three times: modelled as one lookup, since the lookups are identical.
- The branch of `__setitem__` for a Cell index (excel_code.py:623-624) is never reached: the test `':' in index` before it (excel_code.py:612) raises TypeError for a Cell, which is the outcome modelled.
- SheetEdits.ClearSheet: on a titled sheet the range is written through the sheet index directly rather than by re-reading `doc[sheet]` for every cell, since that read has no other effect.
- SheetEdits.MergeFromPath: requires a valid session, so that the opened file's sheets are valid.
- The calendar year is read once, as the `current` parameter, although `get_list_years` reads the clock on every call. A run that crosses New Year is not modelled.
- Years.CheckYears: float counts are not modelled; the model takes integers only.
- The DataFrames built by `get_competitor_info` and the statement providers' data: only the tickers and year windows are modelled.
- `prepare_and_save_excel` and the script's entry point: they chain the modelled steps with spreadsheet writes of DataFrames, and only their year flow is stated (Years.CheckedHistoryNeverEmpty and Years.CompetitorWindowFollowsStatements).

=== FILE: addresses.dfy ===
/** Cell addresses.  The source splits a reference such as "B12" with its own
    `split_cell` on the read path and formats one back with `f"{col}{row}"`;
    the spreadsheet library parses the positions it is handed on the write
    path itself, which `CellCoordinate` abstracts.
 */
module Addresses {
  import opened Outcomes
  import opened Text
  import opened Columns

  /** A library cell coordinate: 1-based row and column index. */
  datatype Coord = Coord(row: int, col: int)

  /** The library's last row. */
  const MaxRow: int := 1048576

  /** `Cell.pos`: the column letters followed by `str(row)`. */
  function Position(col: string, row: int): string
  {
    col + IntText(row)
  }

  /** The index of the first digit of `s` (|s| when there is none). */
  function FirstDigit(s: string): (k: nat)
    ensures k <= |s|
    ensures NoDigits(s[..k])
    ensures k < |s| ==> IsDigit(s[k])
  {
    if |s| == 0 || IsDigit(s[0]) then 0
    else
      var k := 1 + FirstDigit(s[1..]);
      assert forall i :: 1 <= i < k ==> s[..k][i] == s[1..][..k - 1][i - 1];
      k
  }

  /** Letters, then decimal text as `str` prints it: the addresses that
      `split_cell` and `Cell.pos` convert into each other. */
  predicate CanonicalAddress(s: string)
  {
    CanonicalDigits(s[FirstDigit(s)..])
  }

  /** `split_cell`: every character `int()` accepts (a digit) goes to the row
      text, every other character to the column; the row text is then read
      with `int`, which refuses the empty string. */
  function SplitCell(cell: string): (r: Result<(string, int)>)
    ensures r.Ok? <==> !NoDigits(cell)
    ensures r.Ok? ==> NoDigits(r.value.0) && r.value.1 >= 0
    ensures r.Ok? ==> |r.value.0| < |cell|
    ensures r.Err? ==> r.error == ValueError(InvalidLiteral)
  {
    DigitsSplit(cell);
    var row := Digits(cell);
    if |row| == 0 then Err(ValueError(InvalidLiteral))
    else Ok((NonDigits(cell), DecimalValue(row)))
  }

  /** Splitting a formatted position gives back its column and row. */
  lemma SplitOfPosition(col: string, row: int)
    requires NoDigits(col) && row >= 0
    ensures SplitCell(Position(col, row)) == Ok((col, row))
  {
    var t := NatText(row);
    assert Position(col, row) == col + t;
    DigitsAppend(col, t);
    DigitsOfLetterText(col);
    DigitsOfDigitText(t);
    DecimalOfNatText(row);
    assert Digits(col + t) == t && NonDigits(col + t) == col;
  }

  /** A canonical address splits into letters and a row that format back to
      exactly the same text. */
  lemma SplitCanonical(cell: string)
    requires CanonicalAddress(cell)
    ensures SplitCell(cell).Ok?
    ensures Position(SplitCell(cell).value.0, SplitCell(cell).value.1) == cell
  {
    var k := FirstDigit(cell);
    var letters, digits := cell[..k], cell[k..];
    NatTextOfDecimal(digits);
    var n := DecimalValue(digits);
    assert cell == Position(letters, n);
    SplitOfPosition(letters, n);
  }

  /** `split_cell_int`: `split_cell`, then the column letters read by the
      library's column lookup.  The result is (column index, row). */
  function SplitCellInt(cell: string): (r: Result<(int, int)>)
    ensures r.Ok? <==> SplitCell(cell).Ok? && ColumnStrToInt(SplitCell(cell).value.0).Ok?
    ensures r.Ok? ==> 1 <= r.value.0 <= MaxColumn && r.value.1 == SplitCell(cell).value.1
    ensures r.Ok? ==> NumToCol(r.value.0) == AsciiUpper(SplitCell(cell).value.0)
  {
    var (column, row) :- SplitCell(cell);
    var index :- ColumnStrToInt(column);
    Ok((index, row))
  }

  /** For a position with one to three capital letters, `split_cell_int`
      gives the column's index and the row. */
  lemma SplitCellIntOfPosition(col: string, row: int)
    requires IsColumn(col) && |col| <= 3 && row >= 0
    ensures SplitCellInt(Position(col, row)) == Ok((ColToNum(col), row))
  {
    ColumnHasNoDigits(col);
    SplitOfPosition(col, row);
    UpperColumnLookup(col);
  }

  /** A letter of the library's coordinate pattern: ASCII, either case. */
  predicate IsLetter(c: char) { IsUpper(c) || IsLower(c) }

  predicate AllLetters(s: string) { forall i :: 0 <= i < |s| ==> IsLetter(s[i]) }

  /** The length of the run of letters `s` starts with. */
  function LetterPrefix(s: string): (k: nat)
    ensures k <= |s|
  {
    if |s| == 0 || !IsLetter(s[0]) then 0
    else 1 + LetterPrefix(s[1..])
  }

  /** The run is made of letters and ends at the first other character. */
  lemma {:induction false} LetterPrefixRun(s: string)
    ensures AllLetters(s[..LetterPrefix(s)])
    ensures LetterPrefix(s) < |s| ==> !IsLetter(s[LetterPrefix(s)])
  {
    if |s| > 0 && IsLetter(s[0]) {
      LetterPrefixRun(s[1..]);
      var k := LetterPrefix(s);
      assert forall i :: 1 <= i < k ==> s[..k][i] == s[1..][..k - 1][i - 1];
    }
  }

  /** One side of a key as the library's coordinate pattern splits it: an
      optional '$', the column letters, an optional '$', the row digits.
      An absent group is the empty string. */
  datatype KeyPart = KeyPart(lead: bool, letters: string, mid: bool, digits: string)

  function Anchor(b: bool): string { if b then "$" else "" }

  /** The text of a key side. */
  function Spell(p: KeyPart): string
  {
    Anchor(p.lead) + (p.letters + (Anchor(p.mid) + p.digits))
  }

  /** A side the pattern matches: at most three letters, then digits; a
      single '$' with no letters after it counts as the leading one. */
  predicate WellFormedPart(p: KeyPart)
  {
    && |p.letters| <= 3 && AllLetters(p.letters) && AllDigits(p.digits)
    && (p.mid && p.letters == "" ==> p.lead)
  }

  /** The pattern `[$]?([A-Za-z]{1,3})?[$]?(\d+)?` applied to the whole of
      `h`: the side it reads, or nothing when it does not match. */
  function KeyHalf(h: string): (r: Option<KeyPart>)
    ensures r.Some? ==> WellFormedPart(r.value)
  {
    var a := if |h| > 0 && h[0] == '$' then 1 else 0;
    var k := LetterPrefix(h[a..]);
    var b := a + k;
    var c := if b < |h| && h[b] == '$' then b + 1 else b;
    LetterPrefixRun(h[a..]);
    assert h[a..][..k] == h[a..b];
    if k <= 3 && AllDigits(h[c..]) then Some(KeyPart(a == 1, h[a..b], c > b, h[c..])) else None
  }

  /** `KeyHalf` at the places it finds: the end of the leading anchor `a`,
      of the letters `b`, of the middle anchor `c`. */
  lemma KeyHalfAt(h: string, a: nat, b: nat, c: nat)
    requires a == if |h| > 0 && h[0] == '$' then 1 else 0
    requires b == a + LetterPrefix(h[a..])
    requires c == if b < |h| && h[b] == '$' then b + 1 else b
    ensures KeyHalf(h) == if b - a <= 3 && AllDigits(h[c..]) then Some(KeyPart(a == 1, h[a..b], c > b, h[c..])) else None
  {
  }

  /** What the pattern reads spells the key back. */
  lemma KeyHalfSpells(h: string)
    requires KeyHalf(h).Some?
    ensures Spell(KeyHalf(h).value) == h
  {
    var a := if |h| > 0 && h[0] == '$' then 1 else 0;
    var b := a + LetterPrefix(h[a..]);
    var c := if b < |h| && h[b] == '$' then b + 1 else b;
    KeyHalfAt(h, a, b, c);
    SpellOfPlaces(h, a, b, c);
  }

  lemma SpellOfPlaces(h: string, a: nat, b: nat, c: nat)
    requires a <= 1 && a <= b <= c <= b + 1 && c <= |h|
    requires a == 1 ==> h[0] == '$'
    requires c == b + 1 ==> h[b] == '$'
    ensures Spell(KeyPart(a == 1, h[a..b], c > b, h[c..])) == h
  {
    assert h[..a] == Anchor(a == 1);
    assert h[b..c] == Anchor(c > b);
    assert h == h[..a] + (h[a..b] + (h[b..c] + h[c..]));
  }

  /** The library's reading of a key `ws[key]` is given: the cell it names,
      or the error `.value` on the result raises.  A key that does not
      match the pattern is `CoordinateError` (the library's `ValueError`);
      one naming no column and no non-zero row is `IndexError`; a column,
      a row or a range gives a tuple of cells, which has no `.value`
      (`AttributeError`); a single cell or a row past the library's rows
      is `ValueError`. */
  function CellCoordinate(pos: string): (r: Result<Coord>)
    ensures r.Ok? ==> 1 <= r.value.row <= MaxRow && 1 <= r.value.col <= MaxColumn
    ensures r.Ok? ==> ':' !in pos
  {
    if ':' in pos then RangeKey(pos)
    else
      match KeyHalf(pos)
      case None => Err(CoordinateError)
      case Some(p) => SideKey(p.letters, p.digits)
  }

  /** A key without ':' that matches the pattern. */
  function SideKey(letters: string, digits: string): (r: Result<Coord>)
    requires AllDigits(digits)
    ensures r.Ok? ==> 1 <= r.value.row <= MaxRow && 1 <= r.value.col <= MaxColumn
  {
    var row := DecimalValue(digits);
    if letters == "" && row == 0 then Err(IndexError)
    else if digits == "" then Err(AttributeError)
    else if !(1 <= row <= MaxRow) then Err(ValueError(RowOutOfRange))
    else if letters == "" then Err(AttributeError)
    else
      match ColumnStrToInt(letters)
      case Ok(col) => Ok(Coord(row, col))
      case Err(e) => Err(e)
  }

  /** A key with ':': both sides must match the pattern and give either
      all four groups, both columns and no rows, or both rows and no
      columns; what is left is a tuple of cells, or `IndexError` when the
      rows are both zero and there are no columns. */
  function RangeKey(pos: string): (r: Result<Coord>)
    ensures r.Err?
  {
    var parts := Split(pos, ':');
    if |parts| != 2 then Err(CoordinateError)
    else
      match (KeyHalf(parts[0]), KeyHalf(parts[1]))
      case (Some(p), Some(q)) =>
        var cols := p.letters != "" && q.letters != "";
        var noCols := p.letters == "" && q.letters == "";
        var rows := p.digits != "" && q.digits != "";
        var noRows := p.digits == "" && q.digits == "";
        if !((cols && rows) || (cols && noRows) || (rows && noCols)) then Err(CoordinateError)
        else if noCols && DecimalValue(p.digits) == 0 && DecimalValue(q.digits) == 0 then Err(IndexError)
        else Err(AttributeError)
      case _ => Err(CoordinateError)
  }

  /** A run of letters followed by something other than a letter. */
  lemma {:induction false} LetterPrefixOf(l: string, t: string)
    requires AllLetters(l) && (|t| == 0 || !IsLetter(t[0]))
    ensures LetterPrefix(l + t) == |l|
  {
    if |l| > 0 {
      assert (l + t)[1..] == l[1..] + t;
      LetterPrefixOf(l[1..], t);
    } else {
      assert l + t == t;
    }
  }

  /** The pattern reads every side it matches back as itself: `KeyHalf`
      and `Spell` are inverse on well-formed sides. */
  lemma KeyHalfOfSpell(p: KeyPart)
    requires WellFormedPart(p)
    ensures KeyHalf(Spell(p)) == Some(p)
  {
    var h := Spell(p);
    var tail := Anchor(p.mid) + p.digits;
    LeadOfSpell(p);
    TailOfSpell(p);
    LetterPrefixOf(p.letters, tail);
    var a := if p.lead then 1 else 0;
    var b := a + |p.letters|;
    var c := if p.mid then b + 1 else b;
    AfterLead(h, a, p.letters, tail);
    AfterLetters(h, b, c, p.mid, tail, p.digits);
    KeyHalfAt(h, a, b, c);
  }

  lemma AfterLead(h: string, a: nat, letters: string, tail: string)
    requires a <= 1 && a <= |h|
    requires (if a == 1 then h[1..] else h) == letters + tail
    ensures h[a..] == letters + tail
    ensures h[a..a + |letters|] == letters && h[a + |letters|..] == tail
  {
    assert h[a..] == letters + tail;
    assert h[a..][..|letters|] == letters;
    assert h[a..][|letters|..] == tail;
  }

  lemma AfterLetters(h: string, b: nat, c: nat, mid: bool, tail: string, digits: string)
    requires b <= |h| && h[b..] == tail
    requires c == if mid then b + 1 else b
    requires |tail| > 0 && tail[0] == '$' <==> mid
    requires (if mid then tail[1..] else tail) == digits
    ensures c <= |h| && (b < |h| && h[b] == '$' <==> mid) && h[c..] == digits
  {
    if mid {
      assert h[b..][1..] == h[c..];
    }
  }

  /** The pattern's first '$' is the side's leading anchor. */
  lemma LeadOfSpell(p: KeyPart)
    requires WellFormedPart(p)
    ensures var h := Spell(p);
      && (|h| > 0 && h[0] == '$' <==> p.lead)
      && (if p.lead then h[1..] else h) == p.letters + (Anchor(p.mid) + p.digits)
  {
    var t := p.letters + (Anchor(p.mid) + p.digits);
    AnchorStripped(p.lead, t);
    if !p.lead && |t| > 0 {
      if p.letters != "" {
        assert t[0] == p.letters[0];
      } else {
        assert t[0] == p.digits[0];
      }
    }
  }

  /** After the letters, the pattern's second '$' is the side's middle
      anchor and the rest is its digits. */
  lemma TailOfSpell(p: KeyPart)
    requires WellFormedPart(p)
    ensures var tail := Anchor(p.mid) + p.digits;
      && (|tail| == 0 || !IsLetter(tail[0]))
      && (|tail| > 0 && tail[0] == '$' <==> p.mid)
      && (if p.mid then tail[1..] else tail) == p.digits
  {
    AnchorStripped(p.mid, p.digits);
    if !p.mid && |p.digits| > 0 {
      assert IsDigit(p.digits[0]);
    }
  }

  /** An optional '$' in front of `t`, and `t` after it. */
  lemma AnchorStripped(b: bool, t: string)
    ensures b ==> |Anchor(b) + t| > 0 && (Anchor(b) + t)[0] == '$' && (Anchor(b) + t)[1..] == t
    ensures !b ==> Anchor(b) + t == t
  {
  }

  /** A side with a column, anchored or not, reads as that column. */
  lemma ColumnOfLetters(letters: string)
    requires 1 <= |letters| <= 3 && AllLetters(letters)
    ensures ColumnStrToInt(letters) == Ok(ColToNum(AsciiUpper(letters)))
  {
    var r := ColumnStrToInt(letters);
    assert AllUpper(AsciiUpper(letters)) by {
      forall i | 0 <= i < |letters| ensures IsUpper(AsciiUpper(letters)[i]) {
        assert IsLetter(letters[i]);
      }
    }
    ColToNumOfNumToCol(r.value);
  }

  /** For a column of at most three letters and a row in the library's range,
      the source's split of the formatted position, the source's column
      lookup, and the library's reading of the position all name the same
      cell. */
  lemma PositionsAgree(col: string, row: int)
    requires IsColumn(col) && |col| <= 3 && 1 <= row <= MaxRow
    ensures SplitCell(Position(col, row)) == Ok((col, row))
    ensures ColumnStrToInt(col) == Ok(ColToNum(col))
    ensures CellCoordinate(Position(col, row)) == Ok(Coord(row, ColToNum(col)))
  {
    ColumnHasNoDigits(col);
    SplitOfPosition(col, row);
    UpperColumnLookup(col);
    AnchoredPositionsAgree(col, row, false, false);
    BarePosition(col, row);
  }

  lemma BarePosition(col: string, row: int)
    requires row >= 0
    ensures Anchor(false) + col + Anchor(false) + NatText(row) == Position(col, row)
  {
    assert IntText(row) == NatText(row);
    assert Anchor(false) == [];
    assert Anchor(false) + col == col;
    assert col + Anchor(false) == col;
  }

  /** A cell key with '$' anchors, as Excel writes the target of a defined
      name ("$C$3"), names the same cell as the bare position. */
  lemma AnchoredPositionsAgree(col: string, row: int, lead: bool, mid: bool)
    requires IsColumn(col) && |col| <= 3 && 1 <= row <= MaxRow
    ensures CellCoordinate(Anchor(lead) + col + Anchor(mid) + NatText(row)) == Ok(Coord(row, ColToNum(col)))
  {
    assert AsciiUpper(col) == col;
    assert AllLetters(col) by {
      forall i | 0 <= i < |col| ensures IsLetter(col[i]) {
        assert IsUpper(col[i]);
      }
    }
    DecimalOfNatText(row);
    var p := KeyPart(lead, col, mid, NatText(row));
    CellOfLetters(p);
    SpellFlat(p);
  }

  /** The target Excel stores for a defined name, "$C$3", is cell C3. */
  lemma DefinedNameTarget()
    ensures CellCoordinate("$C$3") == Ok(Coord(3, 3))
  {
    AnchoredPositionsAgree("C", 3, true, true);
    C3Spelled();
  }

  lemma C3Spelled()
    ensures Anchor(true) + "C" + Anchor(true) + NatText(3) == "$C$3"
    ensures ColToNum("C") == 3
  {
    assert NatText(3) == "3";
    assert "C"[..0] == [];
  }

  /** The key of a side with letters and a row in range reads as that
      cell, whatever its anchors; the letters may be of either case. */
  lemma CellOfLetters(p: KeyPart)
    requires WellFormedPart(p) && p.letters != "" && p.digits != ""
    requires 1 <= DecimalValue(p.digits) <= MaxRow
    ensures CellCoordinate(Spell(p)) == Ok(Coord(DecimalValue(p.digits), ColToNum(AsciiUpper(p.letters))))
  {
    KeyHalfOfSpell(p);
    ColumnOfLetters(p.letters);
    SpellHasNoColon(p);
  }

  lemma SpellFlat(p: KeyPart)
    ensures Spell(p) == Anchor(p.lead) + p.letters + Anchor(p.mid) + p.digits
  {
    var x := Anchor(p.mid) + p.digits;
    assert Anchor(p.lead) + p.letters + x == Anchor(p.lead) + (p.letters + x);
    assert p.letters + Anchor(p.mid) + p.digits == p.letters + x;
    assert Anchor(p.lead) + p.letters + Anchor(p.mid) + p.digits == (Anchor(p.lead) + p.letters) + x;
  }

  /** Anchors never change what a key names. */
  lemma AnchorsIgnored(p: KeyPart)
    requires WellFormedPart(p)
    ensures CellCoordinate(Spell(p)) == CellCoordinate(Spell(KeyPart(false, p.letters, false, p.digits)))
  {
    var q := KeyPart(false, p.letters, false, p.digits);
    SideOfSpell(p);
    SideOfSpell(q);
  }

  /** The key a side spells is read by `SideKey`. */
  lemma SideOfSpell(p: KeyPart)
    requires WellFormedPart(p)
    ensures CellCoordinate(Spell(p)) == SideKey(p.letters, p.digits)
  {
    KeyHalfOfSpell(p);
    SpellHasNoColon(p);
  }

  /** A key `CellCoordinate` accepts is a side of the pattern whose letters
      spell the cell's column and whose digits give its row. */
  lemma CoordinateSpelled(pos: string)
    requires CellCoordinate(pos).Ok?
    ensures KeyHalf(pos).Some?
    ensures var p := KeyHalf(pos).value;
      && pos == Spell(p)
      && AsciiUpper(p.letters) == NumToCol(CellCoordinate(pos).value.col)
      && AllDigits(p.digits) && DecimalValue(p.digits) == CellCoordinate(pos).value.row
  {
    SideCoordinate(pos);
    KeyHalfSpells(pos);
    SideKeyCell(KeyHalf(pos).value.letters, KeyHalf(pos).value.digits);
  }

  /** A side read as one cell names the cell of its letters and digits. */
  lemma SideKeyCell(letters: string, digits: string)
    requires AllDigits(digits) && SideKey(letters, digits).Ok?
    ensures ColumnStrToInt(letters).Ok?
    ensures SideKey(letters, digits) == Ok(Coord(DecimalValue(digits), ColumnStrToInt(letters).value))
  {
  }

  /** Without ':', a key is read as one side of the pattern. */
  lemma SideCoordinate(pos: string)
    requires CellCoordinate(pos).Ok?
    ensures KeyHalf(pos).Some?
    ensures CellCoordinate(pos) == SideKey(KeyHalf(pos).value.letters, KeyHalf(pos).value.digits)
  {
    assert ':' !in pos;
  }

  /** The keys that are not one cell: a bare column gives a tuple
      (`AttributeError`), as does a row in range; no column and no non-zero
      row is `IndexError`; a row past the library's rows, or a cell in row
      0, is `ValueError`. */
  lemma SideErrors(p: KeyPart)
    requires WellFormedPart(p)
    ensures p.letters != "" && p.digits == "" ==> CellCoordinate(Spell(p)) == Err(AttributeError)
    ensures p.letters == "" && DecimalValue(p.digits) == 0 ==> CellCoordinate(Spell(p)) == Err(IndexError)
    ensures p.letters == "" && 1 <= DecimalValue(p.digits) <= MaxRow ==> CellCoordinate(Spell(p)) == Err(AttributeError)
    ensures p.digits != "" && DecimalValue(p.digits) > MaxRow ==> CellCoordinate(Spell(p)) == Err(ValueError(RowOutOfRange))
    ensures p.letters != "" && p.digits != "" && DecimalValue(p.digits) == 0 ==>
      CellCoordinate(Spell(p)) == Err(ValueError(RowOutOfRange))
  {
    KeyHalfOfSpell(p);
    SpellHasNoColon(p);
  }

  lemma SpellHasNoColon(p: KeyPart)
    requires WellFormedPart(p)
    ensures ':' !in Spell(p)
  {
    var h := Spell(p);
    forall i | 0 <= i < |h| ensures h[i] != ':' {
      var a := |Anchor(p.lead)|;
      var b := a + |p.letters|;
      var c := b + |Anchor(p.mid)|;
      if i < a {
        assert h[i] == '$';
      } else if i < b {
        assert h[i] == p.letters[i - a] && IsLetter(p.letters[i - a]);
      } else if i < c {
        assert h[i] == '$';
      } else {
        assert h[i] == p.digits[i - c] && IsDigit(p.digits[i - c]);
      }
    }
  }

  lemma ColumnHasNoDigits(col: string)
    requires AllUpper(col)
    ensures NoDigits(col)
  {
    forall i | 0 <= i < |col| ensures !IsDigit(col[i]) {
      assert IsUpper(col[i]);
    }
  }

  /** The library's column lookup reads a capital column of at most three
      letters as its index. */
  lemma UpperColumnLookup(col: string)
    requires IsColumn(col) && |col| <= 3
    ensures ColumnStrToInt(col) == Ok(ColToNum(col))
  {
    assert AsciiUpper(col) == col;
    var r := ColumnStrToInt(col);
    ColToNumOfNumToCol(r.value);
  }
}

=== FILE: cells.dfy ===
/** The `Excel.Cell` value object: a value with a column, row, sheet label
    and optional formula.  Equality and hashing look only at the address,
    ordering is column-major within one sheet, `>>` and `<<` move the column,
    and arithmetic is carried out on the value.

    The source's `>>`, `<<` and the in-place operators change the cell they
    are applied to and return that same cell; here they return the changed
    cell as a new value, and the contracts say which fields changed.
 */
module Cells {
  import opened Outcomes
  import opened Text
  import opened Columns
  import opened Addresses

  /** Cell content: the library's `None` for an empty cell, an integer or a string. */
  datatype Value = Empty | Int(i: int) | Str(s: string)

  datatype Cell = Cell(value: Value, col: string, row: int, sheet: string, formula: Option<string>)

  /** `Cell.pos`. */
  function Pos(c: Cell): string
  {
    Position(c.col, c.row)
  }

  /** `str(value)`: also what `str(cell)` renders. */
  function ValueText(v: Value): string
  {
    match v
    case Empty => "None"
    case Int(i) => IntText(i)
    case Str(s) => s
  }

  /** The test the modify and write sessions apply to decide that stored
      content is a formula: its text contains '+' or '='. */
  predicate LooksLikeFormula(text: string)
  {
    '+' in text || '=' in text
  }

  // ---------------------------------------------------------------- equality

  /** The fields the dataclass compares and hashes. */
  function Key(c: Cell): (string, int, string)
  {
    (c.col, c.row, c.sheet)
  }

  /** `a == b` between two cells. */
  predicate CellEq(a: Cell, b: Cell)
  {
    a.col == b.col && a.row == b.row && a.sheet == b.sheet
  }

  /** Equal cells have equal hash keys and only cells at one address are
      equal; value and formula play no part. */
  lemma EqualityIsAddressOnly(a: Cell, b: Cell, v: Value, f: Option<string>)
    ensures CellEq(a, b) <==> Key(a) == Key(b)
    ensures CellEq(a, a.(value := v, formula := f))
    ensures Key(a.(value := v, formula := f)) == Key(a)
  {
  }

  // ---------------------------------------------------------------- ordering

  /** The right-hand side of a comparison or arithmetic operator: another
      cell, or any other value. */
  datatype Operand = CellOperand(cell: Cell) | ValueOperand(v: Value)

  /** `__lt__`: within one sheet, the same column compares rows, a shorter
      column comes first, and equal widths compare as strings. */
  function Lt(a: Cell, other: Operand): Result<bool>
  {
    match other
    case ValueOperand(_) => Err(ValueError(NotACell))
    case CellOperand(b) =>
      if a.sheet != b.sheet then Err(ValueError(NotSameSheet))
      else if a.col == b.col then Ok(a.row < b.row)
      else if |a.col| != |b.col| then Ok(|a.col| < |b.col|)
      else Ok(LexLess(a.col, b.col))
  }

  /** `__gt__`, written out separately in the source; `x > y` on strings is
      `y < x`. */
  function Gt(a: Cell, other: Operand): Result<bool>
  {
    match other
    case ValueOperand(_) => Err(ValueError(NotACell))
    case CellOperand(b) =>
      if a.sheet != b.sheet then Err(ValueError(NotSameSheet))
      else if a.col == b.col then Ok(a.row > b.row)
      else if |a.col| != |b.col| then Ok(|a.col| > |b.col|)
      else Ok(LexLess(b.col, a.col))
  }

  /** `__le__` is `any([self == other, self < other])`: the list is built in
      full, so the `<` is evaluated (and may raise) even when the cells are
      equal. */
  function Le(a: Cell, other: Operand): Result<bool>
  {
    var same := other.CellOperand? && CellEq(a, other.cell);
    var less :- Lt(a, other);
    Ok(same || less)
  }

  /** `__ge__` is `any([self == other, self > other])`. */
  function Ge(a: Cell, other: Operand): Result<bool>
  {
    var same := other.CellOperand? && CellEq(a, other.cell);
    var greater :- Gt(a, other);
    Ok(same || greater)
  }

  /** Column-major order on (column index, row). */
  predicate IndexLess(a: Cell, b: Cell)
  {
    ColToNum(a.col) < ColToNum(b.col) || (ColToNum(a.col) == ColToNum(b.col) && a.row < b.row)
  }

  /** On one sheet, for column names, `<` is exactly the column-major order of
      (column index, row). */
  lemma LtIsColumnMajor(a: Cell, b: Cell)
    requires a.sheet == b.sheet && IsColumn(a.col) && IsColumn(b.col)
    ensures Lt(a, CellOperand(b)) == Ok(IndexLess(a, b))
  {
    ColToNumInjective(a.col, b.col);
    if a.col != b.col {
      ColumnOrderIsIndexOrder(a.col, b.col);
    }
  }

  /** `>` is the exact converse of `<`, for any cells of one sheet. */
  lemma GtIsConverse(a: Cell, b: Cell)
    requires a.sheet == b.sheet
    ensures Gt(a, CellOperand(b)) == Lt(b, CellOperand(a))
  {
  }

  /** `<` is a strict total order on the cells of one sheet with column names. */
  lemma LtIsStrictTotalOrder(a: Cell, b: Cell, c: Cell)
    requires a.sheet == b.sheet == c.sheet
    requires IsColumn(a.col) && IsColumn(b.col) && IsColumn(c.col)
    ensures Lt(a, CellOperand(a)) == Ok(false)
    ensures Lt(a, CellOperand(b)) == Ok(true) && Lt(b, CellOperand(c)) == Ok(true) ==> Lt(a, CellOperand(c)) == Ok(true)
    ensures Lt(a, CellOperand(b)) == Ok(true) ==> Lt(b, CellOperand(a)) == Ok(false)
    ensures !CellEq(a, b) ==> Lt(a, CellOperand(b)) == Ok(true) || Lt(b, CellOperand(a)) == Ok(true)
  {
    LtIsColumnMajor(a, b);
    LtIsColumnMajor(b, a);
    LtIsColumnMajor(b, c);
    LtIsColumnMajor(a, c);
    ColToNumInjective(a.col, b.col);
  }

  /** Every ordering operator refuses a cell of another sheet and anything
      that is not a cell; `<=` and `>=` are `==` or the strict comparison. */
  lemma ComparisonErrors(a: Cell, other: Operand)
    ensures other.ValueOperand? ==>
      Lt(a, other) == Gt(a, other) == Le(a, other) == Ge(a, other) == Err(ValueError(NotACell))
    ensures other.CellOperand? && other.cell.sheet != a.sheet ==>
      Lt(a, other) == Gt(a, other) == Le(a, other) == Ge(a, other) == Err(ValueError(NotSameSheet))
    ensures other.CellOperand? && other.cell.sheet == a.sheet ==>
      && Le(a, other) == Ok(CellEq(a, other.cell) || Lt(a, other).value)
      && Ge(a, other) == Ok(CellEq(a, other.cell) || Gt(a, other).value)
  {
  }

  // ---------------------------------------------------------------- column shift

  /** `cell >> k`: the column moves `k` places to the right. */
  function ShiftRight(c: Cell, k: int): (r: Result<Cell>)
    ensures r.Ok? <==> ColToNum(c.col) + k >= 1
    ensures r.Ok? ==> r.value == c.(col := r.value.col)
    ensures r.Ok? ==> IsColumn(r.value.col) && ColToNum(r.value.col) == ColToNum(c.col) + k
    ensures r.Err? ==> r.error == ValueError(ColumnOutOfRange)
  {
    var col :- ShiftColumn(c.col, k);
    Ok(c.(col := col))
  }

  /** `cell << k`: the column moves `k` places to the left. */
  function ShiftLeft(c: Cell, k: int): (r: Result<Cell>)
    ensures r.Ok? <==> ColToNum(c.col) - k >= 1
    ensures r.Ok? ==> r.value == c.(col := r.value.col)
    ensures r.Ok? ==> IsColumn(r.value.col) && ColToNum(r.value.col) == ColToNum(c.col) - k
    ensures r.Err? ==> r.error == ValueError(ColumnOutOfRange)
  {
    var col :- ShiftColumn(c.col, -k);
    Ok(c.(col := col))
  }

  /** `(c >> k) << k` gives back the cell `c` for a column name. */
  lemma ShiftRoundTrip(c: Cell, k: int)
    requires IsColumn(c.col) && ShiftRight(c, k).Ok?
    ensures ShiftLeft(ShiftRight(c, k).value, k) == Ok(c)
  {
    ShiftColumnBack(c.col, k);
  }

  // ---------------------------------------------------------------- arithmetic

  /** The binary operators the metaclass generates.  True division always
      yields a float, so only its errors are modelled. */
  datatype Op = Add | Sub | Mul | TrueDiv | FloorDiv | Mod | Pow

  function OpName(op: Op): string
  {
    match op
    case Add => "add"
    case Sub => "sub"
    case Mul => "mul"
    case TrueDiv => "truediv"
    case FloorDiv => "floordiv"
    case Mod => "mod"
    case Pow => "pow"
  }

  /** Python's `//` on ints: rounds toward negative infinity. */
  function FloorDivInt(x: int, y: int): int
    requires y != 0
  {
    if y > 0 then x / y else (-x) / (-y)
  }

  /** Python's `%` on ints: the remainder takes the sign of the divisor. */
  function ModInt(x: int, y: int): (r: int)
    requires y != 0
    ensures x == y * FloorDivInt(x, y) + r
    ensures y > 0 ==> 0 <= r < y
    ensures y < 0 ==> y < r <= 0
  {
    x - y * FloorDivInt(x, y)
  }

  function Power(x: int, n: nat): int
  {
    if n == 0 then 1 else x * Power(x, n - 1)
  }

  /** `s * n` on a string: `n` copies, none when `n <= 0`. */
  function Repeat(s: string, n: int): (r: string)
    ensures |r| == if n <= 0 then 0 else n * |s|
    ensures forall i :: 0 <= i < |r| ==> r[i] == s[i % |s|]
    decreases n
  {
    if n <= 0 then []
    else
      var t := Repeat(s, n - 1);
      if |s| > 0 then CopyAhead(s, t); s + t else s + t
  }

  /** One more copy in front keeps every character in its place in the copy. */
  lemma CopyAhead(s: string, t: string)
    requires |s| > 0
    requires forall i :: 0 <= i < |t| ==> t[i] == s[i % |s|]
    ensures forall i :: 0 <= i < |s| + |t| ==> (s + t)[i] == s[i % |s|]
  {
    forall i | |s| <= i < |s| + |t|
      ensures (s + t)[i] == s[i % |s|]
    {
      ModShift(i, |s|);
    }
  }

  /** Moving an index on by a whole copy keeps its place in the copy. */
  lemma ModShift(i: int, m: int)
    requires 0 < m <= i
    ensures i % m == (i - m) % m
  {
    var q, r := (i - m) / m, (i - m) % m;
    var q', r' := i / m, i % m;
    assert m * (q' - q - 1) == r - r';
    SmallMultiple(m, q' - q - 1);
  }

  /** The only multiple of `m` strictly between `-m` and `m` is zero. */
  lemma SmallMultiple(m: int, k: int)
    requires m > 0 && -m < m * k < m
    ensures k == 0
  {
    if k >= 1 {
      MultipleAtLeast(m, k);
    } else if k <= -1 {
      MultipleAtLeast(m, -k);
    }
  }

  lemma {:induction false} MultipleAtLeast(m: int, k: int)
    requires m > 0 && k >= 1
    ensures m * k >= m
    decreases k
  {
    if k > 1 {
      MultipleAtLeast(m, k - 1);
      assert m * k == m * (k - 1) + m;
    }
  }

  /** `getattr(operator, op)(x, y)` on the modelled values.  A float result
      and string formatting (`str % x`) are outside the model. */
  function Apply(op: Op, x: Value, y: Value): Result<Value>
  {
    match (x, y)
    case (Int(a), Int(b)) =>
      (match op
       case Add => Ok(Int(a + b))
       case Sub => Ok(Int(a - b))
       case Mul => Ok(Int(a * b))
       case TrueDiv => if b == 0 then Err(ZeroDivisionError) else Err(Unmodelled)
       case FloorDiv => if b == 0 then Err(ZeroDivisionError) else Ok(Int(FloorDivInt(a, b)))
       case Mod => if b == 0 then Err(ZeroDivisionError) else Ok(Int(ModInt(a, b)))
       case Pow =>
         if b >= 0 then Ok(Int(Power(a, b)))
         else if a == 0 then Err(ZeroDivisionError)
         else Err(Unmodelled))
    case (Str(a), Str(b)) =>
      if op == Add then Ok(Str(a + b)) else if op == Mod then Err(Unmodelled) else Err(TypeError)
    case (Str(a), Int(n)) =>
      if op == Mul then Ok(Str(Repeat(a, n))) else if op == Mod then Err(Unmodelled) else Err(TypeError)
    case (Int(n), Str(a)) =>
      if op == Mul then Ok(Str(Repeat(a, n))) else Err(TypeError)
    case (Str(_), Empty) =>
      if op == Mod then Err(Unmodelled) else Err(TypeError)
    case _ => Err(TypeError)
  }

  /** The metaclass catches only `ValueError` and raises a new `ValueError`
      naming the operation; every other exception passes through. */
  function Rewrap(op: Op, r: Result<Value>): (w: Result<Value>)
    ensures r.Ok? ==> w == r
    ensures r.Err? && !r.error.ValueError? ==> w == r
    ensures r.Err? && r.error.ValueError? ==> w == Err(ValueError(ArithmeticFailed(OpName(op))))
  {
    if r.Err? && r.error.ValueError? then Err(ValueError(ArithmeticFailed(OpName(op)))) else r
  }

  function Unwrap(other: Operand): Value
  {
    match other
    case CellOperand(c) => c.value
    case ValueOperand(v) => v
  }

  /** `cell <op> other`: the operation on `cell.value` and the other operand,
      a cell operand being replaced by its value first.  The result is the
      bare value, not a cell. */
  function BinOp(op: Op, c: Cell, other: Operand): Result<Value>
  {
    Rewrap(op, Apply(op, c.value, Unwrap(other)))
  }

  /** `cell <op>= other`: the same operation, stored into the cell's value;
      address, sheet and formula are untouched. */
  function InPlace(op: Op, c: Cell, other: Operand): (r: Result<Cell>)
    ensures r.Ok? <==> BinOp(op, c, other).Ok?
    ensures r.Ok? ==> r.value == c.(value := BinOp(op, c, other).value)
    ensures r.Ok? ==> CellEq(r.value, c) && r.value.formula == c.formula
    ensures r.Err? ==> r.error == BinOp(op, c, other).error
  {
    var other' := Unwrap(other);
    match Rewrap(op, Apply(op, c.value, other'))
    case Ok(v) => Ok(c.(value := v))
    case Err(e) => Err(e)
  }

  /** Operating with a cell is operating with its value. */
  lemma CellOperandIsItsValue(op: Op, c: Cell, d: Cell)
    ensures BinOp(op, c, CellOperand(d)) == BinOp(op, c, ValueOperand(d.value))
    ensures InPlace(op, c, CellOperand(d)) == InPlace(op, c, ValueOperand(d.value))
  {
  }

  /** On these values the operators never raise `ValueError`, so the
      rewrapping never fires. */
  lemma NoValueErrorFromOperators(op: Op, c: Cell, other: Operand)
    ensures BinOp(op, c, other) == Apply(op, c.value, Unwrap(other))
  {
  }

  /** The source's test of cell arithmetic: 3 `+= 3` is 6, 3 `*= 3` is 9,
      3 `-= 3` is 0.  Its last case, 3 `/= 3`, yields the float 1.0, which
      lies outside the model: the model answers `Unmodelled` there, and
      `ZeroDivisionError` for a zero divisor. */
  lemma InPlaceExamples(c: Cell)
    requires c.value == Int(3)
    ensures InPlace(Add, c, ValueOperand(Int(3))) == Ok(c.(value := Int(6)))
    ensures InPlace(Mul, c, ValueOperand(Int(3))) == Ok(c.(value := Int(9)))
    ensures InPlace(Sub, c, ValueOperand(Int(3))) == Ok(c.(value := Int(0)))
    ensures InPlace(TrueDiv, c, ValueOperand(Int(3))) == Err(Unmodelled)
    ensures InPlace(TrueDiv, c, ValueOperand(Int(0))) == Err(ZeroDivisionError)
  {
  }
}

=== FILE: columns.dfy ===
/** Column letters.  The source converts between a column's letters and its
    1-based index with the bijective base-26 codec of `Cell._shift_column`
    (`col_to_num`, `num_to_col`: there is no zero digit, so "Z" is 26 and
    "AA" is 27), and with the spreadsheet library's own lookup tables
    (`column_str_to_int`, `column_int_to_str`), which cover "A" .. "ZZZ".
 */
module Columns {
  import opened Outcomes
  import opened Text

  predicate AllUpper(s: string) { forall i :: 0 <= i < |s| ==> IsUpper(s[i]) }

  /** A column name: one or more upper-case letters. */
  predicate IsColumn(s: string) { |s| > 0 && AllUpper(s) }

  function LetterOf(d: int): char
    requires 0 <= d < 26
  {
    (d + 'A' as int) as char
  }

  /** `col_to_num`: every character adds `ord(c) - ord('A') + 1` to a base-26
      accumulation, left to right.  The source applies it to any text. */
  function ColToNum(column: string): int
  {
    if |column| == 0 then 0
    else ColToNum(column[..|column| - 1]) * 26 + (column[|column| - 1] as int - 'A' as int + 1)
  }

  /** `num_to_col`: repeated `divmod(num - 1, 26)`, each remainder becoming the
      next letter from the right; nothing for `num <= 0`. */
  function NumToCol(num: int): (r: string)
    ensures num <= 0 ==> r == ""
    ensures num >= 1 ==> IsColumn(r)
    decreases num
  {
    if num <= 0 then ""
    else NumToCol((num - 1) / 26) + [LetterOf((num - 1) % 26)]
  }

  /** The index of the first column with `width` letters ("A", "AA", "AAA", ...),
      0 for width 0. */
  function FirstOfWidth(width: nat): nat
  {
    if width == 0 then 0 else 26 * FirstOfWidth(width - 1) + 1
  }

  /** The index of the last column with `width` letters ("Z", "ZZ", "ZZZ", ...). */
  function LastOfWidth(width: nat): nat
  {
    26 * FirstOfWidth(width)
  }

  /** The library's column tables run from "A" to "ZZZ". */
  const MaxColumn: int := 18278

  /** `num_to_col(col_to_num(s)) == s` for every run of upper-case letters. */
  lemma {:induction false} NumToColOfColToNum(s: string)
    requires AllUpper(s)
    ensures NumToCol(ColToNum(s)) == s
  {
    if |s| > 0 {
      var p := s[..|s| - 1];
      var d := s[|s| - 1] as int - 'A' as int;
      NumToColOfColToNum(p);
      ColToNumNonNegative(p);
      var n := ColToNum(s);
      assert n == ColToNum(p) * 26 + d + 1;
      assert (n - 1) / 26 == ColToNum(p) && (n - 1) % 26 == d;
      assert LetterOf(d) == s[|s| - 1];
      assert s == p + [s[|s| - 1]];
    }
  }

  lemma {:induction false} ColToNumNonNegative(s: string)
    requires AllUpper(s)
    ensures ColToNum(s) >= 0
    ensures |s| > 0 ==> ColToNum(s) >= 1
  {
    if |s| > 0 {
      ColToNumNonNegative(s[..|s| - 1]);
    }
  }

  /** `col_to_num(num_to_col(n)) == n` for every `n >= 0`. */
  lemma {:induction false} ColToNumOfNumToCol(n: int)
    requires n >= 0
    ensures ColToNum(NumToCol(n)) == n
  {
    if n > 0 {
      var q := (n - 1) / 26;
      var s := NumToCol(n);
      ColToNumOfNumToCol(q);
      assert s[..|s| - 1] == NumToCol(q);
    }
  }

  /** Two runs of upper-case letters name the same column only if they are equal. */
  lemma ColToNumInjective(a: string, b: string)
    requires AllUpper(a) && AllUpper(b)
    ensures ColToNum(a) == ColToNum(b) <==> a == b
  {
    NumToColOfColToNum(a);
    NumToColOfColToNum(b);
  }

  /** A column of `width` letters has an index between the first and last
      column of that width. */
  lemma {:induction false} ColumnBounds(s: string)
    requires AllUpper(s)
    ensures FirstOfWidth(|s|) <= ColToNum(s) <= LastOfWidth(|s|)
  {
    if |s| > 0 {
      ColumnBounds(s[..|s| - 1]);
    }
  }

  lemma {:induction false} WidthsDoNotOverlap(k: nat, m: nat)
    requires k < m
    ensures LastOfWidth(k) < FirstOfWidth(m)
    decreases m - k
  {
    if k + 1 < m {
      WidthsDoNotOverlap(k + 1, m);
      assert FirstOfWidth(k + 1) <= LastOfWidth(k + 1);
    }
  }

  /** The columns with index at most 18278 are those of at most three letters. */
  lemma AtMostThreeLetters(s: string)
    requires AllUpper(s)
    ensures ColToNum(s) <= MaxColumn <==> |s| <= 3
  {
    ColumnBounds(s);
    if |s| > 3 {
      WidthsDoNotOverlap(3, |s|);
    } else if |s| < 3 {
      WidthsDoNotOverlap(|s|, 3);
    }
  }

  /** A column with fewer letters has a smaller index ("Z" before "AA"). */
  lemma ShorterColumnFirst(a: string, b: string)
    requires AllUpper(a) && AllUpper(b) && |a| < |b|
    ensures ColToNum(a) < ColToNum(b)
  {
    ColumnBounds(a);
    ColumnBounds(b);
    WidthsDoNotOverlap(|a|, |b|);
  }

  /** Among columns of equal width, Python's string order is index order. */
  lemma {:induction false} SameWidthOrder(a: string, b: string)
    requires AllUpper(a) && AllUpper(b) && |a| == |b|
    ensures LexLess(a, b) <==> ColToNum(a) < ColToNum(b)
  {
    if |a| > 0 {
      var n := |a|;
      var a', b' := a[..n - 1], b[..n - 1];
      SameWidthOrder(a', b');
      ColToNumInjective(a', b');
      assert a == a' + [a[n - 1]] && b == b' + [b[n - 1]];
      LexLessSnoc(a', b', a[n - 1], b[n - 1]);
    }
  }

  /** The column part of the source's cell order: a shorter column first,
      equal widths by string order. */
  predicate ColumnBefore(a: string, b: string)
  {
    if |a| != |b| then |a| < |b| else LexLess(a, b)
  }

  /** On column names the source's column order is the order of indices. */
  lemma ColumnOrderIsIndexOrder(a: string, b: string)
    requires IsColumn(a) && IsColumn(b)
    ensures ColumnBefore(a, b) <==> ColToNum(a) < ColToNum(b)
  {
    if |a| < |b| {
      ShorterColumnFirst(a, b);
    } else if |b| < |a| {
      ShorterColumnFirst(b, a);
    } else {
      SameWidthOrder(a, b);
    }
  }

  /** The loop of `col_to_num`, as written. */
  method ColumnNumber(column: string) returns (num: int)
    ensures num == ColToNum(column)
    ensures IsColumn(column) ==> num >= 1 && NumToCol(num) == column
  {
    num := 0;
    var i := 0;
    while i < |column|
      invariant 0 <= i <= |column|
      invariant num == ColToNum(column[..i])
    {
      assert column[..i + 1][..i] == column[..i];
      num := num * 26 + (column[i] as int - 'A' as int + 1);
      i := i + 1;
    }
    assert column[..|column|] == column;
    if IsColumn(column) {
      NumToColOfColToNum(column);
      ColToNumNonNegative(column);
    }
  }

  /** The loop of `num_to_col`, as written. */
  method ColumnLetters(num: int) returns (col: string)
    ensures col == NumToCol(num)
    ensures num >= 1 ==> IsColumn(col) && ColToNum(col) == num
  {
    col := "";
    var n := num;
    while n > 0
      invariant NumToCol(num) == NumToCol(n) + col
      decreases n
    {
      var remainder := (n - 1) % 26;
      assert NumToCol(n) == NumToCol((n - 1) / 26) + [LetterOf(remainder)];
      n := (n - 1) / 26;
      col := [LetterOf(remainder)] + col;
    }
    assert NumToCol(n) + col == col;
    if num >= 1 {
      ColToNumOfNumToCol(num);
    }
  }

  /** `_shift_column`: move a column by `shift` places, refusing to go left of
      column 1. */
  function ShiftColumn(col: string, shift: int): (r: Result<string>)
    ensures r.Ok? <==> ColToNum(col) + shift >= 1
    ensures r.Ok? ==> IsColumn(r.value) && ColToNum(r.value) == ColToNum(col) + shift
    ensures r.Err? ==> r.error == ValueError(ColumnOutOfRange)
  {
    var target := ColToNum(col) + shift;
    if target < 1 then Err(ValueError(ColumnOutOfRange))
    else
      ColToNumOfNumToCol(target);
      Ok(NumToCol(target))
  }

  /** Shifting a column right and then left by the same amount restores it. */
  lemma ShiftColumnBack(col: string, shift: int)
    requires IsColumn(col)
    requires ShiftColumn(col, shift).Ok?
    ensures ShiftColumn(ShiftColumn(col, shift).value, -shift) == Ok(col)
  {
    ColToNumNonNegative(col);
    NumToColOfColToNum(col);
  }

  function UpperChar(c: char): char
  {
    if IsLower(c) then (c as int - 32) as char else c
  }

  /** Python's `str.upper()` restricted to ASCII letters. */
  function AsciiUpper(s: string): (r: string)
    ensures |r| == |s|
    ensures forall i :: 0 <= i < |s| ==> r[i] == UpperChar(s[i])
  {
    seq(|s|, i requires 0 <= i < |s| => UpperChar(s[i]))
  }

  /** `column_str_to_int`: the library's `column_index_from_string`, which
      upper-cases its argument and looks it up among "A" .. "ZZZ". */
  function ColumnStrToInt(column: string): (r: Result<int>)
    ensures r.Ok? <==> 1 <= |column| <= 3 && AllUpper(AsciiUpper(column))
    ensures r.Ok? ==> 1 <= r.value <= MaxColumn && NumToCol(r.value) == AsciiUpper(column)
    ensures r.Err? ==> r.error == ValueError(InvalidColumn)
  {
    var up := AsciiUpper(column);
    if 1 <= |up| <= 3 && AllUpper(up) then
      AtMostThreeLetters(up);
      NumToColOfColToNum(up);
      ColToNumNonNegative(up);
      Ok(ColToNum(up))
    else Err(ValueError(InvalidColumn))
  }

  /** `column_int_to_str`: the library's `get_column_letter`, defined for
      indices 1 .. 18278. */
  function ColumnIntToStr(column: int): (r: Result<string>)
    ensures r.Ok? <==> 1 <= column <= MaxColumn
    ensures r.Ok? ==> IsColumn(r.value) && |r.value| <= 3 && ColToNum(r.value) == column
    ensures r.Err? ==> r.error == ValueError(InvalidColumn)
  {
    if 1 <= column <= MaxColumn then
      var s := NumToCol(column);
      ColToNumOfNumToCol(column);
      AtMostThreeLetters(s);
      Ok(s)
    else Err(ValueError(InvalidColumn))
  }

  /** The library codec and the source's own codec are one bijection between
      1 .. 18278 and the upper-case names of at most three letters. */
  lemma LibraryCodecRoundTrip(n: int, s: string)
    ensures 1 <= n <= MaxColumn ==> ColumnStrToInt(ColumnIntToStr(n).value) == Ok(n)
    ensures IsColumn(s) && |s| <= 3 ==> ColumnIntToStr(ColumnStrToInt(s).value) == Ok(s)
    ensures 1 <= n <= MaxColumn ==> ColumnIntToStr(n) == Ok(NumToCol(n))
  {
    if 1 <= n <= MaxColumn {
      var t := ColumnIntToStr(n).value;
      assert AsciiUpper(t) == t;
    }
    if IsColumn(s) && |s| <= 3 {
      assert AsciiUpper(s) == s;
      ColToNumNonNegative(s);
    }
  }

  /** Every code point from `lo` to `hi`, as characters. */
  function CodeRange(lo: int, hi: int): (r: seq<char>)
    requires 0 <= lo && hi < 0x11_0000
    requires hi < 0xD800 || 0xE000 <= lo
    ensures |r| == if lo <= hi then hi - lo + 1 else 0
    ensures forall i :: 0 <= i < |r| ==> r[i] as int == lo + i
    decreases hi - lo
  {
    if lo > hi then [] else [lo as char] + CodeRange(lo + 1, hi)
  }

  /** `char_range(start, end)`: the characters from `ord(start)` to `ord(end)`,
      inclusive and ascending; `ord` refuses anything but a one-character
      string.  A range that would pass through the surrogate code points
      (which a Dafny `char` cannot hold) is outside the model. */
  function CharRange(start: string, end: string): (r: Result<seq<char>>)
    ensures r.Ok? <==> |start| == 1 && |end| == 1 && !(start[0] as int < 0xD800 && 0xE000 <= end[0] as int)
    ensures r.Ok? ==> |r.value| == if start[0] <= end[0] then end[0] as int - start[0] as int + 1 else 0
    ensures r.Ok? ==> forall i :: 0 <= i < |r.value| ==> r.value[i] as int == start[0] as int + i
    ensures r.Ok? ==> forall i :: 0 <= i < |r.value| ==> start[0] <= r.value[i] <= end[0]
  {
    if |start| != 1 || |end| != 1 then Err(TypeError)
    else if start[0] as int < 0xD800 && 0xE000 <= end[0] as int then Err(Unmodelled)
    else Ok(CodeRange(start[0] as int, end[0] as int))
  }
}

=== FILE: edits.dfy ===
/** Changing a workbook through a modify or write session: `doc[index] = v`
    and `del doc[index]` (a sheet title, a defined name, a range "A1:B3" or a
    position), augmented assignment, the sheet lifecycle, clearing, and
    merging another workbook.
 */
module Edits {
  import opened Outcomes
  import opened Text
  import opened Columns
  import opened Addresses
  import opened Cells
  import opened Store
  import opened Sessions

  // ---------------------------------------------------------------- single writes

  /** `wb.active[pos] = v`: without an active sheet this subscripts `None`,
      a `TypeError`. */
  function WriteActive(wb: Workbook, pos: string, v: Value): (r: Result<Workbook>)
    ensures r.Ok? <==> Active(wb).Some? && CellCoordinate(pos).Ok?
    ensures r.Ok? ==> Wrote(wb, r.value, wb.active, CellCoordinate(pos).value, v)
    ensures r.Err? ==> r.error == if Active(wb).None? then TypeError else CellCoordinate(pos).error
  {
    match Active(wb)
    case None => Err(TypeError)
    case Some(i) => WriteAt(wb, i, pos, v)
  }

  /** `wb2` is `wb` with `v` written into the cell `k` of sheet `i` and
      nothing else changed. */
  ghost predicate Wrote(wb: Workbook, wb2: Workbook, i: nat, k: Coord, v: Value)
  {
    && Titles(wb2) == Titles(wb) && wb2.active == wb.active && wb2.names == wb.names
    && i < |wb.sheets|
    && Get(wb2.sheets[i], k) == v
    && (forall k2 :: k2 != k ==> Get(wb2.sheets[i], k2) == Get(wb.sheets[i], k2))
    && (forall j :: 0 <= j < |wb.sheets| && j != i ==> wb2.sheets[j] == wb.sheets[j])
    && (ValidBook(wb) ==> ValidBook(wb2))
  }

  /** Workbooks with the same titles find a title at the same place. */
  lemma {:induction false} FindInSameTitles(xs: seq<Sheet>, ys: seq<Sheet>, t: string)
    requires |xs| == |ys| && forall i :: 0 <= i < |xs| ==> xs[i].title == ys[i].title
    ensures FindIn(xs, t) == FindIn(ys, t)
  {
    if |xs| > 0 {
      FindInSameTitles(xs[1..], ys[1..], t);
    }
  }

  lemma FindSameTitles(a: Workbook, b: Workbook, t: string)
    requires Titles(a) == Titles(b)
    ensures Find(a, t) == Find(b, t)
  {
    forall i | 0 <= i < |a.sheets| ensures a.sheets[i].title == b.sheets[i].title {
      assert Titles(a)[i] == Titles(b)[i];
    }
    FindInSameTitles(a.sheets, b.sheets, t);
  }

  // ---------------------------------------------------------------- named destinations

  /** Whether one of `dests` names cell `k` of sheet `j`. */
  ghost predicate Hit(wb: Workbook, dests: seq<Dest>, j: nat, k: Coord)
  {
    && |dests| > 0
    && ((Find(wb, dests[0].sheet) == Ok(j) && CellCoordinate(dests[0].ref) == Ok(k)) || Hit(wb, dests[1..], j, k))
  }

  /** Writing `v` at every destination of a defined name, in order:
      `wb[sheet][ref] = v`.  A sheet that is not a title fails with
      `KeyError` on the way in a set; `unresolved` names the defined name
      when the sheet is instead fetched through `doc[sheet]`, as a delete
      does, where the failure is `Unresolved`. */
  function WriteDests(wb: Workbook, dests: seq<Dest>, v: Value, unresolved: Option<string>): (r: Step<()>)
    ensures Titles(r.book) == Titles(wb) && r.book.active == wb.active && r.book.names == wb.names
    ensures ValidBook(wb) ==> ValidBook(r.book)
    ensures r.result.Ok? ==> forall m :: 0 <= m < |dests| ==>
      Find(wb, dests[m].sheet).Ok? && CellCoordinate(dests[m].ref).Ok?
    decreases |dests|
  {
    if |dests| == 0 then Step(Ok(()), wb)
    else
      match Find(wb, dests[0].sheet)
      case Err(e) => Step(Err(if unresolved.Some? then Unresolved(unresolved.value) else e), wb)
      case Ok(i) =>
        match WriteAt(wb, i, dests[0].ref, v)
        case Err(e) => Step(Err(e), wb)
        case Ok(wb2) =>
          var rest := WriteDests(wb2, dests[1..], v, unresolved);
          assert forall m :: 1 <= m < |dests| ==> dests[m] == dests[1..][m - 1];
          forall m | 0 <= m < |dests| ensures Find(wb, dests[m].sheet) == Find(wb2, dests[m].sheet) {
            FindSameTitles(wb, wb2, dests[m].sheet);
          }
          rest
  }

  lemma {:induction false} HitSameTitles(a: Workbook, b: Workbook, dests: seq<Dest>, j: nat, k: Coord)
    requires Titles(a) == Titles(b)
    ensures Hit(a, dests, j, k) == Hit(b, dests, j, k)
    decreases |dests|
  {
    if |dests| > 0 {
      FindSameTitles(a, b, dests[0].sheet);
      HitSameTitles(a, b, dests[1..], j, k);
    }
  }

  /** Every destination that resolves is hit. */
  lemma {:induction false} HitOfDest(wb: Workbook, dests: seq<Dest>, m: nat)
    requires m < |dests| && Find(wb, dests[m].sheet).Ok? && CellCoordinate(dests[m].ref).Ok?
    ensures Hit(wb, dests, Find(wb, dests[m].sheet).value, CellCoordinate(dests[m].ref).value)
    decreases m
  {
    if m > 0 {
      assert dests[m] == dests[1..][m - 1];
      HitOfDest(wb, dests[1..], m - 1);
    }
  }

  /** Writing a defined name changes exactly its destinations: each one that
      was reached holds `v` once all are written, and every cell no
      destination names keeps its value, even when a later destination
      fails. */
  lemma {:induction false} WriteDestsSpec(wb: Workbook, dests: seq<Dest>, v: Value, unresolved: Option<string>)
    ensures var r := WriteDests(wb, dests, v, unresolved);
      forall j, k :: 0 <= j < |wb.sheets| && !Hit(wb, dests, j, k) ==> Get(r.book.sheets[j], k) == Get(wb.sheets[j], k)
    ensures var r := WriteDests(wb, dests, v, unresolved);
      r.result.Ok? ==> forall j, k :: 0 <= j < |wb.sheets| && Hit(wb, dests, j, k) ==> Get(r.book.sheets[j], k) == v
    decreases |dests|
  {
    var r := WriteDests(wb, dests, v, unresolved);
    if |dests| > 0 {
      match Find(wb, dests[0].sheet)
      case Err(_) =>
      case Ok(i) =>
        match WriteAt(wb, i, dests[0].ref, v)
        case Err(_) =>
        case Ok(wb2) =>
          var rest := dests[1..];
          var k0 := CellCoordinate(dests[0].ref).value;
          WriteDestsSpec(wb2, rest, v, unresolved);
          assert r == WriteDests(wb2, rest, v, unresolved);
          forall j, k | 0 <= j < |wb.sheets| && !Hit(wb, dests, j, k)
            ensures Get(r.book.sheets[j], k) == Get(wb.sheets[j], k)
          {
            HitSameTitles(wb, wb2, rest, j, k);
          }
          if r.result.Ok? {
            forall j, k | 0 <= j < |wb.sheets| && Hit(wb, dests, j, k)
              ensures Get(r.book.sheets[j], k) == v
            {
              HitSameTitles(wb, wb2, rest, j, k);
            }
          }
    }
  }

  // ---------------------------------------------------------------- range writes

  /** The position text of a range entry: `col + str(row)`. */
  function EntryPos(e: (char, int)): string
  {
    Position([e.0], e.1)
  }

  /** Whether one of the range entries reads, to the library, as cell `k`. */
  ghost predicate GridHit(grid: seq<(char, int)>, k: Coord)
  {
    exists m :: 0 <= m < |grid| && CellCoordinate(EntryPos(grid[m])) == Ok(k)
  }

  /** A text that `doc[...]` reads neither as a sheet nor as a defined name. */
  predicate Plain(wb: Workbook, t: string)
  {
    t !in Titles(wb) && t !in wb.names
  }

  /** `self[pos] = v` for a position a range assignment produced.  A position
      whose column is ':' holds a ':' itself and is taken for a range again,
      whose start then has no digits: `ValueError`. */
  function SetSingle(wb: Workbook, pos: string, v: Value): (r: Step<()>)
    ensures Titles(r.book) == Titles(wb) && r.book.active == wb.active && r.book.names == wb.names
    ensures ValidBook(wb) ==> ValidBook(r.book)
    ensures Plain(wb, pos) && ':' !in pos ==>
      match WriteActive(wb, pos, v)
      case Ok(w) => r == Step(Ok(()), w)
      case Err(e) => r == Step(Err(e), wb)
  {
    if pos in Titles(wb) then Step(Err(TypeError), wb)
    else if pos in wb.names then WriteDests(wb, wb.names[pos], v, None)
    else if ':' in pos then Step(Err(ValueError(InvalidLiteral)), wb)
    else
      match WriteActive(wb, pos, v)
      case Ok(w) => Step(Ok(()), w)
      case Err(e) => Step(Err(e), wb)
  }

  /** The text formed from a ':' column and a row splits into an empty start
      and the row, and the empty start has no digits. */
  lemma ColonColumnFails(row: int)
    ensures Split(EntryPos((':', row)), ':') == ["", IntText(row)]
    ensures SplitCell("") == Err(ValueError(InvalidLiteral))
  {
    var t := IntText(row);
    assert ':' !in t by {
      if row < 0 {
        assert t == "-" + NatText(-row);
        forall i | 0 <= i < |t| ensures t[i] != ':' {
          if i > 0 { assert t[i] == NatText(-row)[i - 1]; }
        }
      }
    }
    SplitOnce("", t, ':');
    assert EntryPos((':', row)) == "" + [':'] + t;
  }

  /** A position text with a letter column: no ':' in it. */
  lemma EntryPosNoColon(e: (char, int))
    requires e.0 != ':'
    ensures ':' !in EntryPos(e)
  {
    var t := IntText(e.1);
    assert EntryPos(e) == [e.0] + t;
    forall i | 0 <= i < |t| ensures t[i] != ':' {
      if e.1 < 0 {
        if i > 0 { assert t[i] == NatText(-e.1)[i - 1]; }
      }
    }
  }

  /** How a range writes each of its positions: through `doc[pos] = v`
      (a set), into the active sheet (a delete), or into a given sheet (a
      clear). */
  datatype Via = ByIndex | ByActive | BySheet(i: nat)

  /** The writes can reach their sheet. */
  predicate Aims(wb: Workbook, via: Via)
  {
    match via
    case BySheet(i) => i < |wb.sheets|
    case _ => Active(wb).Some?
  }

  /** The sheet the writes go to. */
  function Target(wb: Workbook, via: Via): nat
  {
    match via
    case BySheet(i) => i
    case _ => wb.active
  }

  /** One write of a range.  For a plain position on a sheet it can reach,
      each way is the single write of `v` into the cell. */
  function WriteEntry(wb: Workbook, e: (char, int), v: Value, via: Via): (r: Step<()>)
    requires via.BySheet? ==> via.i < |wb.sheets|
    ensures Titles(r.book) == Titles(wb) && r.book.active == wb.active && r.book.names == wb.names
    ensures ValidBook(wb) ==> ValidBook(r.book)
    ensures Aims(wb, via) && (via == ByIndex ==> Plain(wb, EntryPos(e)) && e.0 != ':') ==>
      && (r.result.Ok? <==> CellCoordinate(EntryPos(e)).Ok?)
      && (r.result.Ok? ==> Wrote(wb, r.book, Target(wb, via), CellCoordinate(EntryPos(e)).value, v))
      && (r.result.Err? ==> r.book == wb)
  {
    var pos := EntryPos(e);
    match via
    case ByIndex =>
      if e.0 != ':' then
        EntryPosNoColon(e);
        SetSingle(wb, pos, v)
      else SetSingle(wb, pos, v)
    case ByActive =>
      (match WriteActive(wb, pos, v)
       case Ok(w) => Step(Ok(()), w)
       case Err(err) => Step(Err(err), wb))
    case BySheet(i) =>
      match WriteAt(wb, i, pos, v)
      case Ok(w) => Step(Ok(()), w)
      case Err(err) => Step(Err(err), wb)
  }

  /** The writes of a range, one entry after another; the first failure
      stops the loop. */
  function WriteGrid(wb: Workbook, grid: seq<(char, int)>, v: Value, via: Via): (r: Step<()>)
    requires via.BySheet? ==> via.i < |wb.sheets|
    ensures Titles(r.book) == Titles(wb) && r.book.active == wb.active && r.book.names == wb.names
    ensures ValidBook(wb) ==> ValidBook(r.book)
    decreases |grid|
  {
    if |grid| == 0 then Step(Ok(()), wb)
    else
      var first := WriteEntry(wb, grid[0], v, via);
      if first.result.Err? then first else WriteGrid(first.book, grid[1..], v, via)
  }

  /** None of the range's positions is a sheet title or a defined name, and
      none has ':' as its column. */
  predicate PlainGrid(wb: Workbook, grid: seq<(char, int)>)
  {
    forall m :: 0 <= m < |grid| ==> Plain(wb, EntryPos(grid[m])) && grid[m].0 != ':'
  }

  /** The cells a range reaches are those of its first entry and of the
      rest. */
  lemma GridHitCons(grid: seq<(char, int)>, k: Coord)
    requires |grid| > 0
    ensures GridHit(grid, k) <==> CellCoordinate(EntryPos(grid[0])) == Ok(k) || GridHit(grid[1..], k)
  {
    if GridHit(grid[1..], k) {
      var m :| 0 <= m < |grid[1..]| && CellCoordinate(EntryPos(grid[1..][m])) == Ok(k);
      assert grid[1..][m] == grid[m + 1];
    }
    if GridHit(grid, k) && CellCoordinate(EntryPos(grid[0])) != Ok(k) {
      var m :| 0 <= m < |grid| && CellCoordinate(EntryPos(grid[m])) == Ok(k);
      assert grid[m] == grid[1..][m - 1];
    }
  }

  /** The rest of a plain range stays plain in a workbook with the same
      titles and defined names. */
  lemma PlainGridTail(wb: Workbook, w: Workbook, grid: seq<(char, int)>)
    requires |grid| > 0 && Titles(w) == Titles(wb) && w.names == wb.names
    ensures PlainGrid(wb, grid) ==> PlainGrid(w, grid[1..])
  {
    if PlainGrid(wb, grid) {
      forall m | 0 <= m < |grid[1..]| ensures Plain(w, EntryPos(grid[1..][m])) && grid[1..][m].0 != ':' {
        assert grid[1..][m] == grid[m + 1];
      }
    }
  }

  /** A range write on the active sheet leaves every other sheet as it was,
      even when the loop stops early. */
  lemma {:induction false} WriteGridOthers(wb: Workbook, grid: seq<(char, int)>, v: Value, via: Via)
    requires Aims(wb, via)
    requires via == ByIndex ==> PlainGrid(wb, grid)
    ensures var r := WriteGrid(wb, grid, v, via);
      forall j :: 0 <= j < |wb.sheets| && j != Target(wb, via) ==> r.book.sheets[j] == wb.sheets[j]
    decreases |grid|
  {
    if |grid| > 0 {
      var first := WriteEntry(wb, grid[0], v, via);
      if first.result.Ok? {
        PlainGridTail(wb, first.book, grid);
        WriteGridOthers(first.book, grid[1..], v, via);
      }
    }
  }

  /** On the sheet it writes, a range write keeps every cell no entry
      names, even when the loop stops early. */
  lemma {:induction false} WriteGridFrame(wb: Workbook, grid: seq<(char, int)>, v: Value, via: Via)
    requires Aims(wb, via)
    requires via == ByIndex ==> PlainGrid(wb, grid)
    ensures var r := WriteGrid(wb, grid, v, via);
      forall k :: !GridHit(grid, k) ==> Get(r.book.sheets[Target(wb, via)], k) == Get(wb.sheets[Target(wb, via)], k)
    decreases |grid|
  {
    if |grid| > 0 {
      var first := WriteEntry(wb, grid[0], v, via);
      if first.result.Ok? {
        var w := first.book;
        PlainGridTail(wb, w, grid);
        WriteGridFrame(w, grid[1..], v, via);
        var t := Target(wb, via);
        FrameCons(grid, CellCoordinate(EntryPos(grid[0])).value, wb.sheets[t], w.sheets[t], WriteGrid(wb, grid, v, via).book.sheets[t]);
      }
    }
  }

  /** A cell neither the first entry nor the rest of the range names keeps
      its value. */
  lemma FrameCons(grid: seq<(char, int)>, k0: Coord, before: Sheet, middle: Sheet, after: Sheet)
    requires |grid| > 0 && CellCoordinate(EntryPos(grid[0])) == Ok(k0)
    requires forall k :: k != k0 ==> Get(middle, k) == Get(before, k)
    requires forall k :: !GridHit(grid[1..], k) ==> Get(after, k) == Get(middle, k)
    ensures forall k :: !GridHit(grid, k) ==> Get(after, k) == Get(before, k)
  {
    forall k | !GridHit(grid, k) ensures Get(after, k) == Get(before, k) {
      GridHitCons(grid, k);
    }
  }

  /** A range write that completes writes `v` into every cell an entry
      names, and every entry reads as a cell. */
  lemma {:induction false} WriteGridHits(wb: Workbook, grid: seq<(char, int)>, v: Value, via: Via)
    requires Aims(wb, via)
    requires via == ByIndex ==> PlainGrid(wb, grid)
    ensures var r := WriteGrid(wb, grid, v, via);
      r.result.Ok? ==> forall m :: 0 <= m < |grid| ==> CellCoordinate(EntryPos(grid[m])).Ok?
    ensures var r := WriteGrid(wb, grid, v, via);
      r.result.Ok? ==> forall k :: GridHit(grid, k) ==> Get(r.book.sheets[Target(wb, via)], k) == v
    decreases |grid|
  {
    var r := WriteGrid(wb, grid, v, via);
    if |grid| > 0 && r.result.Ok? {
      var first := WriteEntry(wb, grid[0], v, via);
      var w := first.book;
      var k0 := CellCoordinate(EntryPos(grid[0])).value;
      PlainGridTail(wb, w, grid);
      WriteGridHits(w, grid[1..], v, via);
      WriteGridFrame(w, grid[1..], v, via);
      assert first.result.Ok?;
      AllCons(grid, e => CellCoordinate(EntryPos(e)).Ok?);
      assert r == WriteGrid(w, grid[1..], v, via);
      var t := Target(wb, via);
      HitsCons(grid, k0, w.sheets[t], r.book.sheets[t], v);
    }
  }

  /** A property of every element follows from the first element and the
      rest. */
  lemma AllCons<T>(xs: seq<T>, p: T -> bool)
    requires |xs| > 0 && p(xs[0])
    requires forall m :: 0 <= m < |xs[1..]| ==> p(xs[1..][m])
    ensures forall m :: 0 <= m < |xs| ==> p(xs[m])
  {
    forall m | 0 <= m < |xs| ensures p(xs[m]) {
      if m > 0 { assert xs[m] == xs[1..][m - 1]; }
    }
  }

  /** A value the first entry wrote, and the rest of the range left alone or
      wrote again, is in every cell the range reaches. */
  lemma HitsCons(grid: seq<(char, int)>, k0: Coord, before: Sheet, after: Sheet, v: Value)
    requires |grid| > 0 && CellCoordinate(EntryPos(grid[0])) == Ok(k0) && Get(before, k0) == v
    requires forall k :: GridHit(grid[1..], k) ==> Get(after, k) == v
    requires forall k :: !GridHit(grid[1..], k) ==> Get(after, k) == Get(before, k)
    ensures forall k :: GridHit(grid, k) ==> Get(after, k) == v
  {
    forall k | GridHit(grid, k) ensures Get(after, k) == v {
      GridHitCons(grid, k);
    }
  }

  /** Every entry of a range lies in its columns and rows. */
  lemma {:induction false} GridEntries(cols: seq<char>, r0: int, r1: int)
    ensures forall m :: 0 <= m < |Grid(cols, r0, r1)| ==>
      Grid(cols, r0, r1)[m].0 in cols && r0 <= Grid(cols, r0, r1)[m].1 <= r1
  {
    if |cols| > 0 {
      GridEntries(cols[1..], r0, r1);
      var n := |Rows(r0, r1)|;
      var g := Grid(cols, r0, r1);
      var tail := Grid(cols[1..], r0, r1);
      assert g == seq(n, i requires 0 <= i < n => (cols[0], Rows(r0, r1)[i])) + tail;
      forall m | 0 <= m < |g| ensures g[m].0 in cols && r0 <= g[m].1 <= r1 {
        if m >= n {
          assert g[m] == tail[m - n];
          assert g[m].0 in cols[1..];
        }
      }
    }
  }

  /** Every column of a range over every row of it is an entry. */
  lemma GridCovers(cols: seq<char>, r0: int, r1: int, i: nat, row: int)
    requires i < |cols| && r0 <= row <= r1
    ensures (cols[i], row) in Grid(cols, r0, r1)
  {
    GridShape(cols, r0, r1);
    var n := |Rows(r0, r1)|;
    var r: nat := row - r0;
    assert Grid(cols, r0, r1)[Slot(i, n, r)] == (cols[i], row);
  }

  /** The entries of a range of consecutive characters cover its rectangle. */
  lemma RectangleInGrid(cols: seq<char>, lo: char, hi: char, r0: int, r1: int)
    requires |cols| == if lo <= hi then hi as int - lo as int + 1 else 0
    requires forall i :: 0 <= i < |cols| ==> cols[i] as int == lo as int + i
    ensures forall c: char, row: int :: lo <= c <= hi && r0 <= row <= r1 ==> (c, row) in Grid(cols, r0, r1)
  {
    forall c: char, row: int | lo <= c <= hi && r0 <= row <= r1 ensures (c, row) in Grid(cols, r0, r1) {
      var i := c as int - lo as int;
      assert cols[i] == c;
      GridCovers(cols, r0, r1, i, row);
    }
  }

  /** The entries `doc["C0R0:C1R1"] = v` goes through: the text split at ':'
      into exactly two halves, each split into letters and row by
      `split_cell`, the letters expanded by `char_range`, every column over
      every row.  The entries are exactly the rectangle between the two
      corners. */
  function RangeCells(spec: string): (r: Result<seq<(char, int)>>)
    ensures var parts := Split(spec, ':');
      r.Ok? <==> && |parts| == 2 && SplitCell(parts[0]).Ok? && SplitCell(parts[1]).Ok?
                 && CharRange(SplitCell(parts[0]).value.0, SplitCell(parts[1]).value.0).Ok?
    ensures r.Ok? ==>
      var parts := Split(spec, ':');
      var (a, r0) := SplitCell(parts[0]).value;
      var (b, r1) := SplitCell(parts[1]).value;
      && (forall m :: 0 <= m < |r.value| ==> a[0] <= r.value[m].0 <= b[0] && r0 <= r.value[m].1 <= r1)
      && (forall c: char, row: int :: a[0] <= c <= b[0] && r0 <= row <= r1 ==> (c, row) in r.value)
    ensures |Split(spec, ':')| != 2 ==> r == Err(ValueError(BadUnpack))
  {
    var parts := Split(spec, ':');
    if |parts| != 2 then Err(ValueError(BadUnpack))
    else
      var start :- SplitCell(parts[0]);
      var end :- SplitCell(parts[1]);
      var cols :- CharRange(start.0, end.0);
      GridEntries(cols, start.1, end.1);
      RectangleInGrid(cols, start.0[0], end.0[0], start.1, end.1);
      Ok(Grid(cols, start.1, end.1))
  }

  /** `doc[t] = v` for a string index, on the workbook: a sheet title cannot
      be assigned (`TypeError`); a defined name writes each destination; a
      text holding ':' is a range whose positions are each assigned through
      `doc[pos] = v` again; any other text is a position on the active
      sheet. */
  function SetText(wb: Workbook, t: string, v: Value): (r: Step<()>)
    ensures Titles(r.book) == Titles(wb) && r.book.active == wb.active && r.book.names == wb.names
    ensures ValidBook(wb) ==> ValidBook(r.book)
    ensures t in Titles(wb) ==> r == Step(Err(TypeError), wb)
    ensures r.result.Err? && Plain(wb, t) && ':' in t && RangeCells(t).Err? ==> r == Step(Err(RangeCells(t).error), wb)
  {
    if t in Titles(wb) then Step(Err(TypeError), wb)
    else if t in wb.names then WriteDests(wb, wb.names[t], v, None)
    else if ':' in t then
      match RangeCells(t)
      case Err(e) => Step(Err(e), wb)
      case Ok(grid) => WriteGrid(wb, grid, v, ByIndex)
    else
      match WriteActive(wb, t, v)
      case Ok(w) => Step(Ok(()), w)
      case Err(e) => Step(Err(e), wb)
  }

  /** The assignment a range makes at one of its positions is `SetText`
      itself: a position with ':' for its column would be split again and
      fail on its empty start, which `SetSingle` answers directly. */
  lemma SetSingleIsSetText(wb: Workbook, e: (char, int), v: Value)
    ensures SetSingle(wb, EntryPos(e), v) == SetText(wb, EntryPos(e), v)
  {
    var pos := EntryPos(e);
    if pos !in Titles(wb) && pos !in wb.names {
      if e.0 == ':' {
        ColonColumnFails(e.1);
        assert pos[0] == ':';
        assert RangeCells(pos) == Err(ValueError(InvalidLiteral));
      } else {
        EntryPosNoColon(e);
      }
    }
  }

  /** `del doc[t]` on the workbook: a sheet title goes to the library's
      `remove`, which is given the title instead of the sheet and fails
      (`ValueError`); a defined name sets each destination to 0, fetching
      the sheet through `doc[sheet]`; a range sets each position of the
      active sheet to 0; any other text is a position set to 0. */
  function DelText(wb: Workbook, t: string): (r: Step<()>)
    ensures Titles(r.book) == Titles(wb) && r.book.active == wb.active && r.book.names == wb.names
    ensures ValidBook(wb) ==> ValidBook(r.book)
    ensures t in Titles(wb) ==> r == Step(Err(ValueError(NotInList)), wb)
  {
    if t in Titles(wb) then Step(Err(ValueError(NotInList)), wb)
    else if t in wb.names then WriteDests(wb, wb.names[t], Int(0), Some(t))
    else if ':' in t then
      match RangeCells(t)
      case Err(e) => Step(Err(e), wb)
      case Ok(grid) => WriteGrid(wb, grid, Int(0), ByActive)
    else
      match WriteActive(wb, t, Int(0))
      case Ok(w) => Step(Ok(()), w)
      case Err(e) => Step(Err(e), wb)
  }

  // ---------------------------------------------------------------- rectangles

  /** The text "C0R0:C1R1" of a range with one-letter columns. */
  function RangeText(c0: char, r0: int, c1: char, r1: int): string
  {
    Position([c0], r0) + ":" + Position([c1], r1)
  }

  /** Whether cell `k` lies between the corners of such a range. */
  predicate InRectangle(k: Coord, c0: char, r0: int, c1: char, r1: int)
  {
    r0 <= k.row <= r1 && ColToNum([c0]) <= k.col <= ColToNum([c1])
  }

  /** A one-letter column's index is its place in the alphabet. */
  lemma SingleLetter(c: char)
    ensures ColToNum([c]) == c as int - 'A' as int + 1
  {
    assert [c][..0] == [];
  }

  /** The position of a letter column and a row has no ':'. */
  lemma PositionNoColon(col: string, row: int)
    requires IsColumn(col) && row >= 1
    ensures ':' !in Position(col, row)
  {
    var p := Position(col, row);
    forall i | 0 <= i < |p| ensures p[i] != ':' {
      if i < |col| {
        assert p[i] == col[i];
      } else {
        assert p[i] == NatText(row)[i - |col|];
      }
    }
  }

  /** The corners of a range with one-letter columns and rows in the
      library's bounds. */
  predicate Corners(c0: char, r0: int, c1: char, r1: int)
  {
    IsUpper(c0) && IsUpper(c1) && 1 <= r0 <= MaxRow && 1 <= r1 <= MaxRow
  }

  /** Each entry of such a range reads, to the library, as its own column
      and row. */
  lemma RangeTextCells(c0: char, r0: int, c1: char, r1: int)
    requires Corners(c0, r0, c1, r1)
    ensures RangeCells(RangeText(c0, r0, c1, r1)).Ok?
    ensures RectangleGrid(RangeCells(RangeText(c0, r0, c1, r1)).value, c0, r0, c1, r1)
  {
    RangeTextParts(c0, r0, c1, r1);
    var grid := RangeCells(RangeText(c0, r0, c1, r1)).value;
    forall m | 0 <= m < |grid|
      ensures CellCoordinate(EntryPos(grid[m])) == Ok(Coord(grid[m].1, ColToNum([grid[m].0])))
    {
      assert IsColumn([grid[m].0]);
      PositionsAgree([grid[m].0], grid[m].1);
    }
  }

  /** Such a range's text splits at its ':' into its two corners, each
      reading as its own column and row. */
  lemma RangeTextParts(c0: char, r0: int, c1: char, r1: int)
    requires Corners(c0, r0, c1, r1)
    ensures Split(RangeText(c0, r0, c1, r1), ':') == [Position([c0], r0), Position([c1], r1)]
    ensures SplitCell(Position([c0], r0)) == Ok(([c0], r0))
    ensures SplitCell(Position([c1], r1)) == Ok(([c1], r1))
  {
    var a := Position([c0], r0);
    var b := Position([c1], r1);
    assert IsColumn([c0]) && IsColumn([c1]);
    PositionNoColon([c0], r0);
    PositionNoColon([c1], r1);
    SplitOnce(a, b, ':');
    assert RangeText(c0, r0, c1, r1) == a + [':'] + b;
    PositionsAgree([c0], r0);
    PositionsAgree([c1], r1);
  }

  /** A range write on the active sheet whose entries all read as cells
      completes. */
  lemma {:induction false} WriteGridCompletes(wb: Workbook, grid: seq<(char, int)>, v: Value, via: Via)
    requires Aims(wb, via)
    requires via == ByIndex ==> PlainGrid(wb, grid)
    requires forall m :: 0 <= m < |grid| ==> CellCoordinate(EntryPos(grid[m])).Ok?
    ensures WriteGrid(wb, grid, v, via).result.Ok?
    decreases |grid|
  {
    if |grid| > 0 {
      var first := WriteEntry(wb, grid[0], v, via);
      var w := first.book;
      assert first.result.Ok?;
      PlainGridTail(wb, w, grid);
      assert forall m :: 0 <= m < |grid[1..]| ==> grid[1..][m] == grid[m + 1];
      WriteGridCompletes(w, grid[1..], v, via);
    }
  }

  /** A range whose entries are exactly the one-letter columns and rows
      between two corners, each reading as its own column and row. */
  ghost predicate RectangleGrid(grid: seq<(char, int)>, c0: char, r0: int, c1: char, r1: int)
  {
    && (forall m :: 0 <= m < |grid| ==>
          && IsUpper(grid[m].0) && c0 <= grid[m].0 <= c1 && r0 <= grid[m].1 <= r1
          && CellCoordinate(EntryPos(grid[m])) == Ok(Coord(grid[m].1, ColToNum([grid[m].0]))))
    && (forall c: char, row: int :: c0 <= c <= c1 && r0 <= row <= r1 ==> (c, row) in grid)
  }

  /** The cells such a range reaches are exactly its rectangle. */
  lemma RectangleHits(grid: seq<(char, int)>, c0: char, r0: int, c1: char, r1: int, k: Coord)
    requires RectangleGrid(grid, c0, r0, c1, r1) && IsUpper(c0) && IsUpper(c1)
    ensures GridHit(grid, k) <==> InRectangle(k, c0, r0, c1, r1)
  {
    SingleLetter(c0);
    SingleLetter(c1);
    if InRectangle(k, c0, r0, c1, r1) {
      var c := (k.col - 1 + 'A' as int) as char;
      SingleLetter(c);
      assert (c, k.row) in grid;
      var m :| 0 <= m < |grid| && grid[m] == (c, k.row);
      assert CellCoordinate(EntryPos(grid[m])) == Ok(k);
    }
  }

  /** Writing a range of one-letter columns on the active sheet completes
      and changes exactly its rectangle: every cell between the corners
      holds `v`, every other cell of the sheet and every other sheet is as
      before.  A set goes through `doc[pos] = v`, so its positions must not
      be sheet titles or defined names. */
  lemma RectangleWrite(wb: Workbook, grid: seq<(char, int)>, c0: char, r0: int, c1: char, r1: int, v: Value, via: Via)
    requires Aims(wb, via) && IsUpper(c0) && IsUpper(c1) && RectangleGrid(grid, c0, r0, c1, r1)
    requires via == ByIndex ==> forall c: char, row: int :: c0 <= c <= c1 && r0 <= row <= r1 ==> Plain(wb, Position([c], row))
    ensures var r := WriteGrid(wb, grid, v, via);
      && r.result.Ok?
      && (forall k :: Get(r.book.sheets[Target(wb, via)], k) == if InRectangle(k, c0, r0, c1, r1) then v else Get(wb.sheets[Target(wb, via)], k))
      && (forall j :: 0 <= j < |wb.sheets| && j != Target(wb, via) ==> r.book.sheets[j] == wb.sheets[j])
  {
    assert via == ByIndex ==> PlainGrid(wb, grid) by {
      if via == ByIndex {
        forall m | 0 <= m < |grid| ensures Plain(wb, EntryPos(grid[m])) && grid[m].0 != ':' {
          assert (grid[m].0, grid[m].1) == grid[m];
        }
      }
    }
    WriteGridCompletes(wb, grid, v, via);
    WriteGridHits(wb, grid, v, via);
    WriteGridOthers(wb, grid, v, via);
    WriteGridFrame(wb, grid, v, via);
    var r := WriteGrid(wb, grid, v, via);
    forall k ensures Get(r.book.sheets[Target(wb, via)], k) == if InRectangle(k, c0, r0, c1, r1) then v else Get(wb.sheets[Target(wb, via)], k)
    {
      RectangleHits(grid, c0, r0, c1, r1, k);
    }
  }

  /** The range `RangeText` names is the rectangle of `char_range` between
      its letters over its rows. */
  lemma GridIsRectangle(c0: char, r0: int, c1: char, r1: int)
    requires Corners(c0, r0, c1, r1)
    ensures CharRange([c0], [c1]).Ok?
    ensures RectangleGrid(Grid(CharRange([c0], [c1]).value, r0, r1), c0, r0, c1, r1)
  {
    var cols := CharRange([c0], [c1]).value;
    var grid := Grid(cols, r0, r1);
    GridEntries(cols, r0, r1);
    RectangleInGrid(cols, c0, c1, r0, r1);
    forall m | 0 <= m < |grid|
      ensures CellCoordinate(EntryPos(grid[m])) == Ok(Coord(grid[m].1, ColToNum([grid[m].0])))
    {
      assert IsColumn([grid[m].0]);
      PositionsAgree([grid[m].0], grid[m].1);
    }
  }

  // ---------------------------------------------------------------- sessions

  /** A workbook step taken in a session. */
  function Commit(s: Session, st: Step<()>): (r: Out<()>)
  {
    Out(st.result, s.(book := Some(st.book)))
  }

  /** What every edit keeps: the kind of session, its path, the files on
      disk, and the validity of the workbook. */
  ghost predicate Edited(s: Session, s2: Session)
  {
    && s2.mode == s.mode && s2.path == s.path && s2.disk == s.disk
    && (s.book.Some? <==> s2.book.Some?)
    && (s.book.Some? ==>
          Titles(s2.book.value) == Titles(s.book.value) && s2.book.value.active == s.book.value.active
          && s2.book.value.names == s.book.value.names)
    && (ValidSession(s) ==> ValidSession(s2))
  }

  /** `doc[index] = value`.  A read session has no item assignment
      (`TypeError`); without a workbook the title lookup fails; an index
      other than a string reaches `':' in index` (`TypeError`).  A cell
      assigned stands for its value. */
  function SetItem(s: Session, index: Index, value: Operand): (r: Out<()>)
    ensures Edited(s, r.session)
    ensures s.mode == ReadMode ==> r == Out(Err(TypeError), s)
    ensures s.mode != ReadMode && s.book.None? ==> r == Out(Err(AttributeError), s)
    ensures s.mode != ReadMode && s.book.Some? && !index.Text? ==> r == Out(Err(TypeError), s)
    ensures s.mode != ReadMode && s.book.Some? && index.Text? && index.t in Titles(s.book.value) ==>
      r == Out(Err(TypeError), s)
  {
    if s.mode == ReadMode then Out(Err(TypeError), s)
    else if s.book.None? then Out(Err(AttributeError), s)
    else
      match index
      case Text(t) => Commit(s, SetText(s.book.value, t, Unwrap(value)))
      case _ => Out(Err(TypeError), s)
  }

  /** `del doc[index]`, which read sessions lack. */
  function DelItem(s: Session, index: Index): (r: Out<()>)
    ensures Edited(s, r.session)
    ensures s.mode == ReadMode ==> r == Out(Err(TypeError), s)
    ensures s.mode != ReadMode && s.book.None? ==> r == Out(Err(AttributeError), s)
    ensures s.mode != ReadMode && s.book.Some? && !index.Text? ==> r == Out(Err(TypeError), s)
    ensures s.mode != ReadMode && s.book.Some? && index.Text? && index.t in Titles(s.book.value) ==>
      r == Out(Err(ValueError(NotInList)), s)
  {
    if s.mode == ReadMode then Out(Err(TypeError), s)
    else if s.book.None? then Out(Err(AttributeError), s)
    else
      match index
      case Text(t) => Commit(s, DelText(s.book.value, t))
      case _ => Out(Err(TypeError), s)
  }

  /** A session that can edit cells on its active sheet. */
  predicate Editable(s: Session)
  {
    s.mode != ReadMode && s.book.Some? && Active(s.book.value).Some?
  }

  /** A position with letters and a row the library accepts. */
  predicate GoodPosition(col: string, row: int)
  {
    IsColumn(col) && |col| <= 3 && 1 <= row <= MaxRow
  }

  /** The active sheet of a session's workbook. */
  function ActiveSheet(s: Session): Sheet
    requires Editable(s)
  {
    s.book.value.sheets[s.book.value.active]
  }

  /** Assigning a plain position writes the value into that cell of the
      active sheet and changes nothing else. */
  lemma SetPosition(s: Session, col: string, row: int, value: Operand)
    requires Editable(s) && GoodPosition(col, row) && Plain(s.book.value, Position(col, row))
    ensures var w := SetItem(s, Text(Position(col, row)), value);
      && w.result.Ok? && Editable(w.session)
      && Wrote(s.book.value, w.session.book.value, s.book.value.active, Coord(row, ColToNum(col)), Unwrap(value))
  {
    PositionNoColon(col, row);
    PositionsAgree(col, row);
  }

  /** Writing a position and reading it back gives a cell holding the value
      written, at that column and row, labelled with the active sheet (a
      value that looks like a formula would be handed to the evaluator). */
  lemma ReadAfterWrite(s: Session, eval: Evaluator, col: string, row: int, value: Operand)
    requires Editable(s) && GoodPosition(col, row) && Plain(s.book.value, Position(col, row))
    requires !LooksLikeFormula(ValueText(Unwrap(value)))
    ensures var w := SetItem(s, Text(Position(col, row)), value);
      && w.result.Ok?
      && GetItem(w.session, eval, Text(Position(col, row))).result
           == Ok(CellItem(Cell(Unwrap(value), col, row, SheetLabel(ActiveSheet(s).title), None)))
  {
    SetPosition(s, col, row, value);
    var w := SetItem(s, Text(Position(col, row)), value);
    var wb := w.session.book.value;
    assert wb.sheets[wb.active].title == Titles(wb)[wb.active] == Titles(s.book.value)[wb.active];
    LabelOfTouching(w.session, wb.sheets[wb.active].title);
    PositionsAgree(col, row);
  }

  /** Deleting a plain position sets that cell to 0 and changes nothing
      else. */
  lemma DeletePosition(s: Session, col: string, row: int)
    requires Editable(s) && GoodPosition(col, row) && Plain(s.book.value, Position(col, row))
    ensures var d := DelItem(s, Text(Position(col, row)));
      && d.result.Ok?
      && Wrote(s.book.value, d.session.book.value, s.book.value.active, Coord(row, ColToNum(col)), Int(0))
  {
    PositionNoColon(col, row);
    PositionsAgree(col, row);
  }

  /** The range text has its ':'. */
  lemma RangeTextHasColon(c0: char, r0: int, c1: char, r1: int)
    ensures ':' in RangeText(c0, r0, c1, r1)
  {
    assert RangeText(c0, r0, c1, r1)[|Position([c0], r0)|] == ':';
  }

  /** Assigning a range of one-letter columns fills its rectangle on the
      active sheet with the value and changes no other cell. */
  lemma SetRangeFillsRectangle(s: Session, c0: char, r0: int, c1: char, r1: int, value: Operand)
    requires Editable(s) && Corners(c0, r0, c1, r1) && Plain(s.book.value, RangeText(c0, r0, c1, r1))
    requires forall c: char, row: int :: c0 <= c <= c1 && r0 <= row <= r1 ==> Plain(s.book.value, Position([c], row))
    ensures var w := SetItem(s, Text(RangeText(c0, r0, c1, r1)), value);
      && w.result.Ok? && Editable(w.session)
      && (forall k :: Get(ActiveSheet(w.session), k) == if InRectangle(k, c0, r0, c1, r1) then Unwrap(value) else Get(ActiveSheet(s), k))
      && (forall j :: 0 <= j < |s.book.value.sheets| && j != s.book.value.active ==>
            w.session.book.value.sheets[j] == s.book.value.sheets[j])
  {
    RangeTextHasColon(c0, r0, c1, r1);
    RangeTextCells(c0, r0, c1, r1);
    RectangleWrite(s.book.value, RangeCells(RangeText(c0, r0, c1, r1)).value, c0, r0, c1, r1, Unwrap(value), ByIndex);
  }

  /** Deleting a range of one-letter columns sets its rectangle on the
      active sheet to 0 and changes no other cell. */
  lemma DeleteRangeZeroesRectangle(s: Session, c0: char, r0: int, c1: char, r1: int)
    requires Editable(s) && Corners(c0, r0, c1, r1) && Plain(s.book.value, RangeText(c0, r0, c1, r1))
    ensures var d := DelItem(s, Text(RangeText(c0, r0, c1, r1)));
      && d.result.Ok? && Editable(d.session)
      && (forall k :: Get(ActiveSheet(d.session), k) == if InRectangle(k, c0, r0, c1, r1) then Int(0) else Get(ActiveSheet(s), k))
      && (forall j :: 0 <= j < |s.book.value.sheets| && j != s.book.value.active ==>
            d.session.book.value.sheets[j] == s.book.value.sheets[j])
  {
    RangeTextHasColon(c0, r0, c1, r1);
    RangeTextCells(c0, r0, c1, r1);
    RectangleWrite(s.book.value, RangeCells(RangeText(c0, r0, c1, r1)).value, c0, r0, c1, r1, Int(0), ByActive);
  }

  /** With distinct titles, the active sheet's title finds the active
      sheet. */
  lemma FindActive(wb: Workbook)
    requires ValidBook(wb) && Active(wb).Some?
    ensures Find(wb, wb.sheets[wb.active].title) == Ok(wb.active)
  {
    assert Titles(wb)[wb.active] == wb.sheets[wb.active].title;
  }

  /** Naming a cell of the active sheet and assigning the name writes that
      cell, and reading the name gives the value back. */
  lemma NamedWriteThenRead(s: Session, eval: Evaluator, ref: string, name: string, value: Operand)
    requires Editable(s) && ValidBook(s.book.value)
    requires CellCoordinate(ref).Ok? && name !in Titles(s.book.value)
    ensures var n := Name(s, ref, name, "");
      var w := SetItem(n.session, Text(name), value);
      && n.result.Ok? && w.result.Ok? && Editable(w.session)
      && Get(ActiveSheet(w.session), CellCoordinate(ref).value) == Unwrap(value)
      && GetItem(w.session, eval, Text(name)).result == Ok(ValueItem(Unwrap(value)))
  {
    var wb := s.book.value;
    var title := wb.sheets[wb.active].title;
    var n := Name(s, ref, name, "");
    var wb1 := n.session.book.value;
    var dests := [Dest(title, ref)];
    assert wb1.names[name] == dests;
    FindActive(wb);
    FindSameTitles(wb, wb1, title);
    var st := WriteDests(wb1, dests, Unwrap(value), None);
    assert SetText(wb1, name, Unwrap(value)) == st;
    WriteDestsSpec(wb1, dests, Unwrap(value), None);
    HitOfDest(wb1, dests, 0);
    FindSameTitles(wb1, st.book, title);
  }

  /** A defined name with one destination on a sheet of the workbook
      writes the cell its reference names, leaves the sheet's other cells
      alone, and leaves every other sheet as it was. */
  lemma SingleNameWrite(wb: Workbook, name: string, title: string, ref: string, k: Coord, v: Value)
    requires name !in Titles(wb) && name in wb.names && wb.names[name] == [Dest(title, ref)]
    requires title in Titles(wb) && CellCoordinate(ref) == Ok(k)
    ensures var r := SetText(wb, name, v);
      var i := Find(wb, title).value;
      && r.result.Ok?
      && Get(r.book.sheets[i], k) == v
      && (forall k2 :: k2 != k ==> Get(r.book.sheets[i], k2) == Get(wb.sheets[i], k2))
      && (forall j :: 0 <= j < |wb.sheets| && j != i ==> r.book.sheets[j] == wb.sheets[j])
  {
    var i := Find(wb, title).value;
    var wb2 := WriteAt(wb, i, ref, v).value;
    var dests := [Dest(title, ref)];
    assert dests[0].sheet == title && dests[0].ref == ref && dests[1..] == [];
    assert SetText(wb, name, v) == WriteDests(wb, dests, v, None);
    assert WriteDests(wb, dests, v, None).book == wb2;
  }

  /** Excel stores the target of a defined name with anchors, as "$C$3";
      writing the name writes cell C3 of its sheet. */
  lemma AnchoredNameWrite(wb: Workbook, name: string, title: string, v: Value)
    requires name !in Titles(wb) && name in wb.names && wb.names[name] == [Dest(title, "$C$3")]
    requires title in Titles(wb)
    ensures var r := SetText(wb, name, v);
      var i := Find(wb, title).value;
      && r.result.Ok?
      && Get(r.book.sheets[i], Coord(3, 3)) == v
      && (forall k :: k != Coord(3, 3) ==> Get(r.book.sheets[i], k) == Get(wb.sheets[i], k))
  {
    DefinedNameTarget();
    SingleNameWrite(wb, name, title, "$C$3", Coord(3, 3), v);
  }

  /** `doc[index] <op>= operand`: Python reads `doc[index]`, applies the
      in-place operator to what it got, and assigns the result back.  A
      cell applies the operator to its value (`Cell.__i<op>__`); a bare
      value combined with a cell has no operator for it (`TypeError`); a
      worksheet has none either. */
  function AugAssign(s: Session, eval: Evaluator, index: Index, op: Op, operand: Operand): (r: Out<()>)
    ensures r.session.mode == s.mode && r.session.path == s.path
    ensures ValidSession(s) ==> ValidSession(r.session)
    ensures s.book.None? ==> r == Out(Err(AttributeError), s)
  {
    var g := GetItem(s, eval, index);
    match g.result
    case Err(e) => Out(Err(e), g.session)
    case Ok(SheetItem(_)) => Out(Err(TypeError), g.session)
    case Ok(CellItem(c)) =>
      (match InPlace(op, c, operand)
       case Err(e) => Out(Err(e), g.session)
       case Ok(c2) => SetItem(g.session, index, CellOperand(c2)))
    case Ok(ValueItem(v)) =>
      if operand.CellOperand? then Out(Err(TypeError), g.session)
      else
        match Apply(op, v, Unwrap(operand))
        case Err(e) => Out(Err(e), g.session)
        case Ok(w) => SetItem(g.session, index, ValueOperand(w))
  }

  /** Augmented assignment on a plain position holding a value that is not
      a formula: it succeeds exactly when the cell operation does, stores
      its result in that cell and changes nothing else; a failure is the
      operation's, the metaclass having renamed any `ValueError`. */
  lemma AugAssignPosition(s: Session, eval: Evaluator, col: string, row: int, op: Op, operand: Operand)
    requires Editable(s) && GoodPosition(col, row) && Plain(s.book.value, Position(col, row))
    requires !LooksLikeFormula(ValueText(Get(ActiveSheet(s), Coord(row, ColToNum(col)))))
    ensures var x := Get(ActiveSheet(s), Coord(row, ColToNum(col)));
      var done := Rewrap(op, Apply(op, x, Unwrap(operand)));
      var a := AugAssign(s, eval, Text(Position(col, row)), op, operand);
      && (a.result.Ok? <==> done.Ok?)
      && (a.result.Err? ==> a.result.error == done.error)
      && (a.result.Ok? ==>
            && Editable(a.session)
            && Wrote(s.book.value, a.session.book.value, s.book.value.active, Coord(row, ColToNum(col)), done.value))
  {
    var wb := s.book.value;
    var i := wb.active;
    ReadPositionStep(s, eval, col, row);
    var k := Coord(row, ColToNum(col));
    var c := Cell(Get(wb.sheets[i], k), col, row, SheetLabel(wb.sheets[i].title), None);
    var gs := s.(book := Some(UpdateSheet(wb, i, Touch(wb.sheets[i], k))));
    AugAssignOnCell(s, eval, Text(Position(col, row)), op, operand, c, gs);
    InPlaceWrite(wb, gs, col, row, c, op, operand);
  }

  /** The write-back half of an augmented assignment on a position, after the
      read has created the cell on the active sheet of `wb`. */
  lemma InPlaceWrite(wb: Workbook, gs: Session, col: string, row: int, c: Cell, op: Op, operand: Operand)
    requires gs.mode != ReadMode && Active(wb).Some? && GoodPosition(col, row) && Plain(wb, Position(col, row))
    requires ColToNum(col) >= 1
    requires var i := wb.active;
      gs.book == Some(UpdateSheet(wb, i, Touch(wb.sheets[i], Coord(row, ColToNum(col)))))
    ensures var done := Rewrap(op, Apply(op, c.value, Unwrap(operand)));
      var r := match InPlace(op, c, operand)
               case Err(e) => Out(Err(e), gs)
               case Ok(c2) => SetItem(gs, Text(Position(col, row)), CellOperand(c2));
      && (r.result.Ok? <==> done.Ok?)
      && (r.result.Err? ==> r.result.error == done.error)
      && (r.result.Ok? ==>
            && Editable(r.session)
            && Wrote(wb, r.session.book.value, wb.active, Coord(row, ColToNum(col)), done.value))
  {
    var i := wb.active;
    var k := Coord(row, ColToNum(col));
    var gb := gs.book.value;
    assert Editable(gs) && Plain(gb, Position(col, row));
    TouchPutValid(wb.sheets[i], k, Empty);
    NoValueErrorFromOperators(op, c, operand);
    match InPlace(op, c, operand)
    case Err(_) =>
    case Ok(c2) =>
      SetPosition(gs, col, row, CellOperand(c2));
      var fb := SetItem(gs, Text(Position(col, row)), CellOperand(c2)).session.book.value;
      assert Wrote(gb, fb, i, k, c2.value);
      assert forall k2 :: Get(gb.sheets[i], k2) == Get(wb.sheets[i], k2);
  }

  /** Augmented assignment once `doc[index]` has read a cell. */
  lemma AugAssignOnCell(s: Session, eval: Evaluator, index: Index, op: Op, operand: Operand, c: Cell, gs: Session)
    requires GetItem(s, eval, index) == Out(Ok(CellItem(c)), gs)
    ensures AugAssign(s, eval, index, op, operand)
      == match InPlace(op, c, operand)
         case Err(e) => Out(Err(e), gs)
         case Ok(c2) => SetItem(gs, index, CellOperand(c2))
  {
  }

  /** Reading a plain position of the active sheet in a modify or write
      session: the cell at that position, the library having created it on
      the sheet (only the sheet's extents can change). */
  lemma ReadPositionStep(s: Session, eval: Evaluator, col: string, row: int)
    requires Editable(s) && GoodPosition(col, row) && Plain(s.book.value, Position(col, row))
    requires !LooksLikeFormula(ValueText(Get(ActiveSheet(s), Coord(row, ColToNum(col)))))
    ensures ColToNum(col) >= 1
    ensures var wb := s.book.value;
      var i := wb.active;
      var k := Coord(row, ColToNum(col));
      GetItem(s, eval, Text(Position(col, row)))
        == Out(Ok(CellItem(Cell(Get(wb.sheets[i], k), col, row, SheetLabel(wb.sheets[i].title), None))),
               s.(book := Some(UpdateSheet(wb, i, Touch(wb.sheets[i], k)))))
  {
    ColToNumNonNegative(col);
    LabelOfTouching(s, s.book.value.sheets[s.book.value.active].title);
    PositionsAgree(col, row);
  }

  /** Assigning a value to a plain position, then an augmented assignment
      to it, then reading it gives a cell holding the operation's result. */
  lemma SetThenAugAssign(s: Session, eval: Evaluator, col: string, row: int, op: Op, x: Value, y: Value)
    requires Editable(s) && GoodPosition(col, row) && Plain(s.book.value, Position(col, row))
    requires !LooksLikeFormula(ValueText(x))
    requires Rewrap(op, Apply(op, x, y)).Ok? && !LooksLikeFormula(ValueText(Apply(op, x, y).value))
    ensures var w := SetItem(s, Text(Position(col, row)), ValueOperand(x)).session;
      var a := AugAssign(w, eval, Text(Position(col, row)), op, ValueOperand(y));
      && a.result.Ok?
      && GetItem(a.session, eval, Text(Position(col, row))).result
           == Ok(CellItem(Cell(Apply(op, x, y).value, col, row, SheetLabel(ActiveSheet(s).title), None)))
  {
    SetPosition(s, col, row, ValueOperand(x));
    var w := SetItem(s, Text(Position(col, row)), ValueOperand(x)).session;
    AugAssignPosition(w, eval, col, row, op, ValueOperand(y));
    var a := AugAssign(w, eval, Text(Position(col, row)), op, ValueOperand(y));
    ReadBack(a.session, eval, col, row);
    assert ActiveSheet(a.session).title == ActiveSheet(s).title by {
      var i := s.book.value.active;
      assert Titles(a.session.book.value)[i] == Titles(w.book.value)[i] == Titles(s.book.value)[i];
    }
  }

  /** The arithmetic of the source's tests: 3 += 3 is 6, 3 *= 3 is 9 and
      3 -= 3 is 0, read back through `doc["A2"]`.  The test's `/= 3` case
      yields a float and is outside the model (see `Cells.InPlaceExamples`). */
  lemma CellMathExamples(s: Session, eval: Evaluator, op: Op)
    requires Editable(s) && Plain(s.book.value, "A2") && op in {Add, Mul, Sub}
    ensures var w := SetItem(s, Text("A2"), ValueOperand(Int(3))).session;
      GetItem(AugAssign(w, eval, Text("A2"), op, ValueOperand(Int(3))).session, eval, Text("A2")).result
        == Ok(CellItem(Cell(Int(match op case Add => 6 case Mul => 9 case _ => 0), "A", 2, SheetLabel(ActiveSheet(s).title), None)))
  {
    assert Position("A", 2) == "A2";
    var z := match op case Add => 6 case Mul => 9 case _ => 0;
    assert Apply(op, Int(3), Int(3)) == Ok(Int(z));
    assert ValueText(Int(3)) == "3" && ValueText(Int(z)) == [DigitChar(z)];
    SetThenAugAssign(s, eval, "A", 2, op, Int(3), Int(3));
  }

  /** Reading a plain position that holds no formula gives its cell. */
  lemma ReadBack(s: Session, eval: Evaluator, col: string, row: int)
    requires Editable(s) && GoodPosition(col, row) && Plain(s.book.value, Position(col, row))
    requires !LooksLikeFormula(ValueText(Get(ActiveSheet(s), Coord(row, ColToNum(col)))))
    ensures GetItem(s, eval, Text(Position(col, row))).result
      == Ok(CellItem(Cell(Get(ActiveSheet(s), Coord(row, ColToNum(col))), col, row, SheetLabel(ActiveSheet(s).title), None)))
  {
    LabelOfTouching(s, ActiveSheet(s).title);
    PositionsAgree(col, row);
  }
}

=== FILE: outcomes.dfy ===
/** Failure-carrying results shared by every module of the model.

    The spreadsheet layer signals every error it raises itself as a plain
    `ValueError`; the `Reason` records which of its raise sites (or which
    library check) produced it.  The other constructors of `Error` stand for
    the exceptions Python or the spreadsheet library raise on the way.
 */
module Outcomes {

  datatype Option<+T> = None | Some(value: T)

  /** The raise site behind a `ValueError`. */
  datatype Reason =
    | ColumnOutOfRange          // a column shift below column 1
    | NotSameSheet              // ordering two cells of different sheets
    | NotACell                  // ordering a cell against a non-cell
    | NothingToReturn           // `range` with every output flag off
    | NoSavePath                // `save` without any path
    | UnknownMode               // `open_excel` with a mode other than r, m, w
    | ArithmeticFailed(op: string) // a ValueError of cell arithmetic, rewrapped
    | InvalidLiteral            // `int('')`: an address without digits
    | BadUnpack                 // a range spec that is not `start:end`
    | InvalidColumn             // the library's column lookup rejects the letters
    | RowOutOfRange             // the library's row bound (1 .. 1048576)
    | NotInList                 // `Workbook.remove` given a sheet name, not a sheet

  datatype Error =
    | ValueError(reason: Reason)
    | TypeError
    | KeyError(key: string)
    | AttributeError
    | IndexError
    | ZeroDivisionError
    | UnboundLocalError
    | AssertionError
    | CoordinateError           // the key does not match the library's coordinate pattern (its ValueError)
    | NoActiveSheet             // the library's active sheet is None
    | FileNotFound(path: string)
    | Unresolved(name: string)  // a named destination whose sheet is gone
    | EvaluationError           // the formula evaluator failed
    | Unmodelled                // a float, a formatted string, or a sheet title the library refuses or replaces

  datatype Result<+T> = Ok(value: T) | Err(error: Error) {
    predicate IsFailure() { Err? }

    function PropagateFailure<U>(): Result<U>
      requires Err?
    {
      Err(error)
    }

    function Extract(): T
      requires Ok?
    {
      value
    }
  }
}

=== FILE: sessions.dfy ===
/** Sessions on a workbook file: the read, modify and write classes as one
    state machine over a mode, the opened path, the workbook in memory (absent
    before `__enter__` and after `__exit__`) and the saved workbooks.

    Loading and saving are abstracted to a map from paths to workbooks: a
    save stores the workbook in memory under the path and a load reads it
    back unchanged.  The formula evaluator is an oracle over the workbook
    saved at the session's path.
 */
module Sessions {
  import opened Outcomes
  import opened Text
  import opened Columns
  import opened Addresses
  import opened Cells
  import opened Store

  datatype Mode = ReadMode | ModifyMode | WriteMode

  /** The saved workbooks, by path. */
  type Disk = map<string, Workbook>

  datatype Session = Session(mode: Mode, path: Option<string>, book: Option<Workbook>, disk: Disk)

  /** The formula evaluator built on a saved workbook: given that workbook
      and a reference "Title!A1", the computed value or the failure. */
  type Evaluator = (Workbook, string) -> Result<Value>

  /** An operation on a session that may fail after changing it. */
  datatype Out<T> = Out(result: Result<T>, session: Session)

  /** What `doc[index]` is given: a string, a cell, or anything else (an int). */
  datatype Index = Text(t: string) | CellIndex(c: Cell) | IntIndex(n: int)

  /** What `doc[index]` returns: a worksheet, a bare value, or a cell. */
  datatype Item = SheetItem(sheet: nat) | ValueItem(v: Value) | CellItem(c: Cell)

  predicate ValidDisk(d: Disk)
  {
    forall p :: p in d ==> ValidBook(d[p])
  }

  /** What the library keeps true of every workbook a session holds. */
  predicate ValidSession(s: Session)
  {
    (s.book.Some? ==> ValidBook(s.book.value)) && ValidDisk(s.disk)
  }

  /** Whether reading a cell by position creates it: every workbook but a
      read-only one does. */
  predicate Touching(s: Session)
  {
    s.mode != ReadMode
  }

  /** The sheet label `str(self.workbook.active)` gives a read Cell: a read
      session loads its workbook read-only, whose worksheets print as
      Python's default object text. */
  function LabelIn(s: Session, title: string): string
  {
    if Touching(s) then SheetLabel(title) else ReadOnlyLabel()
  }

  lemma LabelOfTouching(s: Session, title: string)
    requires Touching(s)
    ensures LabelIn(s, title) == SheetLabel(title)
  {
  }

  /** Two workbooks with the same sheets, names, active sheet and values;
      only the extents of created cells may differ. */
  ghost predicate SameContent(a: Workbook, b: Workbook)
  {
    && Titles(b) == Titles(a) && b.active == a.active && b.names == a.names
    && forall j, k :: 0 <= j < |a.sheets| ==> Get(b.sheets[j], k) == Get(a.sheets[j], k)
  }

  /** A read: `s2` differs from `s` at most by created cells and, in a write
      session, by the workbook in memory having been saved at the path. */
  ghost predicate ReadStep(s: Session, s2: Session)
  {
    && s2.mode == s.mode && s2.path == s.path
    && s.book.Some? && s2.book.Some? && SameContent(s.book.value, s2.book.value)
    && (s2.disk == s.disk || SavedAt(s, s2))
    && (ValidSession(s) ==> ValidSession(s2))
  }

  /** `s2`'s saved workbooks are `s`'s, but for the path of the write
      session `s`, where a workbook with `s`'s content has been saved. */
  ghost predicate SavedAt(s: Session, s2: Session)
    requires s.book.Some?
  {
    && s.mode == WriteMode && s.path.Some? && s.path.value in s2.disk
    && s2.disk == s.disk[s.path.value := s2.disk[s.path.value]]
    && SameContent(s.book.value, s2.disk[s.path.value])
  }

  lemma ReadStepChains(s: Session, s2: Session, s3: Session)
    requires ReadStep(s, s2) && ReadStep(s2, s3)
    ensures ReadStep(s, s3)
  {
    SameContentChains(s.book.value, s2.book.value, s3.book.value);
    if s2.disk != s.disk && s3.disk != s2.disk {
      var p := s.path.value;
      SameContentChains(s.book.value, s2.book.value, s3.disk[p]);
      assert s3.disk == s.disk[p := s3.disk[p]];
    } else if s2.disk != s.disk {
      assert s3.disk == s2.disk;
    } else if s3.disk != s2.disk {
      SameContentChains(s.book.value, s2.book.value, s3.disk[s.path.value]);
    }
  }

  lemma SameContentChains(a: Workbook, b: Workbook, c: Workbook)
    requires SameContent(a, b) && SameContent(b, c)
    ensures SameContent(a, c)
  {
    forall j, k | 0 <= j < |a.sheets| ensures Get(c.sheets[j], k) == Get(a.sheets[j], k) {
      assert |Titles(b)| == |Titles(a)|;
    }
  }

  // ---------------------------------------------------------------- opening and closing

  /** `open_excel(path, mode)`: a session of the mode's class, not yet
      entered; an empty path means none. */
  function OpenExcel(path: string, mode: string, disk: Disk): (r: Result<Session>)
    ensures r.Ok? <==> mode == "r" || mode == "m" || mode == "w"
    ensures r.Ok? ==> r.value.book.None? && r.value.disk == disk
    ensures r.Ok? ==> (r.value.path.None? <==> path == "") && (r.value.path.Some? ==> r.value.path.value == path)
    ensures r.Ok? ==> (r.value.mode == ReadMode <==> mode == "r") && (r.value.mode == WriteMode <==> mode == "w")
    ensures r.Err? ==> r.error == ValueError(UnknownMode)
  {
    var p := if path == "" then None else Some(path);
    if mode == "r" then Ok(Session(ReadMode, p, None, disk))
    else if mode == "m" then Ok(Session(ModifyMode, p, None, disk))
    else if mode == "w" then Ok(Session(WriteMode, p, None, disk))
    else Err(ValueError(UnknownMode))
  }

  /** `__enter__` (`open_doc`).  A read session loads its path; a modify
      session loads its path or, without one, starts an empty workbook; a
      write session does the same and, when the path does not exist and the
      user confirms, saves an empty workbook there; without confirmation it
      stays without a workbook. */
  function Enter(s: Session, confirm: bool): (r: Out<()>)
    ensures r.session.mode == s.mode && r.session.path == s.path
    ensures ValidSession(s) ==> ValidSession(r.session)
    ensures s.path.Some? && s.path.value in s.disk ==>
      r == Out(Ok(()), s.(book := Some(s.disk[s.path.value])))
    ensures s.path.None? ==>
      r == if s.mode == ReadMode then Out(Err(TypeError), s) else Out(Ok(()), s.(book := Some(NewWorkbook())))
    ensures s.path.Some? && s.path.value !in s.disk ==>
      r == if s.mode != WriteMode then Out(Err(FileNotFound(s.path.value)), s)
           else if confirm then Out(Ok(()), s.(book := Some(NewWorkbook()), disk := s.disk[s.path.value := NewWorkbook()]))
           else Out(Ok(()), s)
  {
    match s.path
    case None =>
      if s.mode == ReadMode then Out(Err(TypeError), s)
      else Out(Ok(()), s.(book := Some(NewWorkbook())))
    case Some(p) =>
      if p in s.disk then Out(Ok(()), s.(book := Some(s.disk[p])))
      else if s.mode != WriteMode then Out(Err(FileNotFound(p)), s)
      else if confirm then Out(Ok(()), s.(book := Some(NewWorkbook()), disk := s.disk[p := NewWorkbook()]))
      else Out(Ok(()), s)
  }

  /** `save(path)`, which only write sessions have: to `path`, or when it is
      empty to the opened path; `ValueError` when there is neither. */
  function Save(s: Session, path: string): (r: Out<()>)
    ensures r.session.mode == s.mode && r.session.path == s.path && r.session.book == s.book
    ensures r.result.Ok? <==> s.mode == WriteMode && (path != "" || s.path.Some?) && s.book.Some?
    ensures r.result.Ok? ==>
      r.session.disk == s.disk[(if path != "" then path else s.path.value) := s.book.value]
    ensures r.result.Err? ==> r.session == s
    ensures r.result.Err? ==>
      r.result.error == if s.mode == WriteMode && path == "" && s.path.None? then ValueError(NoSavePath) else AttributeError
    ensures ValidSession(s) ==> ValidSession(r.session)
  {
    if s.mode != WriteMode then Out(Err(AttributeError), s)
    else
      var target := if path != "" then Some(path) else s.path;
      if target.None? then Out(Err(ValueError(NoSavePath)), s)
      else if s.book.None? then Out(Err(AttributeError), s)
      else Out(Ok(()), s.(disk := s.disk[target.value := s.book.value]))
  }

  /** Saving and then entering a session on the same path gives back the
      workbook that was saved. */
  lemma SaveThenEnter(s: Session, path: string, mode: Mode, confirm: bool)
    requires Save(s, path).result.Ok?
    ensures var p := if path != "" then path else s.path.value;
      var reopened := Session(mode, Some(p), None, Save(s, path).session.disk);
      Enter(reopened, confirm) == Out(Ok(()), reopened.(book := s.book))
  {
  }

  /** `del self.workbook`, the end of every `__exit__`. */
  function Close(s: Session): (r: Out<()>)
    ensures r.result.Ok? <==> s.book.Some?
    ensures r.session == if s.book.Some? then s.(book := None) else s
    ensures r.result.Err? ==> r.result.error == AttributeError
  {
    if s.book.None? then Out(Err(AttributeError), s) else Out(Ok(()), s.(book := None))
  }

  /** `__exit__`: a write session first saves at its path, but only when the
      block ended without an exception (`failed` false); every session then
      drops its workbook. */
  function Exit(s: Session, failed: bool): (r: Out<()>)
    ensures r.session.mode == s.mode && r.session.path == s.path
    ensures r.result.Ok? ==> r.session.book.None?
    ensures ValidSession(s) ==> ValidSession(r.session)
  {
    if s.mode == WriteMode && !failed then
      var saved := Save(s, "");
      if saved.result.Err? then saved else Close(saved.session)
    else Close(s)
  }

  /** Leaving a write session with a path saves its workbook there exactly
      when the block ended cleanly; the other sessions never save. */
  lemma ExitSavesOnlyWhenClean(s: Session, failed: bool)
    requires s.book.Some?
    requires s.mode == WriteMode ==> s.path.Some?
    ensures Exit(s, failed).result == Ok(())
    ensures Exit(s, failed).session.disk ==
      if s.mode == WriteMode && !failed then s.disk[s.path.value := s.book.value] else s.disk
  {
  }

  /** The workbook the formula evaluator reads, as `pycel` builds it: the
      file at the path; a write session saves first, so the evaluator reads
      the workbook in memory. */
  function Compile(s: Session): (r: Out<Workbook>)
    requires s.mode != ReadMode
    ensures r.session.mode == s.mode && r.session.path == s.path && r.session.book == s.book
    ensures s.mode == ModifyMode ==> r.session == s
    ensures s.mode == ModifyMode ==>
      r.result == if s.path.None? then Err(EvaluationError)
                  else if s.path.value !in s.disk then Err(FileNotFound(s.path.value))
                  else Ok(s.disk[s.path.value])
    ensures s.mode == WriteMode ==> (r.result.Ok? <==> s.path.Some? && s.book.Some?)
    ensures s.mode == WriteMode && r.result.Ok? ==>
      r.result.value == s.book.value && r.session.disk == s.disk[s.path.value := s.book.value]
    ensures r.result.Err? && s.mode == WriteMode ==> r.session == s
    ensures ValidSession(s) ==> ValidSession(r.session)
  {
    if s.mode == WriteMode then
      var saved := Save(s, "");
      if saved.result.Err? then Out(Err(saved.result.error), saved.session)
      else Out(Ok(saved.session.disk[s.path.value]), saved.session)
    else if s.path.None? then Out(Err(EvaluationError), s)
    else if s.path.value !in s.disk then Out(Err(FileNotFound(s.path.value)), s)
    else Out(Ok(s.disk[s.path.value]), s)
  }

  /** `self.pycel.evaluate(f"{self.active.title}!{ref}")`: the evaluator is
      built first, then the active sheet's title is read. */
  function EvaluateAt(s: Session, eval: Evaluator, ref: string): (r: Out<Value>)
    requires s.mode != ReadMode
    ensures r.session == Compile(s).session
    ensures r.result.Ok? ==> Compile(s).result.Ok? && s.book.Some? && Active(s.book.value).Some?
    ensures r.result.Ok? ==>
      r.result == eval(Compile(s).result.value, s.book.value.sheets[s.book.value.active].title + "!" + ref)
  {
    var c := Compile(s);
    if c.result.Err? then Out(Err(c.result.error), c.session)
    else if s.book.None? then Out(Err(AttributeError), c.session)
    else
      match Active(s.book.value)
      case None => Out(Err(AttributeError), c.session)
      case Some(i) => Out(eval(c.result.value, s.book.value.sheets[i].title + "!" + ref), c.session)
  }

  /** `evaluate_formula(cell)`, which read sessions lack: a cell stands for
      its position. */
  function EvaluateFormula(s: Session, eval: Evaluator, index: Index): (r: Out<Value>)
    ensures s.mode == ReadMode ==> r == Out(Err(AttributeError), s)
    ensures s.mode != ReadMode ==>
      r == EvaluateAt(s, eval, match index case Text(t) => t case CellIndex(c) => Pos(c) case IntIndex(n) => IntText(n))
  {
    if s.mode == ReadMode then Out(Err(AttributeError), s)
    else
      var ref := match index case Text(t) => t case CellIndex(c) => Pos(c) case IntIndex(n) => IntText(n);
      EvaluateAt(s, eval, ref)
  }

  /** In a write session the evaluator sees the workbook in memory, so a
      formula is evaluated on the values just written, and the workbook is
      saved at the path on the way. */
  lemma EvaluatorSeesCurrentBook(s: Session, eval: Evaluator, t: string)
    requires s.mode == WriteMode && s.path.Some? && s.book.Some? && Active(s.book.value).Some?
    ensures EvaluateFormula(s, eval, Text(t)).result
         == eval(s.book.value, s.book.value.sheets[s.book.value.active].title + "!" + t)
    ensures EvaluateFormula(s, eval, Text(t)).session == s.(disk := s.disk[s.path.value := s.book.value])
  {
  }

  // ---------------------------------------------------------------- reading by []

  /** `wb[sheet][ref].value` for the first destination of a defined name;
      a name without destinations reads as `None`.  A destination whose
      sheet is not a title fails. */
  function NameValue(s: Session, name: string): (r: Out<Item>)
    requires s.book.Some? && name in s.book.value.names
    ensures ReadStep(s, r.session) && r.session.disk == s.disk
    ensures var dests := s.book.value.names[name];
      r.result.Ok? ==>
        && r.result.value.ValueItem?
        && if |dests| == 0 then r.result.value.v == Empty
        else
          && Find(s.book.value, dests[0].sheet).Ok?
          && CellCoordinate(dests[0].ref).Ok?
          && r.result.value.v == Get(s.book.value.sheets[Find(s.book.value, dests[0].sheet).value], CellCoordinate(dests[0].ref).value)
  {
    var wb := s.book.value;
    var dests := wb.names[name];
    if |dests| == 0 then Out(Ok(ValueItem(Empty)), s)
    else
      match Find(wb, dests[0].sheet)
      case Err(_) => Out(Err(Unresolved(name)), s)
      case Ok(i) =>
        match Locate(wb, i, dests[0].ref, Touching(s))
        case Err(e) => Out(Err(e), s)
        case Ok(found) => Out(Ok(ValueItem(Get(found.1.sheets[i], found.0))), s.(book := Some(found.1)))
  }

  /** The cell at a position on the active sheet, as `doc["B3"]` returns it:
      the position split by the source's `split_cell`, the letters looked up
      by the library, the row checked by the library (a read-only sheet
      checks only that it is positive).  A modify or write session hands
      content that looks like a formula to the evaluator, but returns the
      cell with the content as stored. */
  function PositionItem(s: Session, eval: Evaluator, t: string): (r: Out<Item>)
    requires s.book.Some?
    ensures ReadStep(s, r.session)
    ensures r.result.Ok? ==>
      && SplitCell(t).Ok? && ColumnStrToInt(SplitCell(t).value.0).Ok?
      && Active(s.book.value).Some?
      && var (letters, row) := SplitCell(t).value;
         var i := s.book.value.active;
         && 1 <= row && (Touching(s) ==> row <= MaxRow)
         && r.result.value == CellItem(Cell(Get(s.book.value.sheets[i], Coord(row, ColumnStrToInt(letters).value)),
                                            letters, row, LabelIn(s, s.book.value.sheets[i].title), None))
    ensures r.result.Ok? && !LooksLikeFormula(ValueText(r.result.value.c.value)) ==> r.session.disk == s.disk
  {
    var wb := s.book.value;
    match SplitCell(t)
    case Err(e) => Out(Err(e), s)
    case Ok(parts) =>
      var (letters, row) := parts;
      match ColumnStrToInt(letters)
      case Err(e) => Out(Err(e), s)
      case Ok(col) =>
        match Active(wb)
        case None => Out(Err(AttributeError), s)
        case Some(i) =>
          if row < 1 || (Touching(s) && row > MaxRow) then Out(Err(ValueError(RowOutOfRange)), s)
          else ReadCellAt(s, eval, t, i, letters, Coord(row, col))
  }

  /** Reading the cell at `k` of sheet `i`, named `letters` and `k.row`:
      all but a read-only workbook first create it, and a formula in it is
      handed to the evaluator. */
  function ReadCellAt(s: Session, eval: Evaluator, t: string, i: nat, letters: string, k: Coord): (r: Out<Item>)
    requires s.book.Some? && i < |s.book.value.sheets| && k.row >= 1 && k.col >= 1
    ensures ReadStep(s, r.session)
    ensures r.result.Ok? ==>
      r.result.value == CellItem(Cell(Get(s.book.value.sheets[i], k), letters, k.row, LabelIn(s, s.book.value.sheets[i].title), None))
    ensures r.result.Ok? && !LooksLikeFormula(ValueText(r.result.value.c.value)) ==> r.session.disk == s.disk
  {
    var wb := s.book.value;
    TouchPutValid(wb.sheets[i], k, Empty);
    var wb' := if Touching(s) then UpdateSheet(wb, i, Touch(wb.sheets[i], k)) else wb;
    var c := Cell(Get(wb.sheets[i], k), letters, k.row, LabelIn(s, wb.sheets[i].title), None);
    var s' := s.(book := Some(wb'));
    if Touching(s) && LooksLikeFormula(ValueText(c.value)) then
      var ev := EvaluateAt(s', eval, t);
      if ev.result.Err? then Out(Err(ev.result.error), ev.session) else Out(Ok(CellItem(c)), ev.session)
    else Out(Ok(CellItem(c)), s')
  }

  /** `doc[t]` for a string: a sheet title gives the worksheet, then a defined
      name gives its first destination's value, then the text is read as a
      position on the active sheet. */
  function GetText(s: Session, eval: Evaluator, t: string): (r: Out<Item>)
    requires s.book.Some?
    ensures ReadStep(s, r.session)
    ensures t in Titles(s.book.value) ==> r == Out(Ok(SheetItem(Find(s.book.value, t).value)), s)
    ensures t !in Titles(s.book.value) && t in s.book.value.names ==> r == NameValue(s, t)
    ensures t !in Titles(s.book.value) && t !in s.book.value.names ==> r == PositionItem(s, eval, t)
  {
    var wb := s.book.value;
    if t in Titles(wb) then Out(Ok(SheetItem(Find(wb, t).value)), s)
    else if t in wb.names then NameValue(s, t)
    else PositionItem(s, eval, t)
  }

  /** `doc[cell]` in a read session: the value at the cell's position. */
  function CellValueRead(s: Session, eval: Evaluator, c: Cell): (r: Out<Item>)
    requires s.book.Some?
    ensures ReadStep(s, r.session)
    ensures var g := GetText(s, eval, Pos(c));
      r.result.Ok? <==> g.result.Ok? && g.result.value.CellItem?
    ensures r.result.Ok? ==> r.result.value == ValueItem(GetText(s, eval, Pos(c)).result.value.c.value)
  {
    var g := GetText(s, eval, Pos(c));
    match g.result
    case Err(e) => Out(Err(e), g.session)
    case Ok(CellItem(x)) => Out(Ok(ValueItem(x.value)), g.session)
    case Ok(_) => Out(Err(AttributeError), g.session)
  }

  /** `doc[cell]` in a modify or write session: the stored content at the
      cell's position must be a string (`in` is applied to it); one that
      looks like a formula is evaluated, at the reference formed from the
      active title and the text of the index cell's own value, and any
      other is returned as it is.  (The source reads the position up to
      three times; the repeated reads see the same state, so one is
      modelled.) */
  function CellValueModify(s: Session, eval: Evaluator, c: Cell): (r: Out<Item>)
    requires s.book.Some? && s.mode != ReadMode
    ensures ReadStep(s, r.session)
    ensures r.result.Ok? ==> r.result.value.ValueItem?
    ensures var g := GetText(s, eval, Pos(c));
      r.result.Ok? ==> g.result.Ok? && g.result.value.CellItem? && g.result.value.c.value.Str?
    ensures var g := GetText(s, eval, Pos(c));
      r.result.Ok? && !LooksLikeFormula(g.result.value.c.value.s) ==> r.result.value.v == g.result.value.c.value
  {
    var g := GetText(s, eval, Pos(c));
    match g.result
    case Err(e) => Out(Err(e), g.session)
    case Ok(item) =>
      if !item.CellItem? then Out(Err(AttributeError), g.session)
      else if !item.c.value.Str? then Out(Err(TypeError), g.session)
      else if LooksLikeFormula(item.c.value.s) then
        var ev := EvaluateAt(g.session, eval, ValueText(c.value));
        ReadStepChains(s, g.session, ev.session);
        (match ev.result
         case Err(e) => Out(Err(e), ev.session)
         case Ok(v) => Out(Ok(ValueItem(v)), ev.session))
      else Out(Ok(ValueItem(item.c.value)), g.session)
  }

  /** `doc[index]`. */
  function GetItem(s: Session, eval: Evaluator, index: Index): (r: Out<Item>)
    ensures s.book.None? ==> r == Out(Err(AttributeError), s)
    ensures s.book.Some? ==> ReadStep(s, r.session)
    ensures index.IntIndex? ==> r.result == Err(if s.book.None? then AttributeError else TypeError)
  {
    if s.book.None? then Out(Err(AttributeError), s)
    else
      match index
      case Text(t) => GetText(s, eval, t)
      case CellIndex(c) => if s.mode == ReadMode then CellValueRead(s, eval, c) else CellValueModify(s, eval, c)
      case IntIndex(_) => Out(Err(TypeError), s)
  }

  // ---------------------------------------------------------------- membership, names, size

  /** What `x in doc` is given. */
  datatype Probe = TextProbe(t: string) | CellProbe(c: Cell) | OtherProbe

  /** `x in doc`: a string is looked up among the sheet titles; for a cell,
      the sheet its `sheet` field names is fetched through `doc[...]` and the
      value stored at the cell's position is compared with the cell's own
      value; anything else is not contained. */
  function Contains(s: Session, eval: Evaluator, p: Probe): (r: Out<bool>)
    ensures p.OtherProbe? ==> r == Out(Ok(false), s)
    ensures p.TextProbe? ==> r == if s.book.None? then Out(Err(AttributeError), s) else Out(Ok(p.t in Titles(s.book.value)), s)
    ensures p.CellProbe? && s.book.Some? ==> ReadStep(s, r.session)
    ensures p.CellProbe? && r.result.Ok? ==>
      && s.book.Some? && p.c.sheet in Titles(s.book.value) && CellCoordinate(Pos(p.c)).Ok?
      && r.result.value == (Get(s.book.value.sheets[Find(s.book.value, p.c.sheet).value], CellCoordinate(Pos(p.c)).value) == p.c.value)
  {
    match p
    case OtherProbe => Out(Ok(false), s)
    case TextProbe(t) => if s.book.None? then Out(Err(AttributeError), s) else Out(Ok(t in Titles(s.book.value)), s)
    case CellProbe(c) =>
      if s.book.None? then Out(Err(AttributeError), s)
      else
        var g := GetText(s, eval, c.sheet);
        match g.result
        case Err(e) => Out(Err(e), g.session)
        case Ok(SheetItem(i)) =>
          var wb := g.session.book.value;
          assert c.sheet in Titles(s.book.value) && g.session == s;
          (match Locate(wb, i, Pos(c), Touching(s))
           case Err(e) => Out(Err(e), g.session)
           case Ok(found) =>
             Out(Ok(Get(found.1.sheets[i], found.0) == c.value), g.session.(book := Some(found.1))))
        case Ok(_) => Out(Err(TypeError), g.session)
  }

  /** The cells `doc[pos]` returns in a modify or write session carry the
      label `str(ws)` of the active sheet as their sheet, not its title; so, on a sheet whose title has no
      digit, asking whether such a cell is `in doc` reads the label as a
      position and fails with `ValueError` instead of answering. */
  lemma ReadCellIsNeverContained(s: Session, eval: Evaluator, c: Cell)
    requires s.book.Some? && Active(s.book.value).Some?
    requires var title := s.book.value.sheets[s.book.value.active].title;
      NoDigits(title) && SheetLabel(title) !in Titles(s.book.value) && SheetLabel(title) !in s.book.value.names
    requires c.sheet == SheetLabel(s.book.value.sheets[s.book.value.active].title)
    ensures Contains(s, eval, CellProbe(c)).result == Err(ValueError(InvalidLiteral))
  {
    var title := s.book.value.sheets[s.book.value.active].title;
    var shown := SheetLabel(title);
    assert NoDigits(shown) by {
      assert shown == "<Worksheet \"" + title + "\">";
      forall i | 0 <= i < |shown| ensures !IsDigit(shown[i]) {
        if 12 <= i < 12 + |title| {
          assert shown[i] == title[i - 12];
        }
      }
    }
  }

  /** The sheet a new name refers to: the given one, else the active one,
      else none (an empty title). */
  function NameSheet(wb: Workbook, sheet: string): (t: string)
    ensures sheet != "" ==> t == sheet
    ensures sheet == "" && Active(wb).Some? ==> t == wb.sheets[wb.active].title
    ensures sheet == "" && Active(wb).None? ==> t == ""
  {
    if sheet != "" then sheet
    else match Active(wb)
      case Some(i) => wb.sheets[i].title
      case None => ""
  }

  /** `name(range_, name, sheet)`: the name refers to `range_` on the given
      sheet, or on the active sheet when none is given.  Without an active
      sheet the library stores a reference without a sheet, which it cannot
      resolve later; the destination then has an empty sheet. */
  function Name(s: Session, range_: string, name: string, sheet: string): (r: Out<()>)
    ensures r.session.mode == s.mode && r.session.path == s.path && r.session.disk == s.disk
    ensures r.result.Ok? <==> s.book.Some? && (sheet == "" || sheet in Titles(s.book.value))
    ensures r.result.Ok? ==>
      && r.session.book.Some?
      && r.session.book.value == s.book.value.(names := s.book.value.names[name := [Dest(NameSheet(s.book.value, sheet), range_)]])
    ensures r.result.Err? ==> r.result.error == if s.book.None? then AttributeError else KeyError(sheet)
    ensures r.result.Err? ==> r.session == s
    ensures ValidSession(s) ==> ValidSession(r.session)
  {
    if s.book.None? then Out(Err(AttributeError), s)
    else
      var wb := s.book.value;
      if sheet != "" && sheet !in Titles(wb) then Out(Err(KeyError(sheet)), s)
      else Out(Ok(()), s.(book := Some(wb.(names := wb.names[name := [Dest(NameSheet(wb, sheet), range_)]]))))
  }

  /** `len(doc)`: the number of sheets. */
  function Length(s: Session): (r: Result<nat>)
    ensures r.Ok? <==> s.book.Some?
    ensures r.Ok? ==> r.value == |Titles(s.book.value)|
  {
    if s.book.None? then Err(AttributeError) else Ok(|s.book.value.sheets|)
  }

  /** `copy()`: a modify session on the same path, entered. */
  function Copy(s: Session): (r: Result<Session>)
    ensures r.Ok? ==> r.value.mode == ModifyMode && r.value.path == s.path && r.value.disk == s.disk
    ensures r.Err? <==> s.path.Some? && s.path.value !in s.disk
    ensures r.Ok? ==> r.value.book == Some(if s.path.None? then NewWorkbook() else s.disk[s.path.value])
    ensures ValidDisk(s.disk) && r.Ok? ==> ValidSession(r.value)
  {
    var twin := Session(ModifyMode, s.path, None, s.disk);
    var entered := Enter(twin, false);
    match entered.result
    case Err(e) => Err(e)
    case Ok(_) => Ok(entered.session)
  }
}

=== FILE: sheet_edits.dfy ===
/** The sheet-level edits of a modify or write session: creating, renaming
    and removing sheets, writing through a sheet, clearing a sheet or the
    whole workbook, and merging another workbook in with `+`, `+=` and
    `_merge_workbooks`.  Read sessions have none of these methods. */
module SheetEdits {
  import opened Outcomes
  import opened Text
  import opened Columns
  import opened Addresses
  import opened Cells
  import opened Store
  import opened Sessions
  import opened Edits

  /** A session whose workbook the sheet edits can change: it is not
      read-only and it has been entered. */
  predicate Holding(s: Session)
  {
    s.mode != ReadMode && s.book.Some?
  }

  /** What every sheet edit keeps: the kind of session, its path, the
      files on disk, the active index, the defined names and validity. */
  ghost predicate Kept(s: Session, s2: Session)
  {
    && s2.mode == s.mode && s2.path == s.path && s2.disk == s.disk
    && (s.book.Some? <==> s2.book.Some?)
    && (s.book.Some? ==> s2.book.value.active == s.book.value.active && s2.book.value.names == s.book.value.names)
    && (ValidSession(s) ==> ValidSession(s2))
  }

  // ---------------------------------------------------------------- sheet lifecycle

  /** `new_sheet(name)`: a new empty sheet after the others. */
  function NewSheet(s: Session, name: string): (r: Out<()>)
    ensures Kept(s, r.session)
    ensures r.result.Ok? <==> Holding(s) && PlainTitle(s.book.value, name)
    ensures r.result.Ok? ==>
      && Titles(r.session.book.value) == Titles(s.book.value) + [name]
      && (forall k :: Get(r.session.book.value.sheets[|s.book.value.sheets|], k) == Empty)
      && (forall j :: 0 <= j < |s.book.value.sheets| ==> r.session.book.value.sheets[j] == s.book.value.sheets[j])
    ensures r.result.Err? ==> r.session == s
    ensures !Holding(s) ==> r.result == Err(AttributeError)
  {
    if !Holding(s) then Out(Err(AttributeError), s)
    else
      match CreateSheet(s.book.value, name)
      case Err(e) => Out(Err(e), s)
      case Ok(wb) => Out(Ok(()), s.(book := Some(wb)))
  }

  /** `rename_sheet(current, title)`: the sheet titled `current` takes the
      new title and keeps its cells; a missing sheet is a `KeyError`. */
  function RenameSheet(s: Session, current: string, title: string): (r: Out<()>)
    ensures Kept(s, r.session)
    ensures r.result.Ok? <==>
      Holding(s) && current in Titles(s.book.value) && (title == current || PlainTitle(s.book.value, title))
    ensures r.result.Ok? ==>
      var i := Find(s.book.value, current).value;
      && Titles(r.session.book.value) == Titles(s.book.value)[i := title]
      && (forall k :: Get(r.session.book.value.sheets[i], k) == Get(s.book.value.sheets[i], k))
      && (forall j :: 0 <= j < |s.book.value.sheets| && j != i ==> r.session.book.value.sheets[j] == s.book.value.sheets[j])
    ensures r.result.Err? ==> r.session == s
    ensures Holding(s) && current !in Titles(s.book.value) ==> r.result == Err(KeyError(current))
    ensures !Holding(s) ==> r.result == Err(AttributeError)
  {
    if !Holding(s) then Out(Err(AttributeError), s)
    else
      match Find(s.book.value, current)
      case Err(e) => Out(Err(e), s)
      case Ok(i) =>
        match RenameAt(s.book.value, i, title)
        case Err(e) => Out(Err(e), s)
        case Ok(wb) => Out(Ok(()), s.(book := Some(wb)))
  }

  /** `remove_sheet(title)`: the sheet titled `title` leaves the workbook,
      the others keep their order; a missing sheet is a `KeyError`. */
  function RemoveSheet(s: Session, title: string): (r: Out<()>)
    ensures Kept(s, r.session)
    ensures r.result.Ok? <==> Holding(s) && title in Titles(s.book.value)
    ensures r.result.Ok? ==>
      var i := Find(s.book.value, title).value;
      r.session.book.value.sheets == s.book.value.sheets[..i] + s.book.value.sheets[i + 1..]
    ensures r.result.Err? ==> r.session == s
    ensures Holding(s) && title !in Titles(s.book.value) ==> r.result == Err(KeyError(title))
    ensures !Holding(s) ==> r.result == Err(AttributeError)
  {
    if !Holding(s) then Out(Err(AttributeError), s)
    else
      match Find(s.book.value, title)
      case Err(e) => Out(Err(e), s)
      case Ok(i) => Out(Ok(()), s.(book := Some(RemoveAt(s.book.value, i))))
  }

  /** With distinct titles, a removed title is gone. */
  lemma RemovedTitleGone(s: Session, title: string)
    requires ValidSession(s) && RemoveSheet(s, title).result.Ok?
    ensures title !in Titles(RemoveSheet(s, title).session.book.value)
    ensures |Titles(RemoveSheet(s, title).session.book.value)| + 1 == |Titles(s.book.value)|
  {
    var wb := s.book.value;
    var i := Find(wb, title).value;
    var rest := RemoveSheet(s, title).session.book.value.sheets;
    forall j | 0 <= j < |rest| ensures rest[j].title != title {
      if j < i {
        assert rest[j] == wb.sheets[j];
      } else {
        assert rest[j] == wb.sheets[j + 1];
      }
    }
  }

  /** `len(doc)` follows the sheet edits: one more after `new_sheet`, one
      fewer after `remove_sheet`, and unchanged by a failed edit. */
  lemma LengthFollowsSheetEdits(s: Session, name: string, title: string)
    ensures var a := NewSheet(s, name);
      a.result.Ok? ==> Length(s).Ok? && Length(a.session) == Ok(Length(s).value + 1)
    ensures var d := RemoveSheet(s, title);
      d.result.Ok? ==> Length(s).Ok? && Length(d.session).Ok? && Length(d.session).value + 1 == Length(s).value
    ensures NewSheet(s, name).result.Err? ==> Length(NewSheet(s, name).session) == Length(s)
    ensures RemoveSheet(s, title).result.Err? ==> Length(RemoveSheet(s, title).session) == Length(s)
  {
  }

  /** `doc[sheet][pos] = v`: through a sheet title, the write of `v` into
      that cell of that sheet.  A read-only worksheet has no item
      assignment, and neither do the cells and values `doc[sheet]` gives
      for anything but a title (`TypeError`). */
  function SetOnSheet(s: Session, eval: Evaluator, sheet: string, pos: string, v: Value): (r: Out<()>)
    ensures s.book.None? ==> r == Out(Err(AttributeError), s)
    ensures r.session.mode == s.mode && r.session.path == s.path
    ensures s.book.Some? ==> r.session.book.Some?
    ensures ValidSession(s) ==> ValidSession(r.session)
    ensures s.book.Some? && sheet !in Titles(s.book.value) ==> ReadStep(s, r.session)
    ensures s.book.Some? && sheet in Titles(s.book.value) ==> r.session.disk == s.disk
    ensures r.result.Ok? <==> Holding(s) && sheet in Titles(s.book.value) && CellCoordinate(pos).Ok?
    ensures r.result.Ok? ==>
      Wrote(s.book.value, r.session.book.value, Find(s.book.value, sheet).value, CellCoordinate(pos).value, v)
  {
    if s.book.None? then Out(Err(AttributeError), s)
    else if sheet in Titles(s.book.value) then
      if s.mode == ReadMode then Out(Err(TypeError), s)
      else
        match WriteAt(s.book.value, Find(s.book.value, sheet).value, pos, v)
        case Err(e) => Out(Err(e), s)
        case Ok(wb) => Out(Ok(()), s.(book := Some(wb)))
    else
      var got := GetText(s, eval, sheet);
      Out(Err(if got.result.Err? then got.result.error else TypeError), got.session)
  }

  /** The sheet operations of the source's tests: a sheet created, written
      through at a position (the tests use "A2"), renamed and removed.  Each
      step succeeds, the write lands in the new sheet, the rename replaces
      the title, and after the removal the workbook has its first titles
      again. */
  lemma SheetLifecycle(s: Session, eval: Evaluator, first: string, second: string, col: string, row: int, v: Value)
    requires Holding(s) && ValidSession(s)
    requires PlainTitle(s.book.value, first) && PlainTitle(s.book.value, second)
    requires AsciiUpper(first) != AsciiUpper(second)
    requires GoodPosition(col, row)
    ensures var a := NewSheet(s, first);
      var b := SetOnSheet(a.session, eval, first, Position(col, row), v);
      var c := RenameSheet(b.session, first, second);
      var d := RemoveSheet(c.session, second);
      && a.result.Ok? && b.result.Ok? && c.result.Ok? && d.result.Ok?
      && first in Titles(a.session.book.value)
      && Get(b.session.book.value.sheets[|s.book.value.sheets|], Coord(row, ColToNum(col))) == v
      && second in Titles(c.session.book.value) && first !in Titles(c.session.book.value)
      && Titles(d.session.book.value) == Titles(s.book.value)
  {
    var a := NewSheet(s, first);
    var b := SetOnSheet(a.session, eval, first, Position(col, row), v);
    CreateAndWrite(s, eval, first, second, col, row, v);
    RenameAndRemove(b.session, s.book.value, first, second);
  }

  /** The first half of the lifecycle: the new sheet is created last and
      the position of it is written. */
  lemma CreateAndWrite(s: Session, eval: Evaluator, first: string, second: string, col: string, row: int, v: Value)
    requires Holding(s) && ValidSession(s)
    requires PlainTitle(s.book.value, first) && PlainTitle(s.book.value, second)
    requires AsciiUpper(first) != AsciiUpper(second)
    requires GoodPosition(col, row)
    ensures var a := NewSheet(s, first);
      var b := SetOnSheet(a.session, eval, first, Position(col, row), v);
      && a.result.Ok? && b.result.Ok?
      && first in Titles(a.session.book.value)
      && Holding(b.session) && ValidSession(b.session)
      && Titles(b.session.book.value) == Titles(s.book.value) + [first]
      && Get(b.session.book.value.sheets[|s.book.value.sheets|], Coord(row, ColToNum(col))) == v
      && PlainTitle(b.session.book.value, second)
  {
    var wb := s.book.value;
    var n := |wb.sheets|;
    var a := NewSheet(s, first);
    var aw := a.session.book.value;
    assert Titles(aw)[n] == first;
    FindOwnTitle(aw, n);
    PositionsAgree(col, row);
    WriteThroughTitle(a.session, eval, first, Position(col, row), v);
    var bw := WriteAt(aw, n, Position(col, row), v).value;
    StillPlain(wb, bw, first, second);
  }

  /** `doc[title][pos] = v` in a modify or write session is the write at
      that position of the titled sheet. */
  lemma WriteThroughTitle(s: Session, eval: Evaluator, sheet: string, pos: string, v: Value)
    requires Holding(s) && sheet in Titles(s.book.value) && CellCoordinate(pos).Ok?
    ensures var wb := s.book.value;
      SetOnSheet(s, eval, sheet, pos, v) == Out(Ok(()), s.(book := Some(WriteAt(wb, Find(wb, sheet).value, pos, v).value)))
  {
  }

  /** The second half of the lifecycle: the last sheet, titled `first`, is
      renamed `second` and then removed. */
  lemma RenameAndRemove(b: Session, wb: Workbook, first: string, second: string)
    requires Holding(b) && ValidSession(b)
    requires PlainTitle(wb, first) && PlainTitle(b.book.value, second) && first != second
    requires Titles(b.book.value) == Titles(wb) + [first]
    ensures var c := RenameSheet(b, first, second);
      var d := RemoveSheet(c.session, second);
      && c.result.Ok? && d.result.Ok?
      && second in Titles(c.session.book.value) && first !in Titles(c.session.book.value)
      && Titles(d.session.book.value) == Titles(wb)
  {
    var n := |wb.sheets|;
    assert Titles(b.book.value)[n] == first;
    FindOwnTitle(b.book.value, n);
    var c := RenameSheet(b, first, second);
    var cw := c.session.book.value;
    RenamedLast(wb, cw, first, second);
    FindOwnTitle(cw, n);
    var d := RemoveSheet(c.session, second);
    assert cw.sheets[..n] + cw.sheets[n + 1..] == cw.sheets[..n];
    assert Titles(d.session.book.value) == Titles(cw)[..n];
  }

  /** A title that clashes with no sheet of `wb` and not with `first` clashes
      with no sheet of `wb` extended by a sheet titled `first`, itself a
      title `wb` takes as given. */
  lemma StillPlain(wb: Workbook, bw: Workbook, first: string, second: string)
    requires PlainTitle(wb, second) && PlainTitle(wb, first) && AsciiUpper(first) != AsciiUpper(second)
    requires Titles(bw) == Titles(wb) + [first]
    ensures PlainTitle(bw, second)
  {
    forall i | 0 <= i < |bw.sheets| ensures AsciiText(bw.sheets[i].title) && AsciiUpper(bw.sheets[i].title) != AsciiUpper(second) {
      assert bw.sheets[i].title == Titles(bw)[i];
      if i < |wb.sheets| {
        assert Titles(bw)[i] == wb.sheets[i].title;
      }
    }
  }

  /** Once the last sheet `first` is renamed `second`, `first` is no title
      any more when it clashed with no earlier sheet. */
  lemma RenamedLast(wb: Workbook, cw: Workbook, first: string, second: string)
    requires PlainTitle(wb, first) && first != second
    requires Titles(cw) == (Titles(wb) + [first])[|wb.sheets| := second]
    ensures Titles(cw) == Titles(wb) + [second]
    ensures first !in Titles(cw)
  {
    var n := |wb.sheets|;
    assert Titles(cw) == Titles(wb) + [second];
    forall j | 0 <= j < |Titles(cw)| ensures Titles(cw)[j] != first {
      if j < n {
        assert Titles(cw)[j] == wb.sheets[j].title;
        assert AsciiUpper(wb.sheets[j].title) != AsciiUpper(first);
      }
    }
  }

  // ---------------------------------------------------------------- clearing

  /** The positions `range(range_, sheet)` walks: the sheet it works on,
      the bounds and the columns between the bounds' letters. */
  function RangeGrid(wb: Workbook, sheet: string, spec: string): (r: Result<seq<(char, int)>>)
    ensures sheet != "" && sheet !in Titles(wb) ==> r == Err(KeyError(sheet))
  {
    var chosen :- RangeSheet(wb, sheet);
    var b :- RangeBounds(wb, chosen, spec);
    var cols :- CharRange(b.0, b.2);
    Ok(Grid(cols, b.1, b.3))
  }

  /** `range` with its default switches lists exactly the positions of
      `RangeGrid`, and fails exactly as it does. */
  lemma RangeListsGrid(wb: Workbook, sheet: string, spec: string, touch: bool)
    ensures Range(wb, sheet, spec, Flags(false, false, true, false), touch) ==
      match RangeGrid(wb, sheet, spec)
      case Ok(grid) => Step(Ok(PositionTexts(grid)), wb)
      case Err(e) => Step(Err(e), wb)
  {
    match RangeGrid(wb, sheet, spec)
    case Err(e) =>
    case Ok(grid) =>
      var chosen := RangeSheet(wb, sheet).value;
      ProducePositions(wb, chosen, grid, Flags(false, false, true, false), touch);
  }

  /** `clear_sheet(sheet, range_)`: `doc[sheet][pos] = None` for every
      position of `range(range_, sheet)`, by default the whole used area.
      For a sheet title this is the write of `Empty` into each cell of the
      range on that sheet; for any other sheet the first write already
      fails. */
  function ClearSheet(s: Session, eval: Evaluator, sheet: string, range_: string): (r: Out<()>)
    ensures s.mode == ReadMode || s.book.None? ==> r == Out(Err(AttributeError), s)
    ensures r.session.mode == s.mode && r.session.path == s.path
    ensures Holding(s) ==> r.session.book.Some?
    ensures ValidSession(s) ==> ValidSession(r.session)
    ensures r.result.Ok? ==> r.session.disk == s.disk
    ensures Holding(s) && RangeGrid(s.book.value, sheet, range_).Err? ==>
      r == Out(Err(RangeGrid(s.book.value, sheet, range_).error), s)
    ensures Holding(s) && RangeGrid(s.book.value, sheet, range_).Ok? && |RangeGrid(s.book.value, sheet, range_).value| > 0 ==>
      (r.result.Ok? ==> sheet in Titles(s.book.value))
  {
    if !Holding(s) then Out(Err(AttributeError), s)
    else
      var wb := s.book.value;
      match RangeGrid(wb, sheet, range_)
      case Err(e) => Out(Err(e), s)
      case Ok(grid) =>
        if |grid| == 0 then Out(Ok(()), s)
        else if sheet in Titles(wb) then
          Commit(s, WriteGrid(wb, grid, Empty, BySheet(Find(wb, sheet).value)))
        else SetOnSheet(s, eval, sheet, EntryPos(grid[0]), Empty)
  }

  /** By default `range` ends at a single capital letter. */
  lemma DefaultBoundsLetter(wb: Workbook, i: nat)
    requires i < |wb.sheets| && MaxColOf(wb.sheets[i]) <= 26
    ensures RangeBounds(wb, Some(i), "").Ok?
    ensures var b := RangeBounds(wb, Some(i), "").value;
      |b.2| == 1 && IsUpper(b.2[0])
  {
  }

  /** Clearing a whole sheet whose used area fits the letters A to Z
      empties every cell of it and leaves the other sheets alone. */
  lemma ClearWholeSheet(s: Session, eval: Evaluator, title: string)
    requires Holding(s) && ValidSession(s) && title != "" && title in Titles(s.book.value)
    requires var sh := s.book.value.sheets[Find(s.book.value, title).value];
      MaxColOf(sh) <= 26 && MaxRowOf(sh) <= MaxRow
    ensures var r := ClearSheet(s, eval, title, "");
      var i := Find(s.book.value, title).value;
      && r.result.Ok?
      && Titles(r.session.book.value) == Titles(s.book.value)
      && (forall k :: Get(r.session.book.value.sheets[i], k) == Empty)
      && (forall j :: 0 <= j < |s.book.value.sheets| && j != i ==> r.session.book.value.sheets[j] == s.book.value.sheets[j])
  {
    var wb := s.book.value;
    var i := Find(wb, title).value;
    WholeSheetRectangle(wb, title, i);
    var b := RangeBounds(wb, Some(i), "").value;
    var grid := RangeGrid(wb, title, "").value;
    ClearByTitle(s, eval, title, "");
    RectangleWrite(wb, grid, 'A', 1, b.2[0], b.3, Empty, BySheet(i));
  }

  /** Clearing a range "C0R0:C1R1" of one-letter columns on a sheet
      empties exactly its rectangle on that sheet and leaves every other
      cell and every other sheet alone; a range whose corners are the
      wrong way round holds no position and clears nothing. */
  lemma ClearRangeEmptiesRectangle(s: Session, eval: Evaluator, title: string, c0: char, r0: int, c1: char, r1: int)
    requires Holding(s) && ValidSession(s) && title != "" && title in Titles(s.book.value)
    requires Corners(c0, r0, c1, r1)
    ensures var r := ClearSheet(s, eval, title, RangeText(c0, r0, c1, r1));
      var i := Find(s.book.value, title).value;
      && r.result.Ok?
      && Titles(r.session.book.value) == Titles(s.book.value)
      && (forall k :: Get(r.session.book.value.sheets[i], k) ==
            if InRectangle(k, c0, r0, c1, r1) then Empty else Get(s.book.value.sheets[i], k))
      && (forall j :: 0 <= j < |s.book.value.sheets| && j != i ==> r.session.book.value.sheets[j] == s.book.value.sheets[j])
  {
    var wb := s.book.value;
    var i := Find(wb, title).value;
    var spec := RangeText(c0, r0, c1, r1);
    RangeTextParts(c0, r0, c1, r1);
    GridIsRectangle(c0, r0, c1, r1);
    var grid := Grid(CharRange([c0], [c1]).value, r0, r1);
    assert RangeGrid(wb, title, spec) == Ok(grid);
    if |grid| == 0 {
      forall k ensures !InRectangle(k, c0, r0, c1, r1) {
        RectangleHits(grid, c0, r0, c1, r1, k);
      }
    } else {
      ClearByTitle(s, eval, title, spec);
      RectangleWrite(wb, grid, c0, r0, c1, r1, Empty, BySheet(i));
    }
  }

  /** On a sheet title, a non-empty clear is the range write into that
      sheet, committed. */
  lemma ClearByTitle(s: Session, eval: Evaluator, title: string, range_: string)
    requires Holding(s) && title in Titles(s.book.value)
    requires RangeGrid(s.book.value, title, range_).Ok? && |RangeGrid(s.book.value, title, range_).value| > 0
    ensures ClearSheet(s, eval, title, range_) ==
      Commit(s, WriteGrid(s.book.value, RangeGrid(s.book.value, title, range_).value, Empty, BySheet(Find(s.book.value, title).value)))
  {
  }

  /** The default range of a sheet whose used area fits the letters A to Z
      is the rectangle from A1 to its last column and row, and no cell of
      the sheet lies outside it. */
  lemma WholeSheetRectangle(wb: Workbook, title: string, i: nat)
    requires ValidBook(wb) && title != "" && title in Titles(wb) && i == Find(wb, title).value
    requires MaxColOf(wb.sheets[i]) <= 26 && MaxRowOf(wb.sheets[i]) <= MaxRow
    ensures RangeBounds(wb, Some(i), "").Ok? && RangeGrid(wb, title, "").Ok?
    ensures var b := RangeBounds(wb, Some(i), "").value;
      var grid := RangeGrid(wb, title, "").value;
      && |b.2| == 1 && IsUpper(b.2[0]) && |grid| > 0
      && RectangleGrid(grid, 'A', 1, b.2[0], b.3)
      && forall k :: !InRectangle(k, 'A', 1, b.2[0], b.3) ==> k !in wb.sheets[i].cells
  {
    var sh := wb.sheets[i];
    assert RangeSheet(wb, title) == Ok(Some(i));
    DefaultBoundsLetter(wb, i);
    var b := RangeBounds(wb, Some(i), "").value;
    var c1 := b.2[0];
    assert b.2 == [c1];
    assert ColToNum(['A']) == 1 by {
      SingleLetter('A');
    }
    SingleLetter(c1);
    assert Corners('A', 1, c1, b.3);
    GridIsRectangle('A', 1, c1, b.3);
    var grid := RangeGrid(wb, title, "").value;
    assert grid == Grid(CharRange(['A'], [c1]).value, 1, b.3);
    assert |grid| > 0 by {
      assert 'A' <= c1;
      RectangleHits(grid, 'A', 1, c1, b.3, Coord(1, 1));
    }
    forall k | !InRectangle(k, 'A', 1, c1, b.3) ensures k !in sh.cells {
      assert ValidSheet(sh);
    }
  }

  /** `clear_workbook(sheets)`, and in a write session
      `clear_workbook(sheets, save)`: every sheet goes and one empty
      "Sheet1" takes their place; a write session then saves when asked.
      A modify session's method takes no `save` (`TypeError`).  A list of
      titles removes those sheets and then fails, the flag that would add
      "Sheet1" never having been set.  Without a workbook (before the
      session is entered, after it is left, or when creating the file was
      declined) the first use of it raises `AttributeError`. */
  function ClearBook(s: Session, sheets: Option<seq<string>>, save: bool): (r: Out<()>)
    ensures s.mode == ReadMode ==> r == Out(Err(AttributeError), s)
    ensures s.mode == ModifyMode && save ==> r == Out(Err(TypeError), s)
    ensures s.book.None? && !(s.mode == ModifyMode && save) ==> r == Out(Err(AttributeError), s)
    ensures r.session.mode == s.mode && r.session.path == s.path
    ensures ValidSession(s) ==> ValidSession(r.session)
    ensures r.result.Ok? <==>
      && Holding(s) && (sheets.None? || sheets.value == [])
      && (save ==> s.mode == WriteMode && s.path.Some?)
    ensures r.result.Ok? ==>
      && r.session.book.Some?
      && Titles(r.session.book.value) == ["Sheet1"]
      && (forall k :: Get(r.session.book.value.sheets[0], k) == Empty)
      && r.session.book.value.names == s.book.value.names
    ensures r.result.Ok? && r.session.book.Some? ==>
      r.session.disk == if save then s.disk[s.path.value := r.session.book.value] else s.disk
    ensures Holding(s) && sheets.Some? && sheets.value != [] && !(s.mode == ModifyMode && save) ==>
      r.result.Err? && (r.result.error == UnboundLocalError || (r.result.error.KeyError? && r.result.error.key in sheets.value))
  {
    if s.mode == ReadMode then Out(Err(AttributeError), s)
    else if s.mode == ModifyMode && save then Out(Err(TypeError), s)
    else if s.book.None? then Out(Err(AttributeError), s)
    else
      var st := ClearWorkbook(s.book.value, sheets);
      var cleared := s.(book := Some(st.book));
      if st.result.Err? || !save then Out(st.result, cleared)
      else Save(cleared, "")
  }

  // ---------------------------------------------------------------- merging

  /** What `+` and `+=` are given: another session, a path, or anything
      else. */
  datatype Other = OtherSession(o: Session) | OtherPath(p: string) | OtherThing

  /** `doc += other`.  Another session hands its openpyxl workbook to
      `_merge_workbooks`, which asks that workbook for a `.workbook` it does
      not have (`AttributeError`); a path is loaded first (`FileNotFound`
      when absent) and then fails the same way; anything else is a
      `TypeError`, as is `+=` on a read session. */
  function IAdd(s: Session, other: Other): (r: Out<()>)
    ensures r.session == s && r.result.Err?
    ensures r.result.error ==
      if s.mode == ReadMode || other.OtherThing? then TypeError
      else if other.OtherPath? && other.p !in s.disk then FileNotFound(other.p)
      else AttributeError
  {
    if s.mode == ReadMode then Out(Err(TypeError), s)
    else
      match other
      case OtherSession(_) => Out(Err(AttributeError), s)
      case OtherPath(p) => Out(Err(if p in s.disk then AttributeError else FileNotFound(p)), s)
      case OtherThing => Out(Err(TypeError), s)
  }

  /** `doc + other`: `+=` on a copy, so it fails as `+=` does (or as the
      copy does) and leaves `doc` as it was. */
  function Add(s: Session, other: Other): (r: Out<()>)
    ensures r.session == s && r.result.Err?
    ensures s.mode != ReadMode && Copy(s).Ok? ==> r.result == IAdd(Copy(s).value, other).result
  {
    if s.mode == ReadMode then Out(Err(TypeError), s)
    else
      match Copy(s)
      case Err(e) => Out(Err(e), s)
      case Ok(twin) => Out(IAdd(twin, other).result, s)
  }

  /** `_merge_workbooks(path=path)`: a write session opened on `path` (which
      saves an empty workbook there when the file is missing and the user
      confirms), then every one of its sheets merged into this workbook. */
  function MergeFromPath(s: Session, path: string, confirm: bool): (r: Out<()>)
    requires ValidSession(s)
    ensures ValidSession(r.session)
    ensures r.session.mode == s.mode && r.session.path == s.path
    ensures s.mode == ReadMode ==> r == Out(Err(AttributeError), s)
    ensures s.mode != ReadMode && path == "" ==> r == Out(Err(AssertionError), s)
    ensures r.result.Ok? ==> s.mode != ReadMode && path != "" && path in r.session.disk
    ensures r.result.Ok? ==> r.session.disk == if path in s.disk then s.disk else s.disk[path := NewWorkbook()]
    ensures r.result.Ok? && |r.session.disk[path].sheets| > 0 ==> s.book.Some? && r.session.book.Some?
    ensures s.mode != ReadMode && path != "" && path !in s.disk && !confirm ==> r.result == Err(AttributeError)
  {
    if s.mode == ReadMode then Out(Err(AttributeError), s)
    else if path == "" then Out(Err(AssertionError), s)
    else
      var other := Enter(Session(WriteMode, Some(path), None, s.disk), confirm).session;
      var s1 := s.(disk := other.disk);
      if other.book.None? then Out(Err(AttributeError), s1)
      else
        var theirs := other.book.value.sheets;
        if |theirs| == 0 then Out(Ok(()), s1)
        else if s.book.None? then Out(Err(AttributeError), s1)
        else
          match MergeInto(s.book.value, theirs)
          case Err(e) => Out(Err(e), s1)
          case Ok(wb) => Out(Ok(()), s1.(book := Some(wb)))
  }

  /** A completed merge from a path leaves the workbook `MergedAs` says:
      the own sheets merged with the namesakes from the file, the file's
      new sheets copied after them. */
  lemma MergeFromPathSpec(s: Session, path: string, confirm: bool)
    requires ValidSession(s) && s.book.Some?
    requires MergeFromPath(s, path, confirm).result.Ok?
    ensures var r := MergeFromPath(s, path, confirm);
      var theirs := r.session.disk[path].sheets;
      && AllValid(theirs)
      && r.session.book.Some?
      && MergedAs(s.book.value, theirs, r.session.book.value)
  {
    var r := MergeFromPath(s, path, confirm);
    var theirs := r.session.disk[path].sheets;
    assert ValidBook(r.session.disk[path]);
    MergeIntoSpec(s.book.value, theirs);
  }
}

=== FILE: store.dfy ===
/** The spreadsheet library's workbook, as far as the spreadsheet layer uses
    it: sheets in order with their cell values, the active sheet index and
    the defined names.

    The library creates a cell whenever one is read or written by position
    (except in a read-only workbook), and `max_row` / `max_column` report how
    far the created cells reach.  A sheet therefore records, besides its
    values, the extent of its created cells.
 */
module Store {
  import opened Outcomes
  import opened Text
  import opened Columns
  import opened Addresses
  import opened Cells

  // ---------------------------------------------------------------- sheets

  datatype Sheet = Sheet(title: string, cells: map<Coord, Value>, lastRow: nat, lastCol: nat)

  /** Every stored value lies inside the extent, and a sheet has either no
      extent at all or both a row and a column extent. */
  predicate ValidSheet(s: Sheet)
  {
    && (s.lastRow == 0 <==> s.lastCol == 0)
    && forall k :: k in s.cells ==> 1 <= k.row <= s.lastRow && 1 <= k.col <= s.lastCol
  }

  function EmptySheet(title: string): (s: Sheet)
    ensures ValidSheet(s) && s.title == title
  {
    Sheet(title, map[], 0, 0)
  }

  /** The value of a cell; one never written holds `None`. */
  function Get(s: Sheet, k: Coord): Value
  {
    if k in s.cells then s.cells[k] else Empty
  }

  /** `ws.max_row`: 1 for a sheet without cells. */
  function MaxRowOf(s: Sheet): int
  {
    if s.lastRow == 0 then 1 else s.lastRow
  }

  /** `ws.max_column`: 1 for a sheet without cells. */
  function MaxColOf(s: Sheet): int
  {
    if s.lastCol == 0 then 1 else s.lastCol
  }

  function Max(a: int, b: int): int
  {
    if a >= b then a else b
  }

  /** The library creating the cell at `k` without writing it. */
  function Touch(s: Sheet, k: Coord): (r: Sheet)
    requires k.row >= 1 && k.col >= 1
    ensures r.title == s.title && r.cells == s.cells
  {
    s.(lastRow := Max(s.lastRow, k.row), lastCol := Max(s.lastCol, k.col))
  }

  /** Writing `v` into the cell at `k`. */
  function Put(s: Sheet, k: Coord, v: Value): (r: Sheet)
    requires k.row >= 1 && k.col >= 1
    ensures r.title == s.title
    ensures r.cells == s.cells[k := v]
    ensures r.lastRow == Max(s.lastRow, k.row) && r.lastCol == Max(s.lastCol, k.col)
  {
    var t := Touch(s, k);
    t.(cells := t.cells[k := v])
  }

  /** Creating or writing a cell keeps a sheet valid. */
  lemma TouchPutValid(s: Sheet, k: Coord, v: Value)
    requires k.row >= 1 && k.col >= 1
    ensures ValidSheet(s) ==> ValidSheet(Touch(s, k)) && ValidSheet(Put(s, k, v))
  {
  }

  // ---------------------------------------------------------------- workbooks

  /** A destination of a defined name: a sheet title and a reference on it. */
  datatype Dest = Dest(sheet: string, ref: string)

  datatype Workbook = Workbook(sheets: seq<Sheet>, active: nat, names: map<string, seq<Dest>>)

  /** `wb.sheetnames`. */
  function Titles(wb: Workbook): (t: seq<string>)
    ensures |t| == |wb.sheets|
    ensures forall i :: 0 <= i < |t| ==> t[i] == wb.sheets[i].title
  {
    seq(|wb.sheets|, i requires 0 <= i < |wb.sheets| => wb.sheets[i].title)
  }

  predicate DistinctTitles(sheets: seq<Sheet>)
  {
    forall i, j :: 0 <= i < j < |sheets| ==> sheets[i].title != sheets[j].title
  }

  /** What the library keeps true of a workbook. */
  predicate ValidBook(wb: Workbook)
  {
    DistinctTitles(wb.sheets) && forall i :: 0 <= i < |wb.sheets| ==> ValidSheet(wb.sheets[i])
  }

  /** `Workbook()`: one empty sheet titled "Sheet", which is active. */
  function NewWorkbook(): (wb: Workbook)
    ensures ValidBook(wb) && Titles(wb) == ["Sheet"] && Active(wb) == Some(0)
    ensures wb.names == map[]
  {
    Workbook([EmptySheet("Sheet")], 0, map[])
  }

  /** `wb.active`: the sheet at the active index, or `None` once the index
      lies past the last sheet (removing sheets does not move it). */
  function Active(wb: Workbook): (r: Option<nat>)
    ensures r.Some? <==> wb.active < |wb.sheets|
    ensures r.Some? ==> r.value == wb.active
  {
    if wb.active < |wb.sheets| then Some(wb.active) else None
  }

  /** `str(ws)` for a worksheet. */
  function SheetLabel(title: string): string
  {
    "<Worksheet \"" + title + "\">"
  }

  /** `str(ws)` for a worksheet of a workbook loaded read-only: that class
      keeps Python's default object text, given here up to the object's
      address, which follows it. */
  function ReadOnlyLabel(): string
  {
    "<openpyxl" + ".worksheet._read_only.ReadOnlyWorksheet object"
  }

  /** The read-only text never has the form of a worksheet's label. */
  lemma ReadOnlyLabelIsNotSheetLabel(title: string)
    ensures ReadOnlyLabel() != SheetLabel(title)
  {
    assert SheetLabel(title)[1] == 'W';
    assert ReadOnlyLabel()[1] == "<openpyxl"[1];
  }

  function FindIn(sheets: seq<Sheet>, title: string): (r: Option<nat>)
    ensures r.Some? ==> r.value < |sheets| && sheets[r.value].title == title
    ensures r.Some? ==> forall i :: 0 <= i < r.value ==> sheets[i].title != title
    ensures r.None? ==> forall i :: 0 <= i < |sheets| ==> sheets[i].title != title
  {
    if |sheets| == 0 then None
    else if sheets[0].title == title then Some(0)
    else
      match FindIn(sheets[1..], title)
      case None => None
      case Some(i) => Some(i + 1)
  }

  /** `wb[title]`. */
  function Find(wb: Workbook, title: string): (r: Result<nat>)
    ensures r.Ok? <==> title in Titles(wb)
    ensures r.Ok? ==> r.value < |wb.sheets| && wb.sheets[r.value].title == title
    ensures r.Err? ==> r.error == KeyError(title)
  {
    match FindIn(wb.sheets, title)
    case Some(i) => Ok(i)
    case None => Err(KeyError(title))
  }

  /** With distinct titles, a sheet's own title finds that sheet. */
  lemma FindOwnTitle(wb: Workbook, i: nat)
    requires DistinctTitles(wb.sheets) && i < |wb.sheets|
    ensures Find(wb, wb.sheets[i].title) == Ok(i)
  {
    var j := Find(wb, wb.sheets[i].title).value;
    assert wb.sheets[j].title == wb.sheets[i].title;
  }

  function UpdateSheet(wb: Workbook, i: nat, s: Sheet): (r: Workbook)
    requires i < |wb.sheets| && s.title == wb.sheets[i].title
    ensures Titles(r) == Titles(wb) && r.active == wb.active && r.names == wb.names
    ensures ValidBook(wb) && ValidSheet(s) ==> ValidBook(r)
  {
    wb.(sheets := wb.sheets[i := s])
  }

  /** `ws[pos]` on sheet `i`: the library reads `pos` as one cell and, unless
      the workbook is read-only (`touch` false), creates that cell. */
  function Locate(wb: Workbook, i: nat, pos: string, touch: bool): (r: Result<(Coord, Workbook)>)
    requires i < |wb.sheets|
    ensures r.Ok? <==> CellCoordinate(pos).Ok?
    ensures r.Ok? ==> r.value.0 == CellCoordinate(pos).value
    ensures r.Ok? ==> Titles(r.value.1) == Titles(wb) && r.value.1.active == wb.active && r.value.1.names == wb.names
    ensures r.Ok? ==> forall j, k :: 0 <= j < |wb.sheets| ==> Get(r.value.1.sheets[j], k) == Get(wb.sheets[j], k)
    ensures r.Ok? && !touch ==> r.value.1 == wb
    ensures r.Ok? && ValidBook(wb) ==> ValidBook(r.value.1)
    ensures r.Err? ==> r.error == CellCoordinate(pos).error
  {
    var k :- CellCoordinate(pos);
    TouchPutValid(wb.sheets[i], k, Empty);
    Ok((k, if touch then UpdateSheet(wb, i, Touch(wb.sheets[i], k)) else wb))
  }

  /** `ws[pos].value = v` (and `ws[pos] = v`) on sheet `i`: only the cell
      that `pos` names changes. */
  function WriteAt(wb: Workbook, i: nat, pos: string, v: Value): (r: Result<Workbook>)
    requires i < |wb.sheets|
    ensures r.Ok? <==> CellCoordinate(pos).Ok?
    ensures r.Ok? ==> Titles(r.value) == Titles(wb) && r.value.active == wb.active && r.value.names == wb.names
    ensures r.Ok? ==> Get(r.value.sheets[i], CellCoordinate(pos).value) == v
    ensures r.Ok? ==> forall k :: k != CellCoordinate(pos).value ==> Get(r.value.sheets[i], k) == Get(wb.sheets[i], k)
    ensures r.Ok? ==> forall j :: 0 <= j < |wb.sheets| && j != i ==> r.value.sheets[j] == wb.sheets[j]
    ensures r.Ok? && ValidBook(wb) ==> ValidBook(r.value)
    ensures r.Err? ==> r.error == CellCoordinate(pos).error
  {
    var k :- CellCoordinate(pos);
    TouchPutValid(wb.sheets[i], k, v);
    Ok(UpdateSheet(wb, i, Put(wb.sheets[i], k, v)))
  }

  // ---------------------------------------------------------------- sheet lifecycle

  /** Text of ASCII characters only, on which Python's `str.lower()` and
      `str.upper()` change the letters A-Z and a-z and nothing else. */
  predicate AsciiText(s: string)
  {
    forall i :: 0 <= i < |s| ==> s[i] as int < 128
  }

  /** A title the library takes as given: not empty, none of the characters
      it forbids, and no clash, ignoring case, with an existing title.  The
      library compares titles with `str.lower()`, which folds far more than
      ASCII letters, so the new title and every existing one must be ASCII
      for the comparison here to be the library's.  The library refuses
      other titles, or picks a different one, which the model does not
      follow. */
  predicate PlainTitle(wb: Workbook, title: string)
  {
    && |title| > 0
    && AsciiText(title)
    && (forall i :: 0 <= i < |title| ==> title[i] !in "\\/*?:[]")
    && forall i :: 0 <= i < |wb.sheets| ==> AsciiText(wb.sheets[i].title) && AsciiUpper(wb.sheets[i].title) != AsciiUpper(title)
  }

  /** `wb.create_sheet(title=title)`: a new empty sheet after the others. */
  function CreateSheet(wb: Workbook, title: string): (r: Result<Workbook>)
    ensures r.Ok? <==> PlainTitle(wb, title)
    ensures r.Ok? ==> Titles(r.value) == Titles(wb) + [title]
    ensures r.Ok? ==> r.value.sheets == wb.sheets + [EmptySheet(title)]
    ensures r.Ok? ==> r.value.active == wb.active && r.value.names == wb.names
    ensures r.Ok? && ValidBook(wb) ==> ValidBook(r.value)
    ensures r.Err? ==> r.error == Unmodelled
  {
    if PlainTitle(wb, title) then Ok(wb.(sheets := wb.sheets + [EmptySheet(title)]))
    else Err(Unmodelled)
  }

  /** Titles that clash only under Unicode case folding are outside the
      model: "über" next to "Über" is a clash for the library's
      `str.lower()`, which then picks another title, and no sheet is
      created here. */
  lemma UnicodeClashUnmodelled()
    ensures CreateSheet(NewWorkbook().(sheets := [EmptySheet("Über")]), "über") == Err(Unmodelled)
  {
    assert "über"[0] as int >= 128;
  }

  /** `wb.remove(wb.sheets[i])`: the active index stays where it was. */
  function RemoveAt(wb: Workbook, i: nat): (r: Workbook)
    requires i < |wb.sheets|
    ensures Titles(r) == Titles(wb)[..i] + Titles(wb)[i + 1..]
    ensures r.sheets == wb.sheets[..i] + wb.sheets[i + 1..]
    ensures r.active == wb.active && r.names == wb.names
    ensures ValidBook(wb) ==> ValidBook(r)
  {
    var r := wb.(sheets := wb.sheets[..i] + wb.sheets[i + 1..]);
    assert forall j :: 0 <= j < |r.sheets| ==> r.sheets[j] == wb.sheets[if j < i then j else j + 1];
    r
  }

  /** `ws.title = title` on sheet `i`: setting the title it already has
      changes nothing. */
  function RenameAt(wb: Workbook, i: nat, title: string): (r: Result<Workbook>)
    requires i < |wb.sheets|
    ensures r.Ok? <==> title == wb.sheets[i].title || PlainTitle(wb, title)
    ensures r.Ok? ==> Titles(r.value) == Titles(wb)[i := title]
    ensures r.Ok? ==> r.value.sheets == wb.sheets[i := wb.sheets[i].(title := title)]
    ensures r.Ok? ==> r.value.active == wb.active && r.value.names == wb.names
    ensures r.Ok? && ValidBook(wb) ==> ValidBook(r.value)
    ensures r.Err? ==> r.error == Unmodelled
  {
    if title == wb.sheets[i].title || PlainTitle(wb, title) then
      Ok(wb.(sheets := wb.sheets[i := wb.sheets[i].(title := title)]))
    else Err(Unmodelled)
  }

  /** A workbook operation that may fail after changing the workbook. */
  datatype Step<T> = Step(result: Result<T>, book: Workbook)

  /** `for sheet in titles: wb.remove(wb[sheet])`: a missing title stops the
      loop with `KeyError`, the removals before it having happened. */
  function RemoveAll(wb: Workbook, titles: seq<string>): (r: Step<()>)
    ensures r.book.active == wb.active && r.book.names == wb.names
    ensures r.result.Err? ==> r.result.error.KeyError? && r.result.error.key in titles
    ensures ValidBook(wb) ==> ValidBook(r.book)
    decreases |titles|
  {
    if |titles| == 0 then Step(Ok(()), wb)
    else
      match Find(wb, titles[0])
      case Err(e) => Step(Err(e), wb)
      case Ok(i) => RemoveAll(RemoveAt(wb, i), titles[1..])
  }

  /** Removing every sheet by its own title always succeeds and leaves no
      sheet, whether or not titles repeat. */
  lemma {:induction false} RemoveEverySheet(wb: Workbook)
    ensures RemoveAll(wb, Titles(wb)) == Step(Ok(()), wb.(sheets := []))
    decreases |wb.sheets|
  {
    if |wb.sheets| > 0 {
      var t := Titles(wb);
      assert Find(wb, t[0]) == Ok(0);
      var rest := RemoveAt(wb, 0);
      assert Titles(rest) == t[1..];
      RemoveEverySheet(rest);
    }
  }

  /** "Sheet1" can always be created in a workbook without sheets. */
  lemma FreshSheet1(wb: Workbook)
    requires wb.sheets == []
    ensures CreateSheet(wb, "Sheet1") == Ok(wb.(sheets := [EmptySheet("Sheet1")]))
  {
    assert PlainTitle(wb, "Sheet1");
    assert wb.sheets + [EmptySheet("Sheet1")] == [EmptySheet("Sheet1")];
  }

  /** `clear_workbook(sheets)`.  With no list (or an empty one) every sheet
      goes and a single empty "Sheet1" is created.  With a non-empty list
      the sheets are removed and the function then reads a flag it only
      sets on the other path, which fails with `UnboundLocalError`. */
  function ClearWorkbook(wb: Workbook, sheets: Option<seq<string>>): (r: Step<()>)
    ensures sheets.None? || sheets.value == [] ==>
      && r.result.Ok?
      && r.book.sheets == [EmptySheet("Sheet1")]
      && Titles(r.book) == ["Sheet1"]
      && r.book.active == wb.active && r.book.names == wb.names
    ensures sheets.Some? && sheets.value != [] ==> r.result.Err?
    ensures sheets.Some? && sheets.value != [] ==>
      r.result.error == UnboundLocalError || (r.result.error.KeyError? && r.result.error.key in sheets.value)
    ensures ValidBook(wb) ==> ValidBook(r.book)
  {
    if sheets.None? || sheets.value == [] then
      RemoveEverySheet(wb);
      FreshSheet1(wb.(sheets := []));
      Step(Ok(()), CreateSheet(wb.(sheets := []), "Sheet1").value)
    else
      var removed := RemoveAll(wb, sheets.value);
      if removed.result.Err? then removed
      else Step(Err(UnboundLocalError), removed.book)
  }

  // ---------------------------------------------------------------- merge and copy

  /** Row `r` of `src`, columns 1 .. n, written into row `offset + r`. */
  function PutRow(t: Sheet, src: Sheet, r: nat, offset: nat, n: nat): Sheet
    requires r >= 1
    decreases n
  {
    if n == 0 then t
    else Put(PutRow(t, src, r, offset, n - 1), Coord(offset + r, n), Get(src, Coord(r, n)))
  }

  /** Rows 1 .. m of `src`, each across all of `src`'s columns, written
      `offset` rows further down: the library's `iter_rows` walk over the
      source, row by row. */
  function PutRows(t: Sheet, src: Sheet, offset: nat, m: nat): Sheet
    decreases m
  {
    if m == 0 then t
    else PutRow(PutRows(t, src, offset, m - 1), src, m, offset, src.lastCol)
  }

  lemma {:induction false} PutRowShape(t: Sheet, src: Sheet, r: nat, offset: nat, n: nat)
    requires r >= 1
    ensures ValidSheet(t) ==> ValidSheet(PutRow(t, src, r, offset, n))
    ensures PutRow(t, src, r, offset, n).title == t.title
    ensures n == 0 ==> PutRow(t, src, r, offset, n) == t
    ensures n > 0 ==> PutRow(t, src, r, offset, n).lastRow == Max(t.lastRow, offset + r)
    ensures n > 0 ==> PutRow(t, src, r, offset, n).lastCol == Max(t.lastCol, n)
    decreases n
  {
    if n > 0 {
      PutRowShape(t, src, r, offset, n - 1);
      TouchPutValid(PutRow(t, src, r, offset, n - 1), Coord(offset + r, n), Get(src, Coord(r, n)));
    }
  }

  lemma {:induction false} PutRowGet(t: Sheet, src: Sheet, r: nat, offset: nat, n: nat, k: Coord)
    requires r >= 1
    ensures Get(PutRow(t, src, r, offset, n), k) ==
              if k.row == offset + r && 1 <= k.col <= n then Get(src, Coord(r, k.col)) else Get(t, k)
    decreases n
  {
    if n > 0 {
      PutRowGet(t, src, r, offset, n - 1, k);
    }
  }

  lemma {:induction false} PutRowsShape(t: Sheet, src: Sheet, offset: nat, m: nat)
    requires m > 0 ==> src.lastCol >= 1
    ensures ValidSheet(t) ==> ValidSheet(PutRows(t, src, offset, m))
    ensures PutRows(t, src, offset, m).title == t.title
    ensures m == 0 ==> PutRows(t, src, offset, m) == t
    ensures m > 0 ==> PutRows(t, src, offset, m).lastRow == Max(t.lastRow, offset + m)
    ensures m > 0 ==> PutRows(t, src, offset, m).lastCol == Max(t.lastCol, src.lastCol)
    decreases m
  {
    if m > 0 {
      PutRowsShape(t, src, offset, m - 1);
      PutRowShape(PutRows(t, src, offset, m - 1), src, m, offset, src.lastCol);
    }
  }

  lemma {:induction false} PutRowsGet(t: Sheet, src: Sheet, offset: nat, m: nat, k: Coord)
    ensures Get(PutRows(t, src, offset, m), k) ==
              if offset < k.row <= offset + m && 1 <= k.col <= src.lastCol then Get(src, Coord(k.row - offset, k.col))
              else Get(t, k)
    decreases m
  {
    if m > 0 {
      var prev := PutRows(t, src, offset, m - 1);
      assert PutRows(t, src, offset, m) == PutRow(prev, src, m, offset, src.lastCol);
      PutRowsGet(t, src, offset, m - 1, k);
      PutRowGet(prev, src, m, offset, src.lastCol, k);
      if k.row == offset + m && 1 <= k.col <= src.lastCol {
        assert Coord(k.row - offset, k.col) == Coord(m, k.col);
      }
    }
  }

  /** The facts `MergeSheets` states, from the row-by-row walk. */
  lemma MergeSheetsSpec(s1: Sheet, s2: Sheet)
    requires ValidSheet(s1) && ValidSheet(s2)
    ensures var r := PutRows(s1, s2, s1.lastRow, s2.lastRow);
      && ValidSheet(r) && r.title == s1.title
      && r.lastRow == s1.lastRow + s2.lastRow && r.lastCol == Max(s1.lastCol, s2.lastCol)
      && (forall k: Coord :: k.row <= s1.lastRow ==> Get(r, k) == Get(s1, k))
      && (forall k: Coord :: k.row > s1.lastRow ==> Get(r, k) == Get(s2, Coord(k.row - s1.lastRow, k.col)))
  {
    var r := PutRows(s1, s2, s1.lastRow, s2.lastRow);
    PutRowsShape(s1, s2, s1.lastRow, s2.lastRow);
    forall k: Coord | k.row <= s1.lastRow ensures Get(r, k) == Get(s1, k) {
      PutRowsGet(s1, s2, s1.lastRow, s2.lastRow, k);
    }
    forall k: Coord | k.row > s1.lastRow ensures Get(r, k) == Get(s2, Coord(k.row - s1.lastRow, k.col)) {
      PutRowsGet(s1, s2, s1.lastRow, s2.lastRow, k);
      assert k !in s1.cells;
      var j := Coord(k.row - s1.lastRow, k.col);
      if !(k.row <= s1.lastRow + s2.lastRow && 1 <= k.col <= s2.lastCol) {
        assert j !in s2.cells;
      }
    }
  }

  /** `_merge_sheets(s1, s2)`: every row of `s2` is appended, in order, after
      the last row of `s1`; the rows `s1` had are untouched. */
  function MergeSheets(s1: Sheet, s2: Sheet): (r: Sheet)
    requires ValidSheet(s1) && ValidSheet(s2)
    ensures ValidSheet(r) && r.title == s1.title
    ensures r.lastRow == s1.lastRow + s2.lastRow && r.lastCol == Max(s1.lastCol, s2.lastCol)
    ensures forall k: Coord :: k.row <= s1.lastRow ==> Get(r, k) == Get(s1, k)
    ensures forall k: Coord :: k.row > s1.lastRow ==> Get(r, k) == Get(s2, Coord(k.row - s1.lastRow, k.col))
  {
    MergeSheetsSpec(s1, s2);
    PutRows(s1, s2, s1.lastRow, s2.lastRow)
  }

  /** A new sheet titled `title` filled by `_copy_sheet_contents` from `src`:
      every cell of `src`'s extent is written at the same place. */
  function CopySheet(title: string, src: Sheet): (r: Sheet)
    requires ValidSheet(src)
    ensures ValidSheet(r) && r.title == title
    ensures r.lastRow == src.lastRow && r.lastCol == src.lastCol
    ensures forall k :: Get(r, k) == Get(src, k)
  {
    CopySheetSpec(title, src);
    PutRows(EmptySheet(title), src, 0, src.lastRow)
  }

  lemma CopySheetSpec(title: string, src: Sheet)
    requires ValidSheet(src)
    ensures var r := PutRows(EmptySheet(title), src, 0, src.lastRow);
      && ValidSheet(r) && r.title == title
      && r.lastRow == src.lastRow && r.lastCol == src.lastCol
      && forall k :: Get(r, k) == Get(src, k)
  {
    var r := PutRows(EmptySheet(title), src, 0, src.lastRow);
    PutRowsShape(EmptySheet(title), src, 0, src.lastRow);
    forall k ensures Get(r, k) == Get(src, k) {
      PutRowsGet(EmptySheet(title), src, 0, src.lastRow, k);
      if !(0 < k.row <= src.lastRow && 1 <= k.col <= src.lastCol) {
        assert k !in src.cells;
      } else {
        assert Coord(k.row - 0, k.col) == k;
      }
    }
  }

  predicate AllValid(sheets: seq<Sheet>)
  {
    forall i :: 0 <= i < |sheets| ==> ValidSheet(sheets[i])
  }

  /** `_merge_workbooks`: the other workbook's sheets, in order; a sheet
      whose title `wb` has is merged into that sheet, any other is copied
      into a new sheet at the end. */
  function MergeInto(wb: Workbook, others: seq<Sheet>): (r: Result<Workbook>)
    requires ValidBook(wb) && AllValid(others)
    ensures r.Ok? ==> ValidBook(r.value) && r.value.active == wb.active && r.value.names == wb.names
    ensures r.Err? ==> r.error == Unmodelled
    decreases |others|
  {
    if |others| == 0 then Ok(wb)
    else
      var s := others[0];
      match Find(wb, s.title)
      case Ok(i) =>
        MergeInto(UpdateSheet(wb, i, MergeSheets(wb.sheets[i], s)), others[1..])
      case Err(_) =>
        match CreateSheet(wb, s.title)
        case Err(e) => Err(e)
        case Ok(created) =>
          var n := |wb.sheets|;
          MergeInto(UpdateSheet(created, n, CopySheet(s.title, s)), others[1..])
  }

  /** The titles of `others` that `existing` lacks, in order. */
  function NewTitles(existing: seq<string>, others: seq<Sheet>): seq<string>
  {
    if |others| == 0 then []
    else (if others[0].title in existing then [] else [others[0].title]) + NewTitles(existing, others[1..])
  }

  /** What merging `others` makes of one sheet: merged with the other sheet
      of its title, if there is one. */
  function MergedWith(s: Sheet, others: seq<Sheet>): Sheet
    requires ValidSheet(s) && AllValid(others)
  {
    match FindIn(others, s.title)
    case None => s
    case Some(j) => MergeSheets(s, others[j])
  }

  lemma {:induction false} NewTitlesIgnoresAbsent(existing: seq<string>, t: string, others: seq<Sheet>)
    requires forall i :: 0 <= i < |others| ==> others[i].title != t
    ensures NewTitles(existing + [t], others) == NewTitles(existing, others)
  {
    if |others| > 0 {
      NewTitlesIgnoresAbsent(existing, t, others[1..]);
    }
  }

  lemma FindInTail(others: seq<Sheet>, t: string)
    requires |others| > 0 && others[0].title != t
    ensures FindIn(others, t) == (match FindIn(others[1..], t) case None => None case Some(j) => Some(j + 1))
  {
  }

  /** What merging `others` into `wb` must give: the own sheets keep their
      places and titles and are each merged with the other sheet of the
      same title, if any; the other sheets whose titles were new follow, in
      the other workbook's order, each a copy of that sheet. */
  predicate MergedAs(wb: Workbook, others: seq<Sheet>, res: Workbook)
    requires ValidBook(wb) && AllValid(others)
  {
    && Titles(res) == Titles(wb) + NewTitles(Titles(wb), others)
    && OwnMerged(wb, others, res)
    && NewCopied(|wb.sheets|, others, res)
  }

  /** The first sheets of `res` are `wb`'s, each merged with the other sheet
      of its title. */
  predicate OwnMerged(wb: Workbook, others: seq<Sheet>, res: Workbook)
    requires ValidBook(wb) && AllValid(others)
  {
    && |wb.sheets| <= |res.sheets|
    && forall i :: 0 <= i < |wb.sheets| ==> res.sheets[i] == MergedWith(wb.sheets[i], others)
  }

  /** Every sheet of `res` from place `n` on is a copy of the other sheet
      of its title. */
  predicate NewCopied(n: nat, others: seq<Sheet>, res: Workbook)
    requires AllValid(others)
  {
    forall j :: n <= j < |res.sheets| ==>
      FindIn(others, res.sheets[j].title).Some?
      && res.sheets[j] == CopySheet(res.sheets[j].title, others[FindIn(others, res.sheets[j].title).value])
  }

  lemma DistinctTail(others: seq<Sheet>)
    requires |others| > 0 && DistinctTitles(others)
    ensures DistinctTitles(others[1..])
    ensures forall i :: 0 <= i < |others| - 1 ==> others[1..][i].title != others[0].title
  {
    var rest := others[1..];
    forall i | 0 <= i < |rest| ensures rest[i].title != others[0].title {
      assert rest[i] == others[i + 1];
    }
    forall i, j | 0 <= i < j < |rest| ensures rest[i].title != rest[j].title {
      assert rest[i] == others[i + 1] && rest[j] == others[j + 1];
    }
  }

  /** The step of the merge that folds the first other sheet into the own
      sheet `i` of the same title. */
  lemma MergeStepFound(wb: Workbook, others: seq<Sheet>, i: nat, res: Workbook)
    requires ValidBook(wb) && AllValid(others) && DistinctTitles(others) && |others| > 0
    requires i < |wb.sheets| && wb.sheets[i].title == others[0].title
    requires MergedAs(UpdateSheet(wb, i, MergeSheets(wb.sheets[i], others[0])), others[1..], res)
    ensures MergedAs(wb, others, res)
  {
    var s, rest := others[0], others[1..];
    DistinctTail(others);
    var wb' := UpdateSheet(wb, i, MergeSheets(wb.sheets[i], s));
    assert Titles(wb') == Titles(wb);
    assert s.title in Titles(wb) by { assert Titles(wb)[i] == s.title; }
    assert NewTitles(Titles(wb), others) == NewTitles(Titles(wb), rest);
    forall k | 0 <= k < |wb.sheets| ensures res.sheets[k] == MergedWith(wb.sheets[k], others) {
      assert res.sheets[k] == MergedWith(wb'.sheets[k], rest);
      if k == i {
        assert FindIn(rest, s.title).None?;
      } else {
        assert wb.sheets[k].title != s.title by {
          assert Titles(wb)[k] == wb.sheets[k].title;
        }
        FindInTail(others, wb.sheets[k].title);
      }
    }
    forall j | |wb.sheets| <= j < |res.sheets|
      ensures FindIn(others, res.sheets[j].title).Some?
      ensures res.sheets[j] == CopySheet(res.sheets[j].title, others[FindIn(others, res.sheets[j].title).value])
    {
      var t := res.sheets[j].title;
      var m := FindIn(rest, t).value;
      assert rest[m].title == t;
      FindInTail(others, t);
    }
  }

  /** The step of the merge that copies the first other sheet, whose title
      is new, into a sheet created at the end. */
  lemma MergeStepNew(wb: Workbook, others: seq<Sheet>, wb': Workbook, res: Workbook)
    requires ValidBook(wb) && AllValid(others) && DistinctTitles(others) && |others| > 0
    requires others[0].title !in Titles(wb)
    requires ValidBook(wb') && wb'.sheets == wb.sheets + [CopySheet(others[0].title, others[0])]
    requires MergedAs(wb', others[1..], res)
    ensures MergedAs(wb, others, res)
  {
    DistinctTail(others);
    assert Titles(wb') == Titles(wb) + [others[0].title];
    NewStepTitles(Titles(wb), others);
    MergeStepNewKeeps(wb, others, wb', res);
    MergeStepNewAppends(wb, others, wb', res);
  }

  /** Appending a new title, then the titles new to the longer list, is
      appending the titles new to the shorter one. */
  lemma NewStepTitles(existing: seq<string>, others: seq<Sheet>)
    requires |others| > 0 && others[0].title !in existing
    requires forall i :: 0 <= i < |others| - 1 ==> others[1..][i].title != others[0].title
    ensures existing + [others[0].title] + NewTitles(existing + [others[0].title], others[1..]) == existing + NewTitles(existing, others)
  {
    var t, rest := others[0].title, others[1..];
    NewTitlesIgnoresAbsent(existing, t, rest);
    assert NewTitles(existing, others) == [t] + NewTitles(existing, rest);
  }

  /** In the step that copies a new sheet, the own sheets are merged as
      before. */
  lemma MergeStepNewKeeps(wb: Workbook, others: seq<Sheet>, wb': Workbook, res: Workbook)
    requires ValidBook(wb) && AllValid(others) && DistinctTitles(others) && |others| > 0
    requires others[0].title !in Titles(wb)
    requires ValidBook(wb') && wb'.sheets == wb.sheets + [CopySheet(others[0].title, others[0])]
    requires MergedAs(wb', others[1..], res)
    ensures OwnMerged(wb, others, res)
  {
    forall k | 0 <= k < |wb.sheets| ensures res.sheets[k] == MergedWith(wb.sheets[k], others) {
      assert res.sheets[k] == MergedWith(wb'.sheets[k], others[1..]);
      assert wb.sheets[k].title != others[0].title by {
        assert Titles(wb)[k] == wb.sheets[k].title;
      }
      FindInTail(others, wb.sheets[k].title);
    }
  }

  /** In the step that copies a new sheet, every sheet after the own ones is
      a copy of the other sheet of its title. */
  lemma MergeStepNewAppends(wb: Workbook, others: seq<Sheet>, wb': Workbook, res: Workbook)
    requires ValidBook(wb) && AllValid(others) && DistinctTitles(others) && |others| > 0
    requires DistinctTitles(others[1..])
    requires forall i :: 0 <= i < |others| - 1 ==> others[1..][i].title != others[0].title
    requires ValidBook(wb') && wb'.sheets == wb.sheets + [CopySheet(others[0].title, others[0])]
    requires MergedAs(wb', others[1..], res)
    ensures NewCopied(|wb.sheets|, others, res)
  {
    var s, rest, n := others[0], others[1..], |wb.sheets|;
    forall j | n <= j < |res.sheets|
      ensures FindIn(others, res.sheets[j].title).Some?
      ensures res.sheets[j] == CopySheet(res.sheets[j].title, others[FindIn(others, res.sheets[j].title).value])
    {
      var t := res.sheets[j].title;
      if j == n {
        assert res.sheets[j] == MergedWith(wb'.sheets[n], rest);
        assert FindIn(rest, s.title).None?;
        assert FindIn(others, s.title) == Some(0);
      } else {
        var m := FindIn(rest, t).value;
        assert rest[m].title == t;
        FindInTail(others, t);
      }
    }
  }

  /** `_merge_workbooks` with distinct sheet titles on the other side gives
      the workbook `MergedAs` describes. */
  lemma {:induction false} MergeIntoSpec(wb: Workbook, others: seq<Sheet>)
    requires ValidBook(wb) && AllValid(others) && DistinctTitles(others)
    requires MergeInto(wb, others).Ok?
    ensures MergedAs(wb, others, MergeInto(wb, others).value)
    decreases |others|
  {
    if |others| > 0 {
      var s, rest := others[0], others[1..];
      DistinctTail(others);
      var res := MergeInto(wb, others).value;
      match Find(wb, s.title)
      case Ok(i) => {
        MergeIntoFound(wb, others, i);
        MergeIntoSpec(UpdateSheet(wb, i, MergeSheets(wb.sheets[i], s)), rest);
        MergeStepFound(wb, others, i, res);
      }
      case Err(_) => {
        MergeIntoNew(wb, others);
        var wb' := UpdateSheet(CreateSheet(wb, s.title).value, |wb.sheets|, CopySheet(s.title, s));
        MergeIntoSpec(wb', rest);
        MergeStepNew(wb, others, wb', res);
      }
    }
  }

  /** A first other sheet whose title `wb` has is merged into that sheet,
      and the merge goes on from there. */
  lemma MergeIntoFound(wb: Workbook, others: seq<Sheet>, i: nat)
    requires ValidBook(wb) && AllValid(others) && |others| > 0
    requires Find(wb, others[0].title) == Ok(i)
    ensures i < |wb.sheets| && wb.sheets[i].title == others[0].title
    ensures ValidBook(UpdateSheet(wb, i, MergeSheets(wb.sheets[i], others[0])))
    ensures MergeInto(wb, others) == MergeInto(UpdateSheet(wb, i, MergeSheets(wb.sheets[i], others[0])), others[1..])
  {
  }

  /** A first other sheet whose title `wb` lacks goes to a new sheet at the
      end, and the merge goes on from there. */
  lemma MergeIntoNew(wb: Workbook, others: seq<Sheet>)
    requires ValidBook(wb) && AllValid(others) && |others| > 0
    requires Find(wb, others[0].title).Err? && MergeInto(wb, others).Ok?
    ensures others[0].title !in Titles(wb) && CreateSheet(wb, others[0].title).Ok?
    ensures var wb' := UpdateSheet(CreateSheet(wb, others[0].title).value, |wb.sheets|, CopySheet(others[0].title, others[0]));
      && ValidBook(wb') && wb'.sheets == wb.sheets + [CopySheet(others[0].title, others[0])]
      && MergeInto(wb, others) == MergeInto(wb', others[1..])
  {
  }

  // ---------------------------------------------------------------- range

  /** The rows `range(r0, r1 + 1)` yields. */
  function Rows(r0: int, r1: int): (rows: seq<int>)
    ensures |rows| == if r1 < r0 then 0 else r1 - r0 + 1
    ensures forall i :: 0 <= i < |rows| ==> rows[i] == r0 + i
  {
    if r1 < r0 then [] else seq(r1 - r0 + 1, i => r0 + i)
  }

  /** The (column, row) pairs of a range, columns on the outside and rows
      inside. */
  function Grid(cols: seq<char>, r0: int, r1: int): seq<(char, int)>
  {
    if |cols| == 0 then []
    else seq(|Rows(r0, r1)|, i requires 0 <= i < |Rows(r0, r1)| => (cols[0], Rows(r0, r1)[i])) + Grid(cols[1..], r0, r1)
  }

  /** The place of column `c`, row `r` in a range with `n` rows per column. */
  function Slot(c: nat, n: nat, r: nat): nat
  {
    c * n + r
  }

  lemma SlotBound(c: nat, n: nat, r: nat, m: nat)
    requires c < m && r < n
    ensures Slot(c, n, r) < m * n
  {
    var d: nat := m - c - 1;
    assert d * n >= 0;
    assert m * n == (c + 1 + d) * n;
    assert (c + 1 + d) * n == c * n + n + d * n;
  }

  lemma SlotStep(c: nat, n: nat, r: nat)
    requires c > 0
    ensures Slot(c, n, r) == n + Slot(c - 1, n, r)
  {
    assert c * n == (c - 1) * n + n;
  }

  /** The range has one entry per column and row, the entry in slot
      `c * n + r` being column `c` and row `r0 + r`. */
  lemma {:induction false} GridShape(cols: seq<char>, r0: int, r1: int)
    ensures |Grid(cols, r0, r1)| == |cols| * |Rows(r0, r1)|
    ensures forall c: nat, r: nat :: c < |cols| && r < |Rows(r0, r1)| ==>
              Slot(c, |Rows(r0, r1)|, r) < |Grid(cols, r0, r1)|
              && Grid(cols, r0, r1)[Slot(c, |Rows(r0, r1)|, r)] == (cols[c], r0 + r)
  {
    var n := |Rows(r0, r1)|;
    if |cols| > 0 {
      GridShape(cols[1..], r0, r1);
      var g := Grid(cols, r0, r1);
      var tail := Grid(cols[1..], r0, r1);
      assert g == seq(n, i requires 0 <= i < n => (cols[0], Rows(r0, r1)[i])) + tail;
      assert |g| == n + |tail|;
      assert |cols| * n == n + (|cols| - 1) * n;
      forall c: nat, r: nat | c < |cols| && r < n
        ensures Slot(c, n, r) < |g| && g[Slot(c, n, r)] == (cols[c], r0 + r)
      {
        SlotBound(c, n, r, |cols|);
        if c > 0 {
          SlotStep(c, n, r);
          SlotBound(c - 1, n, r, |cols| - 1);
          assert cols[c] == cols[1..][c - 1];
          assert tail[Slot(c - 1, n, r)] == (cols[c], r0 + r);
        }
      }
    }
  }

  /** `range`'s output switches; when several are on, `raw` wins, then
      `value_only`, then `cell`, then `pos_only`. */
  datatype Flags = Flags(raw: bool, valueOnly: bool, posOnly: bool, cell: bool)

  /** What `range` yields for one position. */
  datatype Output =
    | PosOutput(pos: string)                                        // the position text
    | ValueOutput(v: Value)                                         // the cell's value
    | CellOutput(value: Value, col: string, row: int, sheet: string) // a Cell holding the value and the sheet
    | RawOutput(col: string, row: int, sheet: string)               // a Cell holding the library's own cell

  /** What `range` yields at column `c`, row `r`: the strongest switch that
      is on decides; every form but the position text reads the cell, which
      needs a sheet and a position the library accepts. */
  predicate Expected(wb: Workbook, sheet: Option<nat>, flags: Flags, c: char, r: int, o: Output)
  {
    var pos := [c] + IntText(r);
    if flags.raw || flags.valueOnly || flags.cell then
      && sheet.Some? && sheet.value < |wb.sheets| && CellCoordinate(pos).Ok?
      && var title := wb.sheets[sheet.value].title;
         var v := Get(wb.sheets[sheet.value], CellCoordinate(pos).value);
         o == if flags.raw then RawOutput([c], r, title)
              else if flags.valueOnly then ValueOutput(v)
              else CellOutput(v, [c], r, title)
    else flags.posOnly && o == PosOutput(pos)
  }

  /** Reading the cells of a workbook that differs only in created cells
      expects the same items. */
  lemma ExpectedAgrees(wb: Workbook, wb': Workbook, sheet: Option<nat>, flags: Flags, c: char, r: int, o: Output)
    requires Titles(wb') == Titles(wb)
    requires forall j, k :: 0 <= j < |wb.sheets| ==> Get(wb'.sheets[j], k) == Get(wb.sheets[j], k)
    ensures Expected(wb', sheet, flags, c, r, o) == Expected(wb, sheet, flags, c, r, o)
  {
    if sheet.Some? && sheet.value < |wb.sheets| {
      assert wb'.sheets[sheet.value].title == Titles(wb')[sheet.value];
    }
  }

  /** One position of `range` that reads its cell on sheet `i`. */
  function ReadOutput(wb: Workbook, i: nat, c: char, r: int, flags: Flags, touch: bool): (o: Result<(Output, Workbook)>)
    requires i < |wb.sheets| && (flags.raw || flags.valueOnly || flags.cell)
    ensures o.Ok? ==> Expected(wb, Some(i), flags, c, r, o.value.0)
    ensures o.Ok? ==> Titles(o.value.1) == Titles(wb) && o.value.1.active == wb.active && o.value.1.names == wb.names
    ensures o.Ok? ==> forall j, k :: 0 <= j < |wb.sheets| ==> Get(o.value.1.sheets[j], k) == Get(wb.sheets[j], k)
    ensures o.Ok? && ValidBook(wb) ==> ValidBook(o.value.1)
    ensures o.Err? ==> CellCoordinate([c] + IntText(r)).Err? && o.error == CellCoordinate([c] + IntText(r)).error
  {
    var found :- Locate(wb, i, [c] + IntText(r), touch);
    var title := wb.sheets[i].title;
    var v := Get(found.1.sheets[i], found.0);
    if flags.raw then Ok((RawOutput([c], r, title), found.1))
    else if flags.valueOnly then Ok((ValueOutput(v), found.1))
    else Ok((CellOutput(v, [c], r, title), found.1))
  }

  /** One position of `range`: `sheet` is the sheet in use, or `None` when
      the active sheet is `None`. */
  function OutputAt(wb: Workbook, sheet: Option<nat>, c: char, r: int, flags: Flags, touch: bool): (o: Result<(Output, Workbook)>)
    requires sheet.Some? ==> sheet.value < |wb.sheets|
    ensures o.Ok? ==> Expected(wb, sheet, flags, c, r, o.value.0)
    ensures o.Ok? ==> Titles(o.value.1) == Titles(wb) && o.value.1.active == wb.active && o.value.1.names == wb.names
    ensures o.Ok? ==> forall j, k :: 0 <= j < |wb.sheets| ==> Get(o.value.1.sheets[j], k) == Get(wb.sheets[j], k)
    ensures o.Ok? && ValidBook(wb) ==> ValidBook(o.value.1)
    ensures o.Ok? && !(flags.raw || flags.valueOnly || flags.cell) ==> o.value.1 == wb
    ensures o.Err? && (flags.raw || flags.valueOnly || flags.cell) ==>
      if sheet.None? then o.error == TypeError
      else CellCoordinate([c] + IntText(r)).Err? && o.error == CellCoordinate([c] + IntText(r)).error
    ensures o.Err? && !(flags.raw || flags.valueOnly || flags.cell) ==>
      !flags.posOnly && o.error == ValueError(NothingToReturn)
  {
    if flags.raw || flags.valueOnly || flags.cell then
      if sheet.None? then Err(TypeError) else ReadOutput(wb, sheet.value, c, r, flags, touch)
    else if flags.posOnly then Ok((PosOutput([c] + IntText(r)), wb))
    else Err(ValueError(NothingToReturn))
  }

  /** Consuming `range`'s generator over the positions `grid`: an error
      ends the iteration, the cells created before it remaining. */
  function Produce(wb: Workbook, sheet: Option<nat>, grid: seq<(char, int)>, flags: Flags, touch: bool): (r: Step<seq<Output>>)
    requires sheet.Some? ==> sheet.value < |wb.sheets|
    ensures Titles(r.book) == Titles(wb) && r.book.active == wb.active && r.book.names == wb.names
    ensures forall j, k :: 0 <= j < |wb.sheets| ==> Get(r.book.sheets[j], k) == Get(wb.sheets[j], k)
    ensures ValidBook(wb) ==> ValidBook(r.book)
    ensures r.result.Ok? ==> |r.result.value| == |grid|
    decreases |grid|
  {
    if |grid| == 0 then Step(Ok([]), wb)
    else
      match OutputAt(wb, sheet, grid[0].0, grid[0].1, flags, touch)
      case Err(e) => Step(Err(e), wb)
      case Ok(first) =>
        var rest := Produce(first.1, sheet, grid[1..], flags, touch);
        if rest.result.Err? then rest
        else Step(Ok([first.0] + rest.result.value), rest.book)
  }

  /** `out` holds, at every place of `grid`, the item expected for that
      place's position. */
  predicate AllExpected(wb: Workbook, sheet: Option<nat>, flags: Flags, grid: seq<(char, int)>, out: seq<Output>)
  {
    && |out| == |grid|
    && forall i :: 0 <= i < |grid| ==> Expected(wb, sheet, flags, grid[i].0, grid[i].1, out[i])
  }

  /** The expected items of a grid are those of its first place and of the
      rest, the rest judged in any workbook with the same titles and cells. */
  lemma ExpectedCons(wb: Workbook, wb': Workbook, sheet: Option<nat>, flags: Flags, grid: seq<(char, int)>, o: Output, rest: seq<Output>)
    requires |grid| > 0 && Titles(wb') == Titles(wb)
    requires forall j, k :: 0 <= j < |wb.sheets| ==> Get(wb'.sheets[j], k) == Get(wb.sheets[j], k)
    requires Expected(wb, sheet, flags, grid[0].0, grid[0].1, o)
    requires AllExpected(wb', sheet, flags, grid[1..], rest)
    ensures AllExpected(wb, sheet, flags, grid, [o] + rest)
  {
    var before := (e: (char, int), x: Output) => Expected(wb, sheet, flags, e.0, e.1, x);
    var after := (e: (char, int), x: Output) => Expected(wb', sheet, flags, e.0, e.1, x);
    forall e: (char, int), x: Output | after(e, x) ensures before(e, x) {
      ExpectedAgrees(wb, wb', sheet, flags, e.0, e.1, x);
    }
    PairsCons(grid, o, rest, after, before);
  }

  /** A relation between the places of a sequence and their items holds at
      every place when it holds at the first one and, in a relation that
      implies it, at the rest. */
  lemma PairsCons<A, B>(xs: seq<A>, y: B, ys: seq<B>, p: (A, B) -> bool, q: (A, B) -> bool)
    requires |xs| > 0 && |ys| == |xs| - 1 && q(xs[0], y)
    requires forall i :: 0 <= i < |xs[1..]| ==> p(xs[1..][i], ys[i])
    requires forall a, b :: p(a, b) ==> q(a, b)
    ensures forall i :: 0 <= i < |xs| ==> q(xs[i], ([y] + ys)[i])
  {
    forall i | 0 < i < |xs| ensures q(xs[i], ([y] + ys)[i]) {
      assert xs[i] == xs[1..][i - 1];
      assert ([y] + ys)[i] == ys[i - 1];
    }
  }

  /** A completed iteration yields, at every place, the item expected for
      that place's position. */
  lemma {:induction false} ProduceOutputs(wb: Workbook, sheet: Option<nat>, grid: seq<(char, int)>, flags: Flags, touch: bool)
    requires sheet.Some? ==> sheet.value < |wb.sheets|
    requires Produce(wb, sheet, grid, flags, touch).result.Ok?
    ensures AllExpected(wb, sheet, flags, grid, Produce(wb, sheet, grid, flags, touch).result.value)
    decreases |grid|
  {
    if |grid| > 0 {
      ProduceStep(wb, sheet, grid, flags, touch);
      var first := OutputAt(wb, sheet, grid[0].0, grid[0].1, flags, touch).value;
      ProduceOutputs(first.1, sheet, grid[1..], flags, touch);
      ExpectedCons(wb, first.1, sheet, flags, grid, first.0, Produce(first.1, sheet, grid[1..], flags, touch).result.value);
    }
  }

  /** A completed iteration over a non-empty grid is its first item followed
      by the completed iteration over the rest, from the workbook the first
      step left. */
  lemma ProduceStep(wb: Workbook, sheet: Option<nat>, grid: seq<(char, int)>, flags: Flags, touch: bool)
    requires sheet.Some? ==> sheet.value < |wb.sheets|
    requires |grid| > 0 && Produce(wb, sheet, grid, flags, touch).result.Ok?
    ensures OutputAt(wb, sheet, grid[0].0, grid[0].1, flags, touch).Ok?
    ensures var first := OutputAt(wb, sheet, grid[0].0, grid[0].1, flags, touch).value;
      && Produce(first.1, sheet, grid[1..], flags, touch).result.Ok?
      && Produce(wb, sheet, grid, flags, touch).result.value ==
         [first.0] + Produce(first.1, sheet, grid[1..], flags, touch).result.value
  {
  }

  /** The position texts of `grid`, in order. */
  function PositionTexts(grid: seq<(char, int)>): (r: seq<Output>)
    ensures |r| == |grid|
    ensures forall i :: 0 <= i < |grid| ==> r[i] == PosOutput([grid[i].0] + IntText(grid[i].1))
  {
    seq(|grid|, i requires 0 <= i < |grid| => PosOutput([grid[i].0] + IntText(grid[i].1)))
  }

  /** With only `pos_only` on, `range` reads no cell and yields the position
      texts. */
  lemma {:induction false} ProducePositions(wb: Workbook, sheet: Option<nat>, grid: seq<(char, int)>, flags: Flags, touch: bool)
    requires sheet.Some? ==> sheet.value < |wb.sheets|
    requires !flags.raw && !flags.valueOnly && !flags.cell && flags.posOnly
    ensures Produce(wb, sheet, grid, flags, touch) == Step(Ok(PositionTexts(grid)), wb)
    decreases |grid|
  {
    if |grid| > 0 {
      var o := PosOutput([grid[0].0] + IntText(grid[0].1));
      ProducePositions(wb, sheet, grid[1..], flags, touch);
      assert OutputAt(wb, sheet, grid[0].0, grid[0].1, flags, touch) == Ok((o, wb));
      ProduceCons(wb, sheet, grid, flags, touch, o, wb, PositionTexts(grid[1..]), wb);
      PositionTextsCons(grid);
    }
  }

  lemma PositionTextsCons(grid: seq<(char, int)>)
    requires |grid| > 0
    ensures PositionTexts(grid) == [PosOutput([grid[0].0] + IntText(grid[0].1))] + PositionTexts(grid[1..])
  {
    var r := [PosOutput([grid[0].0] + IntText(grid[0].1))] + PositionTexts(grid[1..]);
    forall i | 0 < i < |grid| ensures r[i] == PositionTexts(grid)[i] {
      assert grid[1..][i - 1] == grid[i];
    }
  }

  /** An iteration whose first step yields `o` and whose rest completes with
      `os` completes with `o` followed by `os`. */
  lemma ProduceCons(wb: Workbook, sheet: Option<nat>, grid: seq<(char, int)>, flags: Flags, touch: bool,
                    o: Output, w: Workbook, os: seq<Output>, last: Workbook)
    requires sheet.Some? ==> sheet.value < |wb.sheets|
    requires |grid| > 0 && OutputAt(wb, sheet, grid[0].0, grid[0].1, flags, touch) == Ok((o, w))
    requires Produce(w, sheet, grid[1..], flags, touch) == Step(Ok(os), last)
    ensures Produce(wb, sheet, grid, flags, touch) == Step(Ok([o] + os), last)
  {
  }

  /** With every switch off, the first position raises `ValueError`; an
      empty range raises nothing. */
  lemma ProduceNothing(wb: Workbook, sheet: Option<nat>, grid: seq<(char, int)>, flags: Flags, touch: bool)
    requires sheet.Some? ==> sheet.value < |wb.sheets|
    requires !flags.raw && !flags.valueOnly && !flags.cell && !flags.posOnly
    ensures Produce(wb, sheet, grid, flags, touch) ==
      if |grid| == 0 then Step(Ok([]), wb) else Step(Err(ValueError(NothingToReturn)), wb)
  {
  }

  /** The bounds `range` iterates: from the spec "start:end", or by default
      from A1 to the sheet's last row and the letter of its last column. */
  function RangeBounds(wb: Workbook, sheet: Option<nat>, spec: string): (r: Result<(string, int, string, int)>)
    requires sheet.Some? ==> sheet.value < |wb.sheets|
    ensures spec != "" ==>
      var parts := Split(spec, ':');
      r.Ok? <==> |parts| == 2 && SplitCell(parts[0]).Ok? && SplitCell(parts[1]).Ok?
    ensures spec != "" && r.Ok? ==>
      var parts := Split(spec, ':');
      (r.value.0, r.value.1) == SplitCell(parts[0]).value && (r.value.2, r.value.3) == SplitCell(parts[1]).value
    ensures spec == "" && r.Ok? ==>
      && sheet.Some? && r.value.0 == "A" && r.value.1 == 1
      && r.value.3 == MaxRowOf(wb.sheets[sheet.value])
      && ColToNum(r.value.2) == MaxColOf(wb.sheets[sheet.value])
    ensures spec == "" && sheet.Some? ==> (r.Err? <==> MaxColOf(wb.sheets[sheet.value]) > 26)
  {
    if spec != "" then
      var parts := Split(spec, ':');
      if |parts| != 2 then Err(ValueError(BadUnpack))
      else
        var start :- SplitCell(parts[0]);
        var end :- SplitCell(parts[1]);
        Ok((start.0, start.1, end.0, end.1))
    else if sheet.None? then Err(AttributeError)
    else
      var s := wb.sheets[sheet.value];
      if MaxColOf(s) > 26 then Err(IndexError)
      else
        var col := [LetterOf(MaxColOf(s) - 1)];
        assert ColToNum(col) == MaxColOf(s) by {
          assert col[..0] == [];
        }
        Ok(("A", 1, col, MaxRowOf(s)))
  }

  /** The sheet `range` works on: the named one, else the active one. */
  function RangeSheet(wb: Workbook, sheet: string): (r: Result<Option<nat>>)
    ensures r.Ok? ==> r.value.Some? ==> r.value.value < |wb.sheets|
    ensures sheet == "" ==> r == Ok(Active(wb))
    ensures sheet != "" ==> (r.Ok? <==> sheet in Titles(wb))
    ensures sheet != "" && r.Ok? ==> r.value.Some? && wb.sheets[r.value.value].title == sheet
  {
    if sheet == "" then Ok(Active(wb))
    else
      var i :- Find(wb, sheet);
      Ok(Some(i))
  }

  /** `range(range_, sheet, raw, value_only, pos_only, cell)`, iterated to
      the end.  An empty `spec` or `sheet` stands for the argument left out.
      `touch` is false for a read-only workbook, which creates no cells. */
  function Range(wb: Workbook, sheet: string, spec: string, flags: Flags, touch: bool): (r: Step<seq<Output>>)
    ensures Titles(r.book) == Titles(wb) && r.book.active == wb.active && r.book.names == wb.names
    ensures forall j, k :: 0 <= j < |wb.sheets| ==> Get(r.book.sheets[j], k) == Get(wb.sheets[j], k)
    ensures ValidBook(wb) ==> ValidBook(r.book)
  {
    match RangeSheet(wb, sheet)
    case Err(e) => Step(Err(e), wb)
    case Ok(chosen) =>
      match RangeBounds(wb, chosen, spec)
      case Err(e) => Step(Err(e), wb)
      case Ok(bounds) =>
        match CharRange(bounds.0, bounds.2)
        case Err(e) => Step(Err(e), wb)
        case Ok(cols) => Produce(wb, chosen, Grid(cols, bounds.1, bounds.3), flags, touch)
  }

  /** `out` holds one item per column of `cols` and row from `r0` to `r1`,
      the columns on the outside: the item in slot `c * n + r` is the one
      expected for column `c` and the `r`-th row. */
  predicate LaidOut(wb: Workbook, chosen: Option<nat>, flags: Flags, cols: seq<char>, r0: int, r1: int, out: seq<Output>)
  {
    var n := |Rows(r0, r1)|;
    && |out| == |cols| * n
    && forall c: nat, r: nat :: c < |cols| && r < n ==>
         Slot(c, n, r) < |out| && Expected(wb, chosen, flags, cols[c], r0 + r, out[Slot(c, n, r)])
  }

  /** A completed `range` yields one item per column and row of its bounds,
      laid out column by column. */
  lemma RangeItems(wb: Workbook, sheet: string, spec: string, flags: Flags, touch: bool)
    requires Range(wb, sheet, spec, flags, touch).result.Ok?
    ensures RangeSheet(wb, sheet).Ok? && RangeBounds(wb, RangeSheet(wb, sheet).value, spec).Ok?
    ensures var chosen := RangeSheet(wb, sheet).value;
      var b := RangeBounds(wb, chosen, spec).value;
      && CharRange(b.0, b.2).Ok?
      && LaidOut(wb, chosen, flags, CharRange(b.0, b.2).value, b.1, b.3, Range(wb, sheet, spec, flags, touch).result.value)
  {
    RangeIsProduce(wb, sheet, spec, flags, touch);
    var chosen := RangeSheet(wb, sheet).value;
    var b := RangeBounds(wb, chosen, spec).value;
    GridItems(wb, chosen, CharRange(b.0, b.2).value, b.1, b.3, flags, touch);
  }

  /** A completed walk over the grid of `cols` and rows `r0..r1` yields its
      items laid out column by column. */
  lemma GridItems(wb: Workbook, chosen: Option<nat>, cols: seq<char>, r0: int, r1: int, flags: Flags, touch: bool)
    requires chosen.Some? ==> chosen.value < |wb.sheets|
    requires Produce(wb, chosen, Grid(cols, r0, r1), flags, touch).result.Ok?
    ensures LaidOut(wb, chosen, flags, cols, r0, r1, Produce(wb, chosen, Grid(cols, r0, r1), flags, touch).result.value)
  {
    var grid := Grid(cols, r0, r1);
    GridShape(cols, r0, r1);
    ProduceOutputs(wb, chosen, grid, flags, touch);
    var out := Produce(wb, chosen, grid, flags, touch).result.value;
    BySlot(cols, r0, |Rows(r0, r1)|, grid, out, (c, r, o) => Expected(wb, chosen, flags, c, r, o));
  }

  /** What holds of each place of a grid and its item holds of the item at
      each column's slot for each row. */
  lemma BySlot<T>(cols: seq<char>, r0: int, n: nat, grid: seq<(char, int)>, out: seq<T>, p: (char, int, T) -> bool)
    requires |out| == |grid| == |cols| * n
    requires forall c: nat, r: nat :: c < |cols| && r < n ==>
      Slot(c, n, r) < |grid| && grid[Slot(c, n, r)] == (cols[c], r0 + r)
    requires forall i :: 0 <= i < |grid| ==> p(grid[i].0, grid[i].1, out[i])
    ensures forall c: nat, r: nat :: c < |cols| && r < n ==>
      Slot(c, n, r) < |out| && p(cols[c], r0 + r, out[Slot(c, n, r)])
  {
    forall c: nat, r: nat | c < |cols| && r < n
      ensures Slot(c, n, r) < |out| && p(cols[c], r0 + r, out[Slot(c, n, r)])
    {
      var i := Slot(c, n, r);
      assert grid[i] == (cols[c], r0 + r);
    }
  }

  /** A completed `range` is the walk over the grid of its bounds. */
  lemma RangeIsProduce(wb: Workbook, sheet: string, spec: string, flags: Flags, touch: bool)
    requires Range(wb, sheet, spec, flags, touch).result.Ok?
    ensures RangeSheet(wb, sheet).Ok? && RangeBounds(wb, RangeSheet(wb, sheet).value, spec).Ok?
    ensures var chosen := RangeSheet(wb, sheet).value;
      var b := RangeBounds(wb, chosen, spec).value;
      && CharRange(b.0, b.2).Ok?
      && Range(wb, sheet, spec, flags, touch) == Produce(wb, chosen, Grid(CharRange(b.0, b.2).value, b.1, b.3), flags, touch)
  {
  }
}

=== FILE: text.dfy ===
/** Character classes, decimal text and Python's string order, as the
    spreadsheet layer relies on them.  Strings are `seq<char>`; only ASCII
    digits are read as digits.
 */
module Text {

  predicate IsDigit(c: char) { '0' <= c <= '9' }

  predicate IsUpper(c: char) { 'A' <= c <= 'Z' }

  predicate IsLower(c: char) { 'a' <= c <= 'z' }

  predicate AllDigits(s: string) { forall i :: 0 <= i < |s| ==> IsDigit(s[i]) }

  predicate NoDigits(s: string) { forall i :: 0 <= i < |s| ==> !IsDigit(s[i]) }

  /** Decimal text as Python's `str` prints a non-negative int: no sign and
      no leading zero. */
  predicate CanonicalDigits(s: string)
  {
    |s| > 0 && AllDigits(s) && (s[0] == '0' ==> |s| == 1)
  }

  function DigitChar(d: int): char
    requires 0 <= d < 10
  {
    (d + '0' as int) as char
  }

  /** Python's `int(s)` on a non-empty string of ASCII digits (leading zeros
      are accepted, as `int` accepts them). */
  function DecimalValue(s: string): nat
    requires AllDigits(s)
  {
    if |s| == 0 then 0
    else DecimalValue(s[..|s| - 1]) * 10 + (s[|s| - 1] as int - '0' as int)
  }

  /** Python's `str(n)` for a non-negative int. */
  function NatText(n: nat): (r: string)
    ensures CanonicalDigits(r)
    ensures r[0] == '0' <==> n == 0
  {
    if n < 10 then [DigitChar(n)]
    else NatText(n / 10) + [DigitChar(n % 10)]
  }

  /** Python's `str(i)` for any int. */
  function IntText(i: int): string
  {
    if i < 0 then "-" + NatText(-i) else NatText(i)
  }

  /** The digit characters of `s`, in order. */
  function Digits(s: string): (r: string)
    ensures AllDigits(r)
    ensures |r| <= |s|
  {
    if |s| == 0 then []
    else (if IsDigit(s[0]) then [s[0]] else []) + Digits(s[1..])
  }

  /** The characters of `s` that are not digits, in order. */
  function NonDigits(s: string): (r: string)
    ensures NoDigits(r)
    ensures |r| <= |s|
  {
    if |s| == 0 then []
    else (if IsDigit(s[0]) then [] else [s[0]]) + NonDigits(s[1..])
  }

  /** Python's `a < b` on `str`: lexicographic on code points, a proper
      prefix sorting first.  (Dafny's `<` on sequences means proper prefix.) */
  predicate LexLess(a: string, b: string)
  {
    if |b| == 0 then false
    else if |a| == 0 then true
    else a[0] < b[0] || (a[0] == b[0] && LexLess(a[1..], b[1..]))
  }

  lemma {:induction false} DigitsSplit(s: string)
    ensures |Digits(s)| + |NonDigits(s)| == |s|
    ensures |Digits(s)| == 0 <==> NoDigits(s)
  {
    if |s| > 0 {
      DigitsSplit(s[1..]);
      if NoDigits(s) {
        assert NoDigits(s[1..]) by {
          forall i | 0 <= i < |s[1..]| ensures !IsDigit(s[1..][i]) {
            assert s[1..][i] == s[i + 1];
          }
        }
      }
      if !IsDigit(s[0]) && NoDigits(s[1..]) {
        forall i | 0 <= i < |s| ensures !IsDigit(s[i]) {
          if i > 0 { assert s[i] == s[1..][i - 1]; }
        }
      }
    }
  }

  lemma {:induction false} DigitsAppend(a: string, b: string)
    ensures Digits(a + b) == Digits(a) + Digits(b)
    ensures NonDigits(a + b) == NonDigits(a) + NonDigits(b)
  {
    KeptDigitsAppend(a, b);
    DroppedDigitsAppend(a, b);
  }

  lemma {:induction false} KeptDigitsAppend(a: string, b: string)
    ensures Digits(a + b) == Digits(a) + Digits(b)
  {
    if |a| == 0 {
      assert a + b == b;
    } else {
      var ab := a + b;
      assert ab[0] == a[0] && ab[1..] == a[1..] + b;
      KeptDigitsAppend(a[1..], b);
      var d: string := if IsDigit(a[0]) then [a[0]] else [];
      assert Digits(ab) == d + Digits(a[1..] + b);
      assert Digits(ab) == d + (Digits(a[1..]) + Digits(b));
    }
  }

  lemma {:induction false} DroppedDigitsAppend(a: string, b: string)
    ensures NonDigits(a + b) == NonDigits(a) + NonDigits(b)
  {
    if |a| == 0 {
      assert a + b == b;
    } else {
      var ab := a + b;
      assert ab[0] == a[0] && ab[1..] == a[1..] + b;
      DroppedDigitsAppend(a[1..], b);
      var n: string := if IsDigit(a[0]) then [] else [a[0]];
      assert NonDigits(ab) == n + NonDigits(a[1..] + b);
      assert NonDigits(ab) == n + (NonDigits(a[1..]) + NonDigits(b));
    }
  }

  lemma {:induction false} DigitsOfDigitText(s: string)
    requires AllDigits(s)
    ensures Digits(s) == s
    ensures NonDigits(s) == []
  {
    if |s| > 0 {
      DigitsOfDigitText(s[1..]);
      assert s == [s[0]] + s[1..];
    }
  }

  lemma {:induction false} DigitsOfLetterText(s: string)
    requires NoDigits(s)
    ensures Digits(s) == []
    ensures NonDigits(s) == s
  {
    if |s| > 0 {
      DigitsOfLetterText(s[1..]);
      assert s == [s[0]] + s[1..];
    }
  }

  /** `int(str(n)) == n`. */
  lemma {:induction false} DecimalOfNatText(n: nat)
    ensures DecimalValue(NatText(n)) == n
  {
    var s := NatText(n);
    if n < 10 {
      assert s[..0] == [];
    } else {
      DecimalOfNatText(n / 10);
      assert s[..|s| - 1] == NatText(n / 10);
    }
  }

  lemma {:induction false} DecimalPositive(s: string)
    requires |s| > 0 && AllDigits(s) && s[0] != '0'
    ensures DecimalValue(s) >= 1
  {
    if |s| > 1 {
      var p := s[..|s| - 1];
      assert p[0] == s[0];
      DecimalPositive(p);
    }
  }

  /** `str(int(s)) == s` for decimal text without a leading zero. */
  lemma {:induction false} NatTextOfDecimal(s: string)
    requires CanonicalDigits(s)
    ensures NatText(DecimalValue(s)) == s
  {
    var n := DecimalValue(s);
    if |s| == 1 {
      assert s[..0] == [];
      assert IsDigit(s[0]);
      assert n == s[0] as int - '0' as int;
    } else {
      var p := s[..|s| - 1];
      var d := s[|s| - 1] as int - '0' as int;
      assert p[0] == s[0];
      DecimalPositive(p);
      NatTextOfDecimal(p);
      assert n == DecimalValue(p) * 10 + d;
      assert n / 10 == DecimalValue(p) && n % 10 == d;
      assert s == p + [s[|s| - 1]];
    }
  }

  /** Appending one character to two equal-length strings: the order of the
      results is decided by the prefixes, then by the appended characters. */
  lemma {:induction false} LexLessSnoc(a: string, b: string, x: char, y: char)
    requires |a| == |b|
    ensures LexLess(a + [x], b + [y]) <==> LexLess(a, b) || (a == b && x < y)
  {
    if |a| > 0 {
      assert (a + [x])[1..] == a[1..] + [x];
      assert (b + [y])[1..] == b[1..] + [y];
      LexLessSnoc(a[1..], b[1..], x, y);
      assert a == b <==> a[0] == b[0] && a[1..] == b[1..] by {
        if a[0] == b[0] && a[1..] == b[1..] {
          assert a == [a[0]] + a[1..] && b == [b[0]] + b[1..];
        }
      }
    }
  }

  /** Python's `s.split(sep)` for a one-character separator: the pieces
      between separators, empty pieces included. */
  function Split(s: string, sep: char): (parts: seq<string>)
    ensures |parts| >= 1
    ensures forall i :: 0 <= i < |parts| ==> sep !in parts[i]
  {
    if |s| == 0 then [""]
    else
      var rest := Split(s[1..], sep);
      if s[0] == sep then [""] + rest
      else [[s[0]] + rest[0]] + rest[1..]
  }

  /** `sep.join(parts)`. */
  function Join(parts: seq<string>, sep: char): string
    requires |parts| >= 1
  {
    if |parts| == 1 then parts[0] else parts[0] + [sep] + Join(parts[1..], sep)
  }

  /** Splitting loses nothing: joining the pieces gives back the text. */
  lemma {:induction false} JoinSplit(s: string, sep: char)
    ensures Join(Split(s, sep), sep) == s
  {
    if |s| > 0 {
      var rest := Split(s[1..], sep);
      JoinSplit(s[1..], sep);
      if s[0] != sep {
        var parts := Split(s, sep);
        assert parts[1..] == rest[1..];
        if |rest| > 1 {
          assert Join(parts, sep) == [s[0]] + rest[0] + [sep] + Join(rest[1..], sep);
        }
      }
    }
  }

  /** A text with exactly one separator splits into the pieces around it. */
  lemma SplitOnce(a: string, b: string, sep: char)
    requires sep !in a && sep !in b
    ensures Split(a + [sep] + b, sep) == [a, b]
  {
    var t := [sep] + b;
    assert t[1..] == b;
    SplitFree(b, sep);
    assert Split(t, sep) == ["", b];
    SplitPrefix(a, t, sep);
    assert a + [sep] + b == a + t;
    assert a + "" == a;
  }

  lemma {:induction false} SplitFree(s: string, sep: char)
    requires sep !in s
    ensures Split(s, sep) == [s]
  {
    if |s| > 0 {
      SplitFree(s[1..], sep);
      assert [s[0]] + s[1..] == s;
    }
  }

  /** Characters other than the separator join the first piece. */
  lemma {:induction false} SplitPrefix(a: string, t: string, sep: char)
    requires sep !in a && |t| > 0 && t[0] == sep
    ensures Split(a + t, sep) == [a + Split(t, sep)[0]] + Split(t, sep)[1..]
  {
    if |a| == 0 {
      assert a + t == t;
      assert a + Split(t, sep)[0] == Split(t, sep)[0];
      assert Split(t, sep) == [Split(t, sep)[0]] + Split(t, sep)[1..];
    } else {
      assert (a + t)[1..] == a[1..] + t;
      assert (a + t)[0] == a[0];
      SplitPrefix(a[1..], t, sep);
      var rest := Split(a[1..] + t, sep);
      assert rest[0] == a[1..] + Split(t, sep)[0];
      assert rest[1..] == Split(t, sep)[1..];
      assert [a[0]] + (a[1..] + Split(t, sep)[0]) == a + Split(t, sep)[0];
    }
  }
}

=== FILE: years.dfy ===
/** The year arithmetic of the DCF initialiser: the bounds on the numbers of
    historic and forecast years, the window of past years, the one-year
    fallback when the latest statements are not yet published, the years
    seeded into the forecast sheet and the year window of the competitor
    query.  The clock is a parameter (`current`, the calendar year); the
    statement and competitor providers are oracles that only say whether
    they delivered. */
module Years {
  import opened Outcomes

  /** Bounds of the Excel template. */
  const MaxForecast: int := 10
  const MaxHistoric: int := 10
  const MinHistoric: int := 3

  // ---------------------------------------------------------------- check_years

  /** `check_years(historic, forecast)`: each count brought into its bounds
      on its own, the forecast into 1 .. 10 and the history into 3 .. 10.
      The result is the pair (historic, forecast). */
  function CheckYears(historic: int, forecast: int): (r: (int, int))
    ensures MinHistoric <= r.0 <= MaxHistoric && 1 <= r.1 <= MaxForecast
    ensures MinHistoric <= historic <= MaxHistoric ==> r.0 == historic
    ensures 1 <= forecast <= MaxForecast ==> r.1 == forecast
    ensures forall y :: MinHistoric <= y <= MaxHistoric ==> Distance(r.0, historic) <= Distance(y, historic)
    ensures forall y :: 1 <= y <= MaxForecast ==> Distance(r.1, forecast) <= Distance(y, forecast)
  {
    var f := if forecast > MaxForecast then MaxForecast else if forecast < 1 then 1 else forecast;
    var h := if historic > MaxHistoric then MaxHistoric else if historic < MinHistoric then MinHistoric else historic;
    (h, f)
  }

  function Distance(a: int, b: int): nat
  {
    if a < b then b - a else a - b
  }

  function Min(a: int, b: int): int { if a < b then a else b }

  function Max(a: int, b: int): int { if a < b then b else a }

  /** `x` brought into `lo .. hi`. */
  function Clamp(x: int, lo: int, hi: int): int
    requires lo <= hi
  {
    Max(lo, Min(x, hi))
  }

  /** `check_years` clamps both counts, each independently of the other. */
  lemma CheckYearsClamps(historic: int, forecast: int)
    ensures CheckYears(historic, forecast) == (Clamp(historic, MinHistoric, MaxHistoric), Clamp(forecast, 1, MaxForecast))
  {
  }

  /** The counts `check_years` returns pass it unchanged. */
  lemma CheckYearsIdempotent(historic: int, forecast: int)
    ensures var r := CheckYears(historic, forecast);
      CheckYears(r.0, r.1) == r
  {
  }

  /** The historic count does not depend on the forecast count, nor the
      forecast count on the historic one. */
  lemma CheckYearsIndependent(h1: int, f1: int, h2: int, f2: int)
    ensures CheckYears(h1, f1).0 == CheckYears(h1, f2).0
    ensures CheckYears(h1, f1).1 == CheckYears(h2, f1).1
  {
  }

  // ---------------------------------------------------------------- year windows

  /** `get_list_years(n)` in calendar year `current`: the `n` last years,
      latest first; an `n` of zero or less gives no years. */
  function ListYears(current: int, n: int): (r: seq<int>)
    ensures |r| == Max(n, 0)
    ensures |r| > 0 ==> r[0] == current
    ensures forall i :: 0 < i < |r| ==> r[i] == r[i - 1] - 1
  {
    if n <= 0 then []
    else seq(n, i requires 0 <= i < n => current - i)
  }

  /** The same window built one year at a time, latest first. */
  function YearsDown(current: int, n: nat): seq<int>
    decreases n
  {
    if n == 0 then [] else [current] + YearsDown(current - 1, n - 1)
  }

  lemma {:induction false} ListYearsIsYearsDown(current: int, n: nat)
    ensures ListYears(current, n) == YearsDown(current, n)
    decreases n
  {
    if n > 0 {
      ListYearsIsYearsDown(current - 1, n - 1);
      assert ListYears(current, n)[1..] == ListYears(current - 1, n - 1);
    }
  }

  /** The years of a window fall strictly, latest first, and all lie in
      `current - n + 1 .. current`. */
  lemma {:induction false} ListYearsStrictlyDecreasing(current: int, n: int)
    ensures var r := ListYears(current, n);
      && (forall i, j :: 0 <= i < j < |r| ==> r[i] > r[j])
      && (forall i :: 0 <= i < |r| ==> current - n < r[i] <= current)
  {
    var r := ListYears(current, n);
    forall i | 0 <= i < |r| ensures r[i] == current - i {
      ListYearsAt(current, n, i);
    }
  }

  lemma ListYearsAt(current: int, n: int, i: nat)
    requires i < |ListYears(current, n)|
    ensures ListYears(current, n)[i] == current - i
  {
  }

  /** The fallback window `get_list_years(n + 1)[1:]` is the window of the
      year before: `n` years, starting at `current - 1`. */
  lemma FallbackWindow(current: int, n: int)
    requires n >= 0
    ensures ListYears(current, n + 1)[1..] == ListYears(current - 1, n)
    ensures |ListYears(current, n + 1)[1..]| == n
    ensures n > 0 ==> ListYears(current, n + 1)[1..][0] == current - 1
  {
    var a := ListYears(current, n + 1)[1..];
    var b := ListYears(current - 1, n);
    forall i | 0 <= i < n ensures a[i] == b[i] {
      ListYearsAt(current, n + 1, i + 1);
      ListYearsAt(current - 1, n, i);
    }
  }

  // ---------------------------------------------------------------- latest statements

  /** What `get_latest_financial_statements` hands back: the statements of
      a window with its latest year, or the `(None, None, None, -1)` of a
      double failure. */
  datatype Statements = Found(window: seq<int>, latest: int) | Missing

  /** The year fields of `get_latest_financial_statements(n, ticker)`
      together with the new value of the global `historic_years`.  The
      window of the `n` last years is fetched first; when that fails, the
      window of the year before; when that fails too, nothing is returned.
      `fetch` says whether `get_financial_statements` handed the three
      statements of a window back; `Delivered` below says when it does.
      Reading `historic_years[0]` of an empty window raises `IndexError`,
      the global having been set to that empty window first; the error
      result does not carry it. */
  function LatestStatements(n: int, current: int, fetch: seq<int> -> bool): (r: Result<(Statements, seq<int>)>)
    ensures r.Ok? <==> n > 0
    ensures r.Ok? && r.value.0.Found? ==>
      && fetch(r.value.0.window)
      && r.value.0.window == r.value.1
      && |r.value.0.window| == n
      && r.value.0.latest == r.value.0.window[0]
    ensures r.Ok? && r.value.0.Found? && r.value.0.latest == current ==> r.value.0.window == ListYears(current, n)
    ensures r.Ok? && r.value.0.Missing? ==> !fetch(ListYears(current, n)) && !fetch(ListYears(current - 1, n))
    ensures r.Ok? && fetch(ListYears(current, n)) ==> r.value.0 == Found(ListYears(current, n), current)
    ensures r.Ok? && !fetch(ListYears(current, n)) ==> r.value.1 == ListYears(current - 1, n)
    ensures r.Ok? && !fetch(ListYears(current, n)) && fetch(ListYears(current - 1, n)) ==>
      r.value.0 == Found(ListYears(current - 1, n), current - 1)
    ensures r.Ok? && !fetch(ListYears(current, n)) && !fetch(ListYears(current - 1, n)) ==> r.value.0 == Missing
  {
    var years := ListYears(current, n);
    if |years| == 0 then Err(IndexError)
    else
      var latest := years[0];
      if fetch(years) then Ok((Found(years, latest), years))
      else
        var fallback := ListYears(current, n + 1)[1..];
        FallbackWindow(current, n);
        if fetch(fallback) then Ok((Found(fallback, latest - 1), fallback))
        else Ok((Missing, fallback))
  }

  /** What the three provider calls did for one window: whether one of them
      raised, and whether any of them issued a warning. */
  datatype Lookup = Lookup(raised: bool, warned: bool)

  /** Whether `get_financial_statements` hands a window back as written.
      `warnings.catch_warnings()` is entered without `record=True`, so the
      `w` it binds is None, `if w:` never holds, and only an exception
      sends the lookup to the fallback. */
  function DeliveredAsWritten(l: Lookup): bool
  {
    !l.raised
  }

  /** Whether it hands a window back as its "catch warnings as errors"
      comment intends: a warning is a failure too.  This is the reading
      of `fetch` the model takes. */
  function Delivered(l: Lookup): bool
  {
    !l.raised && !l.warned
  }

  /** As written, a window whose lookup only warned is accepted: the
      statements come from the current window although the providers
      warned about it. */
  lemma WarnedWindowKeptAsWritten(n: int, current: int, lookup: seq<int> -> Lookup)
    requires n > 0 && lookup(ListYears(current, n)) == Lookup(false, true)
    ensures LatestStatements(n, current, w => DeliveredAsWritten(lookup(w)))
      == Ok((Found(ListYears(current, n), current), ListYears(current, n)))
  {
  }

  /** As intended, a found window was looked up without an exception and
      without a warning, and a warning about the current window sends the
      lookup to the year before. */
  lemma FoundWindowHadNoWarning(n: int, current: int, lookup: seq<int> -> Lookup)
    ensures var r := LatestStatements(n, current, w => Delivered(lookup(w)));
      r.Ok? && r.value.0.Found? ==> !lookup(r.value.0.window).raised && !lookup(r.value.0.window).warned
    ensures var r := LatestStatements(n, current, w => Delivered(lookup(w)));
      n > 0 && lookup(ListYears(current, n)).warned ==> r.Ok? && r.value.0 != Found(ListYears(current, n), current)
  {
  }

  /** Whatever `check_years` lets through, the statements step never
      indexes an empty window, and a found window has the history's
      length and ends in the current year or the one before. */
  lemma CheckedHistoryNeverEmpty(historic: int, forecast: int, current: int, fetch: seq<int> -> bool)
    ensures var n := CheckYears(historic, forecast).0;
      var r := LatestStatements(n, current, fetch);
      && r.Ok?
      && |r.value.1| == n >= MinHistoric
      && (r.value.0.Found? ==> r.value.0.latest == current || r.value.0.latest == current - 1)
  {
    var n := CheckYears(historic, forecast).0;
    FallbackWindow(current, n);
  }

  // ---------------------------------------------------------------- seeded years

  /** The year row `seed_years(doc, start, n)` writes: `start` up to
      `start + n`, ascending. */
  function SeedYears(start: int, n: int): (r: seq<int>)
    ensures |r| == Max(n + 1, 0)
    ensures |r| > 0 ==> r[0] == start && r[|r| - 1] == start + n
    ensures forall i :: 0 < i < |r| ==> r[i] == r[i - 1] + 1
  {
    if n + 1 <= 0 then []
    else seq(n + 1, i requires 0 <= i < n + 1 => start + i)
  }

  function Reverse(xs: seq<int>): (r: seq<int>)
    ensures |r| == |xs|
    ensures forall i :: 0 <= i < |xs| ==> r[i] == xs[|xs| - 1 - i]
  {
    if |xs| == 0 then [] else Reverse(xs[1..]) + [xs[0]]
  }

  /** The seeded row is the window of the `n + 1` years up to `start + n`,
      read oldest first. */
  lemma SeedYearsReversesWindow(start: int, n: int)
    requires n >= 0
    ensures SeedYears(start, n) == Reverse(ListYears(start + n, n + 1))
  {
    var a := SeedYears(start, n);
    var w := ListYears(start + n, n + 1);
    forall i | 0 <= i < n + 1 ensures a[i] == Reverse(w)[i] {
      ListYearsAt(start + n, n + 1, n - i);
      SeedYearsAt(start, n, i);
    }
  }

  lemma SeedYearsAt(start: int, n: int, i: nat)
    requires i < |SeedYears(start, n)|
    ensures SeedYears(start, n)[i] == start + i
  {
  }

  // ---------------------------------------------------------------- competitors

  /** The competitor step of `get_competitor_info`: which tickers are
      queried for which years.  `Query` carries the tickers and the year
      window of the statements queried; `NoQuery` is every path on which
      the function returns `None` — no competitors anywhere, or multiples
      already in the database (that branch falls off the end of the
      function). */
  datatype CompetitorQuery = Query(tickers: seq<string>, years: seq<int>) | NoQuery

  /** `get_competitor_info(ticker)` with the global competitor list
      `known`, the tickers the lookup `found` (consulted only when `known`
      is empty), whether the database already has the multiples, and the
      global `historic_years`.  The result also gives the new global
      competitor list; on `IndexError` the source has already stored the list
      it chose in the global, which the error result does not carry. */
  function SelectCompetitors(known: seq<string>, found: seq<string>, cached: bool, historic: seq<int>): (r: Result<(CompetitorQuery, seq<string>)>)
    ensures |known| > 0 ==> r.Ok? ==> r.value.1 == known
    ensures |known| == 0 && r.Ok? ==> r.value.1 == found
    ensures |known| == 0 && |found| == 0 ==> r == Ok((NoQuery, []))
    ensures r.Ok? && r.value.0.Query? ==> r.value.0.tickers == r.value.1 && |r.value.1| > 0 && !cached
    ensures r.Ok? && r.value.0.Query? ==> |historic| > 0 && r.value.0.years == ListYears(historic[0], 3)
    ensures r.Err? <==> (|known| > 0 || |found| > 0) && !cached && |historic| == 0
  {
    var chosen := if |known| == 0 then found else known;
    if |chosen| == 0 then Ok((NoQuery, []))
    else if cached then Ok((NoQuery, chosen))
    else if |historic| == 0 then Err(IndexError)
    else
      var latest := historic[0];
      Ok((Query(chosen, [latest, latest - 1, latest - 2]), chosen))
  }

  /** The year flow of `prepare_and_save_excel`: after `check_years` and a
      successful statements step, the competitor step cannot fail, and
      the competitors are queried for the three years ending in the latest
      year of the main company's statements. */
  lemma CompetitorWindowFollowsStatements(historic: int, forecast: int, current: int, fetch: seq<int> -> bool,
                                          known: seq<string>, found: seq<string>, cached: bool)
    requires LatestStatements(CheckYears(historic, forecast).0, current, fetch).Ok?
    requires LatestStatements(CheckYears(historic, forecast).0, current, fetch).value.0.Found?
    ensures var st := LatestStatements(CheckYears(historic, forecast).0, current, fetch).value;
      var c := SelectCompetitors(known, found, cached, st.1);
      && c.Ok?
      && (c.value.0.Query? ==> c.value.0.years == [st.0.latest, st.0.latest - 1, st.0.latest - 2])
  {
    var st := LatestStatements(CheckYears(historic, forecast).0, current, fetch).value;
    var c := SelectCompetitors(known, found, cached, st.1);
    if c.Ok? && c.value.0.Query? {
      ListYearsAt(st.0.latest, 3, 1);
      ListYearsAt(st.0.latest, 3, 2);
    }
  }
}
